=== FILE: README.md ===
# Sisimai bounce parsers for Exim, Mail.ru, SendGrid, Aol and MessageLabs

Sisimai reads a bounce email and turns it into delivery-status records. Each
MTA or mail provider has its own "Lhost" adapter. This project models the
`inquire(mhead, mbody)` method of five of them:

- `Sisimai::Lhost::Exim`: Exim's free-text bounce, or its RFC 3464 part;
- `Sisimai::Lhost::MailRu`: Mail.ru's Exim-derived bounce;
- `Sisimai::Lhost::SendGrid`, `Sisimai::Lhost::Aol` and `Sisimai::Lhost::MessageLabs`:
  bounces whose delivery-status part follows RFC 3464.

Every adapter does the same three things:

- it decides from the headers whether the message is one of its own, and returns
  nil otherwise;
- it scans the body lines and builds the list `dscontents`, with one record per
  recipient found;
- it fills in each record's defaults, status, reason and SMTP command.

The model is purely functional. An adapter is a function
`Inquire(env, headers, body): Outcome` that returns one of three things:

- `Declined`: the method returns nil;
- `Parsed(records, rfc822)`: the method returns a result;
- `Raised(crash)`: the Ruby code calls a method on nil and raises
  `NoMethodError`. The code can do this, so the model does too.

Modules:

- `Options`, `Text`: nil-able values, and the Ruby string operations the adapters
  use (`start_with?`, `include?`, `index`, `rindex`, `[start, len]`,
  `split`, `strip`, `tr`, `upcase`).
- `Records`: the record hash `Lhost.DELIVERYSTATUS` with its thirteen keys,
  the `dscontents` list, the operation "open a record for a new recipient", and
  the recipient column used to state scan results.
- `Collaborators`: library routines the adapters call whose code is not
  modelled (`RFC1894.match/field/FIELDTABLE`, `RFC5322.part/received`,
  `String.sweep`, `Address.s3s4`, `SMTP::Status.find/code`,
  `SMTP::Reply.find`, `SMTP::Command.find`, `RFC2045.boundary`). Each one is a
  function-valued field of `Env`. Every property below holds for all such functions.
- `Tables`: the first-match reason tables (`MessagesOf`) and the SMTP command
  regexes (`ReCommands`).
- `Hosts`: finding the remote host from the diagnosis or the last Received header.
- `Dsn`: the RFC 3464 field fold shared by SendGrid, Aol and MessageLabs. It
  covers:
  - the Final-Recipient rule;
  - what each kind of field does to the current record and the per-message cache;
  - the Diagnostic-Code continuation lookback (`readslices[-2]`);
  - the whole scan loop of Aol and MessageLabs, whose two loops differ only in
    a `Config`: which table fields are cached as per-message, which non-field
    lines continue a Diagnostic-Code field, and what such a line appends.
    SendGrid keeps its own loop, because it also tracks the SMTP command and
    reads an untyped Diagnostic-Code line.
- `Exim`, `MailRu`, `SendGrid`, `Aol`, `MessageLabs`: the adapters.

The scan of each adapter is a left fold of a `Step` function over the body
lines. For each scan, a lemma compares it with an independent reference
definition of the recipient list. For Exim and Mail.ru the reference is the
address each line names. For the other three it is the Final-Recipient
values (`FinalRecipients`). For Mail.ru and the three delivery-status
adapters, the lemma states that the scan produces exactly one record per
reference entry, in the same order. For Exim the scan rolls the column
forward by the named addresses. It gives one record per entry only when
every named address is present: a recipient line whose address is nil
leaves the current record without a recipient, and the next recipient line
fills that same record.

Where the source comments and the code disagree, the model follows the code.
Four cases:

- Exim, `exim.rb:134-140`: `%w[...]` splits the quoted subject phrases into
  single words such as `'Mail` and `in`. The recogniser therefore looks for
  those words. See `Exim.LooseSubjectWord`.
- Exim, `exim.rb:450-458`: the comment says the Diagnostic-Code reply code is
  preferred. In the code, an existing Status is always kept (`Exim.ReconcileStatus`).
- Mail.ru, `mailru.rb:135`: `a.delete(' ')` returns a new string and the
  result is discarded. The X-Failed-Recipients entries therefore keep their
  spaces (`MailRu.FailedRecipients`).
- MessageLabs: `commandset` is never filled, so every command is `''`
  (`MessageLabs.CommandAlwaysEmpty`).

## Model

| member | source | states |
|---|---|---|
| Exim.Score | lib/sisimai/lhost/exim.rb:130-141 | at most three signals; two or more exactly when two of these hold: From begins 'Mail Delivery System', the Message-Id looks like Exim's, the subject contains a listed word |
| Exim.MessageIdShape | lib/sisimai/lhost/exim.rb:133 | an Exim Message-Id starts with '<', its first '-' is at index 8 and its first '@' at index 18 |
| Exim.LooseSubjectWord | lib/sisimai/lhost/exim.rb:134-140 | any subject containing "in" already counts as a subject signal, because `%w` split the phrases into words |
| Exim.PreambleSkipped | lib/sisimai/lhost/exim.rb:159-170 | lines before the first line containing a start marker have no effect on the scan; that line only sets the cursor, unless it also carries a frozen marker, in which case it is read as the report's first line |
| Exim.ScanLines | lib/sisimai/lhost/exim.rb:162-168 | once the report has begun, the cursor never returns to before it |
| Exim.RecipientLineChars | lib/sisimai/lhost/exim.rb:184-197 | a line names a recipient iff it is two spaces, then a character other than space or '<', contains '@' and '.', and lacks 'pipe to \|'; or it contains the undisclosed-address marker |
| Exim.ReadLine | lib/sisimai/lhost/exim.rb:180-309 | the branches in the source's order: a recipient line pushes its address onto the column and counts it (the recipient-line rule); otherwise column, count and number of records stay, and a generated-from/by line sets the current record's alias to the address after the last space, a frozen notice is appended to `alterrors` with a space, and any other line is a delivery-status or plain-text line; earlier records are never touched |
| Exim.RecipientLine | lib/sisimai/lhost/exim.rb:197-237 | a recipient line appends its address to the column and counts it; it writes into the current record while that has no recipient, else into a fresh blank record, keeping the old one and earlier records unchanged; the written record is the one it started from with the address as recipient and, for a line with `<address>:` after index 1, the swept text after the `>`, starting at its `:`, as diagnosis |
| Exim.StatusPartLine | lib/sisimai/lhost/exim.rb:253-288 | in the delivery-status part, a line RFC1894.match accepts is read as a field (StatusField) when RFC1894.field can read it and skipped otherwise; any other line is error text (StatusNote); the column, the count and the number of records never change, and earlier records are never touched |
| Exim.StatusField | lib/sisimai/lhost/exim.rb:256-277 | in the delivery-status part, a Final-Recipient field sets the spec to SMTP (an address with '@') or X-UNIX unless one is set, another address field changes nothing, a Diagnostic-Code field sets spec and diagnosis, and another field FIELDTABLE names is stored under its key, else ignored; only the current record changes |
| Exim.StatusNote | lib/sisimai/lhost/exim.rb:278-287 | a non-field line after the delivery-status header changes nothing; before it, the header line sets the flag, `alterrors` is made to exist, and a line starting with white space is appended without that indentation and only when not already contained |
| Exim.PlainLine | lib/sisimai/lhost/exim.rb:289-307 | in a bounce without a boundary, once there are as many records as recipient lines counted (a recipient line with a nil address leaves the current record without a recipient), the line is appended to the diagnosis with two spaces; before that a pipe line replaces the diagnosis, a four-space line is appended to `alterrors`, and any other line changes nothing; only the current record changes |
| Exim.Step | lib/sisimai/lhost/exim.rb:159-310 | a line that is not read (before the start marker, the bare opener, or an empty line) changes only the cursor; a read line is handled as a report line; the column changes exactly when the line is read and names a recipient |
| Exim.ScanFollowsAddresses | lib/sisimai/lhost/exim.rb:159-310 | the scanned recipient column is the starting column rolled forward by the addresses the lines name, and the count grows by their number |
| Exim.BodyRecipientsInOrder | lib/sisimai/lhost/exim.rb:197-237 | when every named address is present, the records are exactly one per named address, in body order |
| Exim.AppendOnce | lib/sisimai/lhost/exim.rb:283-287 | the alternative error text contains the line afterwards; it is extended only when it did not contain it before |
| Exim.AppendOnceIdempotent | lib/sisimai/lhost/exim.rb:286 | appending the same line twice is the same as appending it once |
| Exim.Realias | lib/sisimai/lhost/exim.rb:312-322 | without a non-empty alias the record is kept; a non-empty alias with a nil recipient raises; a non-empty alias replaces a recipient that is empty or has no '@', and exactly then; nothing but the recipient changes |
| Exim.Collected | lib/sisimai/lhost/exim.rb:312-343 | raises (nil recipient) exactly when the body has recipients and some record fails re-aliasing; otherwise the count is zero exactly when neither the body nor X-Failed-Recipients names a recipient; with body recipients, each record is the re-aliased scanned record, one for one; without, the X-Failed-Recipients fallback, one record per entry carrying that entry |
| Exim.FailedRecipients | lib/sisimai/lhost/exim.rb:325-333 | the X-Failed-Recipients header, split on commas, each entry stripped; none when the header is absent |
| Exim.Fallback | lib/sisimai/lhost/exim.rb:333-341 | with entries, one record per entry carrying that entry as recipient; the first reuses the scanned record and the rest are blank |
| Exim.LocalHost | lib/sisimai/lhost/exim.rb:345-351 | the word after 'from ' in the last Received header when it ends at a space, else '' |
| Exim.FromAnchor | lib/sisimai/lhost/exim.rb:357-380 | a record with a diagnosis, or in a bounce without a boundary, is kept; otherwise the first record itself gets the diagnosis '' and a later record the first record's diagnosis ('' for nil), its spec when it has none, and its non-empty `alterrors`; nothing else changes |
| Exim.AnchorLendsNoAltErrors | lib/sisimai/lhost/exim.rb:375-378 | a first record without alternative errors lends none |
| Exim.MergeAltErrors | lib/sisimai/lhost/exim.rb:382-398 | without alternative errors nothing changes; otherwise they are consumed, fill a missing or empty diagnosis, and replace a present one exactly when it starts with '-', ends with '__', or is shorter and contained in them ignoring case |
| Exim.CleanDiagnosis | lib/sisimai/lhost/exim.rb:399-400 | the swept diagnosis ('' for nil), cut just before its first '__' when that lies past index 1, and whole otherwise |
| Hosts.RemoteHost | lib/sisimai/lhost/exim.rb:402-413 | an existing remote host is kept; otherwise the word after 'host ' in the diagnosis, otherwise the last host of the last Received header |
| Exim.Classify | lib/sisimai/lhost/exim.rb:415-447 | the command is the first ReCommands match upper-cased; HELO/EHLO give blocked, MAIL onhold, else the first reason-table hit, the kept reason, expired or mailererror |
| Exim.ReconcileStatus | lib/sisimai/lhost/exim.rb:459-499 | an existing status is kept; else a status found in the diagnosis when its first digit is non-zero; with no status found, a reply code whose first digit is 4 or 5 gives a temporary or permanent pseudo status for the reason, and any other non-zero first digit gives ''; when the found status or the reply code has first digit 0, or there is neither, a pseudo status for the reason, temporary for expired and mailboxfull, permanent otherwise |
| Exim.Finish | lib/sisimai/lhost/exim.rb:353-500 | the record is the anchor copy followed by the alternative-error merge, with exactly six keys then rewritten: lhost defaulted to the local host, the diagnosis swept and cut, the remote host by RemoteHost, command and reason by Classify of that diagnosis when it had no command, and the status by ReconcileStatus; every other key (spec, reply code, recipient, alias, action, date) is that of the merged record |
| Exim.FinishAll | lib/sisimai/lhost/exim.rb:353-500 | the first record is finished alone, every later one against the finished first record, in place and in order |
| Exim.FinishAllKeepsColumn | lib/sisimai/lhost/exim.rb:353-500 | post-processing never changes a recipient |
| Exim.Inquire | lib/sisimai/lhost/exim.rb:125-503 | declined unless recognised; when recognised, declined exactly when the body has no recipient line and X-Failed-Recipients has no entry; a result is exactly the post-processing (FinishAll) of the collected records; the only exception is re-aliasing a record with no recipient |
| Exim.InquireRecords | lib/sisimai/lhost/exim.rb:312-343 | the records returned are the body's records with their aliases applied, one for one; with no recipient in the body, one per X-Failed-Recipients entry carrying that entry |
| Exim.ParsedRecords | lib/sisimai/lhost/exim.rb:159-343 | when every recipient line yields an address containing '@', the result's recipients are exactly those addresses in body order |
| Exim.FallbackRecords | lib/sisimai/lhost/exim.rb:323-343 | when the report has no recipient line, the result's recipients are the stripped X-Failed-Recipients entries in order |
| MailRu.Score | lib/sisimai/lhost/mailru.rb:53-65 | all three signals (daemon From at mail.ru, mail.ru Message-Id, subject phrase) are needed |
| MailRu.RecipientTest | lib/sisimai/lhost/mailru.rb:106 | an indented line without '@' raises on `nil > 1`; otherwise a recipient iff indented, no four-space run, and '@' past index 1 |
| MailRu.ReadLine | lib/sisimai/lhost/mailru.rb:104-127 | a recipient line adds `e[2..]` to the recipient column and counts it, writing into the current record while that has no recipient and into a fresh blank record otherwise; while there are as many records as recipient lines counted, another line is appended to the current diagnosis with a trailing space; before that, only a line starting with four spaces is appended to the alternative errors, and any other line changes nothing; earlier records are never touched |
| MailRu.Step | lib/sisimai/lhost/mailru.rb:75-128 | before the start line only reading can change; once reading, an empty line is skipped, and any other line raises the nil comparison exactly when the recipient test does, and is otherwise read (ReadLine) as a recipient line exactly when the test says so |
| MailRu.ScanFollowsAddresses | lib/sisimai/lhost/mailru.rb:75-128 | the scan raises iff some read line is indented without '@'; otherwise its column is the addresses the lines name, rolled onto the start |
| MailRu.BodyRecipientsInOrder | lib/sisimai/lhost/mailru.rb:106-114 | with recipients, the records are exactly one per named address, in order |
| MailRu.PreambleSkipped | lib/sisimai/lhost/mailru.rb:78-82 | lines before the start line, and the start line itself, have no effect |
| MailRu.FailedRecipients | lib/sisimai/lhost/mailru.rb:132-136 | the X-Failed-Recipients entries split on commas, spaces kept |
| MailRu.Collected | lib/sisimai/lhost/mailru.rb:130-146 | the body's records when it named a recipient; otherwise one record per X-Failed-Recipients entry, carrying that entry |
| Records.FillFromList | lib/sisimai/lhost/mailru.rb:138-143 | one record per entry, each with that entry as recipient; the first reuses the current record |
| Records.AddRecipient | lib/sisimai/lhost/mailru.rb:108-114 | the current record takes the address while it has no recipient; otherwise it is kept and a blank record holding only the address is appended; earlier records are unchanged |
| MailRu.LocalHost | lib/sisimai/lhost/mailru.rb:148-154 | '' without a Received header or without 'from '; otherwise the slice after 'from ', nil when no space follows |
| MailRu.MergeAltErrors | lib/sisimai/lhost/mailru.rb:160-168 | without alternative errors nothing changes; otherwise they are consumed and fill a missing diagnosis, and a present one is replaced by them exactly when it starts with '-' or ends with '__' |
| MailRu.CleanDiagnosis | lib/sisimai/lhost/mailru.rb:169-171 | the swept diagnosis ('' for nil), cut one character before its last '__' when that lies past index 2, and whole otherwise |
| MailRu.Classify | lib/sisimai/lhost/mailru.rb:186-213 | the command is the first ReCommands match; HELO/EHLO give blocked, MAIL rejected, else the first reason-table hit or the kept reason |
| MailRu.Finish | lib/sisimai/lhost/mailru.rb:156-215 | the record is the alternative-error merge with exactly five keys then rewritten: lhost defaulted, the diagnosis swept and cut, the remote host by RemoteHost, and, without a command, the reason from Classify and the command from it or ''; every other key passes through |
| MailRu.FinishAll | lib/sisimai/lhost/mailru.rb:156-215 | every record is finished, in order |
| MailRu.Inquire | lib/sisimai/lhost/mailru.rb:52-217 | declined unless recognised; raises exactly when the scan raises; otherwise declined exactly when neither the body nor X-Failed-Recipients names a recipient; a result is exactly the post-processing (FinishAll) of the collected records, so it keeps the body's recipient column or carries one record per header entry |
| MailRu.ParsedRecords | lib/sisimai/lhost/mailru.rb:75-146 | raises exactly when a line inside the report is indented without '@'; a result carries the recipient lines' addresses in order, or the X-Failed-Recipients entries when there are none |
| Dsn.AddressField | lib/sisimai/lhost/sendgrid.rb:63-78 | a Final-Recipient adds its address to the column and counts it, writing into the current record while it has no recipient and into a fresh blank record otherwise; another address sets the alias of the current record; earlier records are unchanged |
| Dsn.CodeField | lib/sisimai/lhost/sendgrid.rb:79-82 | a Diagnostic-Code field sets spec and diagnosis of the current record; earlier records, the column and the cache are unchanged |
| Dsn.TableField | lib/sisimai/lhost/aol.rb:84-90 | a field FIELDTABLE names is stored on the current record, and in the per-message cache when the adapter caches it; an unknown field changes nothing; earlier records are unchanged |
| Dsn.OpenRecipient | lib/sisimai/lhost/sendgrid.rb:66-73 | a Final-Recipient pushes its address onto the column and counts it; a record is opened exactly when the current one has a recipient, which is then kept unchanged; the record written is the current one, or a blank one when opened, with the address as recipient; earlier records are untouched |
| Dsn.SetAlias | lib/sisimai/lhost/sendgrid.rb:74-77 | another address field sets the alias of the current record only: same length, column and count, earlier records untouched |
| Dsn.ReadField | lib/sisimai/lhost/aol.rb:59-91 | an unreadable field is skipped; a readable one binds the current record and changes the column only for a Final-Recipient; by its kind, it is an address field (Final-Recipient or alias), a code field (spec and diagnosis) or a table field cached as the caller says |
| Dsn.Continue | lib/sisimai/lhost/messagelabs.rb:89-95 | a continuation appends a space and its text to the diagnosis (nil read as '') and rewrites the line as a Diagnostic-Code line |
| Dsn.PerMessageDefaults | lib/sisimai/lhost/aol.rb:104-105 | every missing value is taken from the per-message cache; lhost falls back to the cached rhost first |
| Dsn.Step | lib/sisimai/lhost/aol.rb:46-99 | before the start line only the cursor and lookback change; once reading, a field line is read as a field (ReadField), cached at level 1 or, where the adapter caches every level, at any level, an empty line or a line continuing nothing only moves the lookback, and the column grows exactly on a Final-Recipient; a table field reaches the cache only at a cached level; a continuation extends the diagnosis by its piece; it raises only on a continuation with an unbound record or a nil diagnosis |
| Dsn.ScanLines | lib/sisimai/lhost/messagelabs.rb:43-96 | the loop keeps the records consistent with the Final-Recipient count, never leaves the report once begun, and raises only the two nil errors of a continuation |
| Dsn.ScanFollowsReport | lib/sisimai/lhost/aol.rb:46-99 | without a crash, the scanned column is the reference Final-Recipient values rolled onto the start, and the count grows by their number |
| Dsn.OneRecordPerFinalRecipient | lib/sisimai/lhost/messagelabs.rb:61-76 | with recipients, the records are exactly one per Final-Recipient, in order, and their number is the count |
| Dsn.ContinuationsChain | lib/sisimai/lhost/aol.rb:93-97 | a run of continuation lines after a Diagnostic-Code line appends a space and each line's piece to the one diagnosis; nothing else in the records changes |
| Dsn.NilDiagnosisRaises | lib/sisimai/lhost/aol.rb:96 | a continuation line for a record without a diagnosis raises |
| SendGrid.UntypedDiagnosis | lib/sisimai/lhost/sendgrid.rb:59 | the first ':' is at index 15, and the diagnosis is everything after the prefix 'Diagnostic-Code: ' |
| SendGrid.UntypedField | lib/sisimai/lhost/sendgrid.rb:56-61 | a field line RFC1894.field cannot read sets the current record's diagnosis to the text after `Diagnostic-Code: ` when it starts with that prefix, and changes nothing otherwise; no other record, the column and the cache are kept |
| SendGrid.FieldLine | lib/sisimai/lhost/sendgrid.rb:50-101 | a field line binds the current record; only a Final-Recipient changes the column; a readable field is an address, code or table field by its kind, every table field being cached; an Arrival-Date line changes no record and no cache; an unreadable line is an untyped Diagnostic-Code or nothing (UntypedField) |
| SendGrid.OtherLine | lib/sisimai/lhost/sendgrid.rb:102-118 | a found SMTP command replaces the last one and changes nothing else; an untyped `Diagnostic-Code: ` line sets the current record's diagnosis to the text after the prefix, raising exactly when no record is bound; a continuation extends the diagnosis with the swept line; any other line only moves the lookback; it raises only before any record is bound |
| SendGrid.Step | lib/sisimai/lhost/sendgrid.rb:37-119 | before the start line only the cursor and the lookback change; once reading, the column grows exactly on a Final-Recipient and the command follows SMTP::Command.find; an empty line only moves the lookback, a field line is FieldLine and any other line is OtherLine |
| SendGrid.ScanFollowsReport | lib/sisimai/lhost/sendgrid.rb:37-119 | the scanned column is the Final-Recipient values rolled onto the start, and the command is the last one found |
| SendGrid.OneRecordPerFinalRecipient | lib/sisimai/lhost/sendgrid.rb:63-78 | with recipients, the records are exactly one per Final-Recipient, in order |
| SendGrid.ContinuationsChain | lib/sisimai/lhost/sendgrid.rb:110-117 | a run of indented lines after a Diagnostic-Code line appends each swept line to the one diagnosis; nothing else in the records changes |
| SendGrid.ReplyStatus | lib/sisimai/lhost/sendgrid.rb:125-131 | a 3-digit reply code sets status 'N.0.0'; a 4.0.0 or 5.0.0 status is replaced by a status found in the diagnosis; any other status is kept |
| SendGrid.Expire | lib/sisimai/lhost/sendgrid.rb:133-140 | an expired action sets the reason expired and replaces a missing or 'N.0.0' status with the expired pseudo status |
| SendGrid.Finish | lib/sisimai/lhost/sendgrid.rb:122-144 | sweeps the diagnosis, records the reply code ('' if none), derives status and reason as above, defaults lhost to the cached rhost, and sets the last command |
| SendGrid.ExistingStatusKept | lib/sisimai/lhost/sendgrid.rb:126-131 | a specific status survives when the diagnosis has no 3-digit reply code |
| SendGrid.Inquire | lib/sisimai/lhost/sendgrid.rb:17-147 | declined unless recognised or without Final-Recipient; raises exactly when the scan raises, and only on the unbound record; a result is exactly each scanned record finished with the scan's cache and last command |
| SendGrid.ParsedRecords | lib/sisimai/lhost/sendgrid.rb:37-144 | the result's recipients are the Final-Recipient values in order, and each command is the last SMTP command in the report |
| Aol.IndentedRest | lib/sisimai/lhost/aol.rb:95 | `/\A[ ]+(.+)\z/` captures the text after the leading spaces, and fails on lines without a leading space, with a newline, or only one space |
| Aol.ContinuationLineChars | lib/sisimai/lhost/aol.rb:93-95 | a line continues a Diagnostic-Code field iff it is not a field, starts with a space, has no line feed and is more than a single space |
| Aol.OnlyLevelOneCached | lib/sisimai/lhost/aol.rb:84-90 | a line whose match level is not 1 leaves the per-message cache unchanged |
| Aol.RefineStatus | lib/sisimai/lhost/aol.rb:115-118 | an empty or 'N.0.0' status is replaced by a status found in the diagnosis ('' if none); any other is kept |
| Aol.Finish | lib/sisimai/lhost/aol.rb:102-119 | back-fills from the cache, raises iff diagnosis or status is still nil, else sweeps the diagnosis with newlines as spaces and sets reason and status |
| Aol.Report | lib/sisimai/lhost/aol.rb:102-121 | never declines; raises exactly when some record's post-processing raises, with the exception of the first such record (a nil diagnosis or status); otherwise one finished record per scanned record, in order, with the original message |
| Aol.ReasonRules | lib/sisimai/lhost/aol.rb:108-113 | 'Host or domain name not found' gives hostunknown; a diagnosis matching no table entry keeps the reason |
| Aol.RecipientKept | lib/sisimai/lhost/aol.rb:105 | post-processing keeps the recipient (back-filled from the cache only if nil) |
| Aol.BlankRun | lib/sisimai/lhost/aol.rb:95 | the longest leading run of spaces is empty exactly when the line does not start with a space; when the line is spaces only, a line of two or more ends in the single space the capture gets, and a line of one is exactly one space |
| Aol.Inquire | lib/sisimai/lhost/aol.rb:21-122 | declined unless X-AOL-IP is present and a Final-Recipient was seen; raises exactly when the scan raises or, with a Final-Recipient seen, some record's post-processing raises; with a Final-Recipient seen, the result is Report of the scan; each result record is the finished scanned record |
| Aol.ParsedRecords | lib/sisimai/lhost/aol.rb:46-119 | the result's recipients are the Final-Recipient values in order |
| MessageLabs.Finish | lib/sisimai/lhost/messagelabs.rb:99-112 | back-fills from the cache, raises iff the diagnosis is still nil, else sets the command to '', sweeps the diagnosis and sets the reason |
| MessageLabs.Report | lib/sisimai/lhost/messagelabs.rb:99-115 | never declines; raises exactly when some record's post-processing raises, with the exception of the first such record (a nil diagnosis); otherwise one finished record per scanned record, in order, with the original message |
| MessageLabs.EveryTableFieldCached | lib/sisimai/lhost/messagelabs.rb:81-87 | a table field inside the report is cached as per-message whatever its match level |
| MessageLabs.ReasonRules | lib/sisimai/lhost/messagelabs.rb:106-111 | '542 ', ' Rejected' or 'No such user' give userunknown; the SMTP-Authentication text, failing those, gives securityerror; otherwise the reason is kept |
| MessageLabs.Inquire | lib/sisimai/lhost/messagelabs.rb:21-115 | declined unless the three headers match and a Final-Recipient was seen; raises exactly when the scan raises or, with a Final-Recipient seen, some record's post-processing raises; with a Final-Recipient seen, the result is Report of the scan; each result record is the finished scanned record |
| MessageLabs.CommandAlwaysEmpty | lib/sisimai/lhost/messagelabs.rb:103 | every parsed record has command '' |
| MessageLabs.ParsedRecords | lib/sisimai/lhost/messagelabs.rb:43-112 | the result's recipients are the Final-Recipient values in order |
| Tables.FirstMatch | lib/sisimai/lhost/aol.rb:108-113 | none iff no entry's phrase occurs; otherwise the reason of the first entry with an occurring phrase |
| Tables.EarlierEntryWins | lib/sisimai/lhost/messagelabs.rb:106-111 | the first table entry that matches decides the reason |
| Tables.FirstCommand | lib/sisimai/lhost/exim.rb:417-423 | none iff no pattern matches; otherwise the upper-cased capture of the first pattern that matches |

## Left out

- The library routines in `Collaborators` (RFC1894, RFC5322, String.sweep, Address.s3s4, SMTP::Status/Reply/Command, RFC2045.boundary) are parameters. Their code is not part of this model. The model assumes only the following about them:
  - each answers nil for a nil argument (`SweepOpt`, `S3S4Opt`, `FindOpt`);
  - `String.sweep` and `Address.s3s4` never return nil for a string (their type is `string -> string`); SendGrid's `<< String.sweep(e)` relies on this;
  - the sub-type and the value that `RFC1894.field` returns are strings, never nil;
  - `RFC1894.FIELDTABLE` never names the recipient, the diagnosis or the scanner's `alterrors` key for a date or other field (the type `TableKey`);
  - `RFC1894.match` returns nil or a level from 0 to 2.
- SendGrid.FieldLine: the Arrival-Date reformatting (sendgrid.rb:85-93) writes into the field array and nothing reads it afterwards, so it is not modelled. The same goes for a `TypeError` it could raise on a malformed month.
- SendGrid.Expire: `Status.code('expired')` is modelled as `statusCode(Some("expired"), false)`, i.e. with the library's default for the second argument.
- Text case mapping (`downcase`, `upcase`) covers ASCII letters only.
- The `Parsed` outcome carries the original-message part as returned by `RFC5322.part`. Nothing is stated about that part.
- Header values other than From, Subject and Received are looked up in a map. A header the source reads with `mhead[...]` and that is absent is nil, as in Ruby.
- Each class's `description` method is not modelled. The `Indicators`, `StartingOf` and `MarkingsOf` tables appear only as the strings the adapters test for.

=== FILE: aol.dfy ===
/** `Sisimai::Lhost::Aol.inquire`: an RFC 3464 report in a
    message/delivery-status part, with per-message fields cached only when
    RFC1894.match says so, regex continuation lines, and a status refined from
    the diagnosis. */
module Aol {
  import opened Options
  import opened Text
  import opened Records
  import opened Collaborators
  import opened Tables
  import opened Dsn

  const Boundaries: seq<string> := ["Content-Type: message/rfc822"]

  /** The head of the line that opens the report. */
  const DeliveryStatusStart := "Content-Type: message/delivery-status"

  /** Lines 11-14, in declaration order. */
  const MessagesOf: Table := [
    ("hostunknown", ["Host or domain name not found"]),
    ("notaccept", ["type=MX: Malformed or unexpected name server reply"])
  ]

  // ---------------------------------------------------------------------------
  // Recognition (line 32)

  predicate Recognizes(h: Headers) {
    Header(h, "x-aol-ip").Some?
  }

  // ---------------------------------------------------------------------------
  // Scan (lines 38-99)

  predicate Opens(e: string) {
    StartsWith(e, DeliveryStatusStart)
  }

  predicate IsBlank(c: char) {
    c == ' '
  }

  /** `e.match(/\A[ ]+(.+)\z/)[1]`, nil when the line does not match. `.`
      matches anything but a line feed, and the greedy run of spaces gives
      back one space when nothing else is left for the capture. */
  function IndentedRest(e: string): (r: Option<string>)
    ensures r.None? <==> |e| == 0 || e[0] != ' ' || '\n' in e || e == " "
    ensures r.Some? ==> exists k | 1 <= k < |e| :: AllOf(e[..k], IsBlank) && r.value == e[k..]
    ensures r.Some? ==> r.value[0] != ' ' || r.value == " "
  {
    var rest := DropLeading(e, IsBlank);
    var k := |e| - |rest|;
    assert k < |e| ==> e[k] == rest[0];
    BlankRun(e, k);
    if k == 0 || '\n' in e then None
    else if |rest| > 0 then
      assert AllOf(e[..k], IsBlank) && rest == e[k..];
      Some(rest)
    else if k >= 2 then
      assert AllOf(e[..k - 1], IsBlank) && " " == e[k - 1..];
      Some(" ")
    else None
  }

  /** A leading run of `k` spaces, the longest there is: it is empty exactly
      when `e` does not start with a space, and when it is all of `e` it is
      either a single space or leaves one space after a shorter run. */
  lemma BlankRun(e: string, k: nat)
    requires k <= |e| && AllOf(e[..k], IsBlank) && (k == |e| || !IsBlank(e[k]))
    ensures k > 0 <==> |e| > 0 && e[0] == ' '
    ensures k == |e| && k >= 2 ==> AllOf(e[..k - 1], IsBlank) && e[k - 1..] == " "
    ensures k == |e| && k == 1 ==> e == " "
  {
    if k > 0 {
      assert e[..k][0] == e[0];
    }
    if k == |e| && k >= 1 {
      assert e[..k] == e;
      AllSpaces(e);
    }
  }

  /** A line of spaces only ends in a single space. */
  lemma AllSpaces(e: string)
    requires |e| >= 1 && AllOf(e, IsBlank)
    ensures AllOf(e[..|e| - 1], IsBlank) && e[|e| - 1..] == " "
    ensures |e| == 1 ==> e == " "
  {
    assert IsBlank(e[|e| - 1]);
    assert e[|e| - 1..] == [e[|e| - 1]];
  }

  /** The capture of a continuation line. */
  function Capture(e: string): string {
    IndentedRest(e).GetOr("")
  }

  /** Lines 46-99 as a configuration of the shared scan: the report opens at
      the delivery-status part, only fields of match level 1 are cached as
      per-message (line 89), and a non-field line continues a Diagnostic-Code
      field when `\A[ ]+(.+)\z` matches it, appending the capture (lines 93-97). */
  function ScanConfig(): Config {
    Config(Opens, false, e => IndentedRest(e).Some?, Capture)
  }

  /** A continuation line read character by character: not a field, a leading
      space, no line feed, and more than a single space. */
  lemma ContinuationLineChars(env: Env, e: string)
    ensures ContinuationLine(env, ScanConfig(), e) <==>
      e != "" && env.fieldLevel(e).None? && e[0] == ' ' && '\n' !in e && e != " "
  {
  }

  /** Lines 89-90: a table field reaches the per-message cache only when
      RFC1894.match rates it level 1. */
  lemma OnlyLevelOneCached(env: Env, s: Fold, e: string)
    requires Sane(s)
    ensures Step(env, ScanConfig(), s, e).Success? && env.fieldLevel(e) != Some(1) ==>
      Step(env, ScanConfig(), s, e).value.cache == s.cache
  {
  }

  // ---------------------------------------------------------------------------
  // Post-processing (lines 102-119)

  /** Lines 115-118: an empty or pseudo ('.0.0') status gives way to the code
      the diagnosis carries, or '' when it carries none; any other is kept. */
  function RefineStatus(env: Env, status: string, d: string): (r: string)
    ensures status != "" && !EndsWith(status, ".0.0") ==> r == status
    ensures status == "" || EndsWith(status, ".0.0") ==> r == env.statusFind(d).GetOr("")
  {
    if status == "" || EndsWith(status, ".0.0") then env.statusFind(d).GetOr("") else status
  }

  /** One record after the scan. Back-fill comes first; then a nil diagnosis
      (`nil.tr`) or a nil status (`nil.empty?`) raises. */
  function Finish(env: Env, e: Record, cache: map<Key, string>): (r: Result<Record>)
    ensures var b := PerMessageDefaults(e, cache);
      && (r.Failure? <==> b.diagnosis.None? || b.status.None?)
      && (r.Failure? ==> (r.crash == NilDiagnosis <==> b.diagnosis.None?))
      && (r.Failure? ==> r.crash == NilDiagnosis || r.crash == NilStatus)
    ensures r.Success? ==>
      var b := PerMessageDefaults(e, cache);
      var d := env.sweep(Replace(b.diagnosis.value, '\n', ' '));
      && r.value == b.(diagnosis := Some(d), reason := r.value.reason, status := r.value.status)
      && r.value.reason == FirstMatch(MessagesOf, d).Or(b.reason)
      && r.value.status == Some(RefineStatus(env, b.status.value, d))
  {
    var b := PerMessageDefaults(e, cache);
    if b.diagnosis.None? then Failure(NilDiagnosis)
    else
      var d := env.sweep(Replace(b.diagnosis.value, '\n', ' '));
      var reason := FirstMatch(MessagesOf, d).Or(b.reason);
      if b.status.None? then Failure(NilStatus)
      else Success(b.(diagnosis := Some(d), reason := reason, status := Some(RefineStatus(env, b.status.value, d))))
  }

  /** Lines 108-113: with no keyword of either entry in the diagnosis, the
      reason is left as it was; 'hostunknown' wins over 'notaccept'. */
  lemma ReasonRules(env: Env, e: Record, cache: map<Key, string>)
    requires Finish(env, e, cache).Success?
    ensures var r := Finish(env, e, cache).value;
      && (Contains(r.diagnosis.value, "Host or domain name not found") ==> r.reason == Some("hostunknown"))
      && (!AnyContained(r.diagnosis.value, MessagesOf[0].1) && !AnyContained(r.diagnosis.value, MessagesOf[1].1)
          ==> r.reason == PerMessageDefaults(e, cache).reason)
  {
    var r := Finish(env, e, cache).value;
    var d := r.diagnosis.value;
    if Contains(d, "Host or domain name not found") {
      assert MessagesOf[0].1[0] == "Host or domain name not found";
      assert FirstHit(MessagesOf, d, 0);
      EarlierEntryWins(MessagesOf, d, 0);
    }
  }

  // ---------------------------------------------------------------------------
  // inquire

  /** The scan of the body's lines before the original message. */
  function Scanned(env: Env, body: string): Result<Fold> {
    ScanLines(env, ScanConfig(), Start, BodyLines(env, body, Boundaries).0)
  }

  /** The post-processing of every record of a scan, in order: the
      finished records, or the exception of the first record that raises. */
  function Report(env: Env, s: Fold, rfc822: string): (o: Outcome)
    ensures !o.Declined?
    ensures o.Raised? <==> exists i | 0 <= i < |s.records| :: Finish(env, s.records[i], s.cache).Failure?
    ensures o.Raised? ==> exists i | 0 <= i < |s.records| ::
      && Finish(env, s.records[i], s.cache) == Failure(o.crash)
      && forall j | 0 <= j < i :: Finish(env, s.records[j], s.cache).Success?
    ensures o.Raised? ==> o.crash == NilDiagnosis || o.crash == NilStatus
    ensures o.Parsed? ==>
      && o.rfc822 == rfc822 && |o.records| == |s.records|
      && forall i | 0 <= i < |s.records| :: Finish(env, s.records[i], s.cache) == Success(o.records[i])
  {
    match MapChecked((q: Record) => Finish(env, q, s.cache), s.records)
    case Failure(c) => Raised(c)
    case Success(rs) => Parsed(rs, rfc822)
  }

  /** Some record of a scan with recipients raises in its post-processing. */
  predicate FinishRaises(env: Env, s: Fold) {
    s.recipients > 0 && exists i | 0 <= i < |s.records| :: Finish(env, s.records[i], s.cache).Failure?
  }

  /** `Sisimai::Lhost::Aol.inquire(mhead, mbody)`. An exception comes out
      exactly when the scan raises or the post-processing of some record does. */
  function Inquire(env: Env, h: Headers, body: string): (o: Outcome)
    ensures !Recognizes(h) ==> o == Declined
    ensures Recognizes(h) ==>
      (o.Raised? <==> Scanned(env, body).Failure? || FinishRaises(env, Scanned(env, body).value))
    ensures Recognizes(h) && Scanned(env, body).Success? ==>
      (o.Declined? <==> Scanned(env, body).value.recipients == 0)
    ensures o.Raised? ==> o.crash in {NilCurrentRecord, NilDiagnosis, NilStatus}
    ensures o.Parsed? ==>
      && Scanned(env, body).Success?
      && var s := Scanned(env, body).value;
      && |o.records| == |s.records|
      && forall i | 0 <= i < |s.records| :: Finish(env, s.records[i], s.cache) == Success(o.records[i])
    // With recipients, the result is the post-processing of the scan.
    ensures Recognizes(h) && Scanned(env, body).Success? && Scanned(env, body).value.recipients > 0 ==>
      o == Report(env, Scanned(env, body).value, BodyLines(env, body, Boundaries).1)
  {
    if !Recognizes(h) then Declined
    else
      var (lines, rfc822) := BodyLines(env, body, Boundaries);
      match ScanLines(env, ScanConfig(), Start, lines)
      case Failure(c) => Raised(c)
      case Success(s) =>
        if s.recipients == 0 then Declined else Report(env, s, rfc822)
  }

  /** Through to the result: one record per Final-Recipient field of the
      report, in order, each with its recipient as the scan found it. */
  lemma ParsedRecords(env: Env, h: Headers, body: string)
    ensures Inquire(env, h, body).Parsed? ==>
      Column(Inquire(env, h, body).records) == FinalRecipients(env, Opens, false, BodyLines(env, body, Boundaries).0)
  {
    var o := Inquire(env, h, body);
    if !o.Parsed? { return; }
    var lines := BodyLines(env, body, Boundaries).0;
    var s := Scanned(env, body).value;
    OneRecordPerFinalRecipient(env, ScanConfig(), lines);
    forall i | 0 <= i < |s.records| ensures o.records[i].recipient == s.records[i].recipient {
      RecipientKept(env, s.records[i], s.cache);
    }
    assert Column(o.records) == Column(s.records);
  }

  lemma RecipientKept(env: Env, e: Record, cache: map<Key, string>)
    requires Finish(env, e, cache).Success?
    ensures Finish(env, e, cache).value.recipient == Inherit(e.recipient, Recipient, cache)
  {
  }
}

=== FILE: collaborators.dfy ===
/** The library routines the adapters call but whose code is not part of this
    model. Each one is a field of `Env`, a total function value with only the
    shape the call sites rely on; nothing else is assumed about them. */
module Collaborators {
  import opened Options
  import opened Records
  import opened Text

  /** The last element of an RFC1894.field result: which sort of DSN field a line is. */
  datatype FieldKind = KindAddr | KindCode | KindDate | KindOther

  /** `RFC1894.field(line)`: [lower-cased field name, sub-type, value, kind]. */
  datatype Field = Field(name: string, subtype: string, value: string, kind: FieldKind)

  /** `RFC1894.match(line)` when not nil: 1 for a per-message field, 2 for a
      per-recipient field, 0 for any other labelled line. Every integer is
      truthy in Ruby, so only nil keeps a line out of the field branch. */
  type MatchLevel = k: int | 0 <= k <= 2

  /** The record keys FIELDTABLE can name for a field the adapters look up in
      it. The table consults only fields of the date and other kinds, so it
      never yields the recipient (an address field), the diagnosis (a code
      field) or the scanner's own `alterrors`. */
  type TableKey = k: Key | k != Recipient && k != Diagnosis && k != AlterErrors witness Action

  datatype Env = Env(
    part: (string, seq<string>) -> (string, string),  // RFC5322.part(body, boundaries)
    fieldLevel: string -> Option<MatchLevel>,         // RFC1894.match(line)
    field: string -> Option<Field>,                   // RFC1894.field(line)
    fieldTable: string -> Option<TableKey>,           // RFC1894.FIELDTABLE[name]
    sweep: string -> string,                          // String.sweep(text)
    s3s4: string -> string,                           // Address.s3s4(text)
    statusFind: string -> Option<string>,             // SMTP::Status.find(text)
    statusCode: (Option<string>, bool) -> Option<string>,  // SMTP::Status.code(reason, temporary)
    replyFind: string -> Option<string>,              // SMTP::Reply.find(text)
    commandFind: string -> Option<string>,            // SMTP::Command.find(text)
    boundary: string -> Option<string>,               // RFC2045.boundary(content_type)
    received: string -> seq<string>)                  // RFC5322.received(header)

  /** `String.sweep(x)` where `x` may be nil; sweep passes nil through. */
  function SweepOpt(env: Env, x: Option<string>): Option<string> {
    if x.Some? then Some(env.sweep(x.value)) else None
  }

  /** `Address.s3s4(x)` where `x` may be nil; s3s4 returns a non-string unchanged. */
  function S3S4Opt(env: Env, x: Option<string>): Option<string> {
    if x.Some? then Some(env.s3s4(x.value)) else None
  }

  /** A `find` routine applied to a value that may be nil; they answer nil for nil. */
  function FindOpt(find: string -> Option<string>, x: Option<string>): Option<string> {
    if x.Some? then find(x.value) else None
  }

  /** `RFC5322.part(body, boundaries)` followed by `split("\n")` of its first
      half: the lines to scan, and the original-message part. */
  function BodyLines(env: Env, body: string, boundaries: seq<string>): (seq<string>, string) {
    var parts := env.part(body, boundaries);
    (Split(parts.0, '\n'), parts.1)
  }
}

=== FILE: dsn.dfy ===
/** The RFC 3464 delivery-status fold shared by the SendGrid, Aol and
    MessageLabs adapters: the cursor, the one-line lookback, the current-record
    variable, the per-message cache and what each kind of field does to them. */
module Dsn {
  import opened Options
  import opened Text
  import opened Records
  import opened Collaborators

  /** The prefix the lookback tests the previous line for. */
  const DiagnosticCode := "Diagnostic-Code:"

  /** The field name that opens a record. */
  const FinalRecipient := "final-recipient"

  /** The loop variables of the scan.
      - `reading`: the cursor has passed the line that opens the report;
      - `prev`: `readslices[-2]` for the next line, i.e. the line just read,
        or its rewrite when it continued a Diagnostic-Code field;
      - `bound`: the current-record variable `v` has been assigned. Once it is,
        it always names the last record, because records are appended only
        where `v` is reassigned to the new one;
      - `cache`: `permessage`, the per-message fields seen so far. */
  datatype Fold = Fold(
    reading: bool,
    prev: string,
    bound: bool,
    recipients: nat,
    records: seq<Record>,
    cache: map<Key, string>)

  /** The records agree with the Final-Recipient count. */
  predicate Sane(s: Fold) {
    Tally(s.records, s.recipients)
  }

  /** `dscontents = [DELIVERYSTATUS]`, `readslices = ['']`, `v = nil`, `permessage = {}`. */
  const Start := Fold(false, "", false, 0, [Blank], map[])

  /** An address field: a Final-Recipient opens a record when the current one
      already has a recipient, and counts; any other address sets the alias. */
  function AddressField(s: Fold, o: Field): (t: Fold)
    requires Sane(s)
    ensures Sane(t)
    ensures t.reading == s.reading && t.prev == s.prev && t.bound == s.bound && t.cache == s.cache
    ensures o.name == FinalRecipient ==>
      && Column(t.records) == Push(Column(s.records), Some(o.value))
      && t.recipients == s.recipients + 1
      && Current(t.records) == Opened(s.records).(recipient := Some(o.value))
      && (|t.records| == |s.records| + 1 <==> Current(s.records).recipient.Some?)
      && (Current(s.records).recipient.Some? ==> t.records[|s.records| - 1] == Current(s.records))
    ensures |s.records| <= |t.records| && EarlierKept(s.records, t.records)
    ensures o.name != FinalRecipient ==>
      && |t.records| == |s.records|
      && Column(t.records) == Column(s.records)
      && t.recipients == s.recipients
      && Current(t.records) == Current(s.records).(alias := Some(o.value))
  {
    if o.name == FinalRecipient then OpenRecipient(s, o.value) else SetAlias(s, o.value)
  }

  /** A Final-Recipient field: the address goes into the column and is counted. */
  function OpenRecipient(s: Fold, a: string): (t: Fold)
    requires Sane(s)
    ensures Sane(t)
    ensures t.reading == s.reading && t.prev == s.prev && t.bound == s.bound && t.cache == s.cache
    ensures Column(t.records) == Push(Column(s.records), Some(a))
    ensures t.recipients == s.recipients + 1
    ensures Current(t.records) == Opened(s.records).(recipient := Some(a))
    ensures |t.records| == |s.records| + 1 <==> Current(s.records).recipient.Some?
    ensures Current(s.records).recipient.Some? ==> t.records[|s.records| - 1] == Current(s.records)
    ensures |s.records| <= |t.records| && EarlierKept(s.records, t.records)
  {
    var rs := AddRecipient(s.records, Some(a));
    assert Tally(rs, s.recipients + 1);
    s.(records := rs, recipients := s.recipients + 1)
  }

  /** Any other address field: the current record takes it as its alias. */
  function SetAlias(s: Fold, a: string): (t: Fold)
    requires Sane(s)
    ensures Sane(t)
    ensures t.reading == s.reading && t.prev == s.prev && t.bound == s.bound && t.cache == s.cache
    ensures |t.records| == |s.records| && Column(t.records) == Column(s.records)
    ensures t.recipients == s.recipients
    ensures Current(t.records) == Current(s.records).(alias := Some(a))
    ensures EarlierKept(s.records, t.records)
  {
    var rs := WithCurrent(s.records, Current(s.records).(alias := Some(a)));
    assert Tally(rs, s.recipients);
    s.(records := rs)
  }

  /** A code field (Diagnostic-Code): its type becomes `spec` and its text the diagnosis. */
  function CodeField(s: Fold, o: Field): (t: Fold)
    requires Sane(s)
    ensures Sane(t) && t.recipients == s.recipients && Column(t.records) == Column(s.records)
    ensures t.reading == s.reading && t.prev == s.prev && t.bound == s.bound && t.cache == s.cache
    ensures Current(t.records) == Current(s.records).(spec := Some(o.subtype), diagnosis := Some(o.value))
    ensures |s.records| <= |t.records| && EarlierKept(s.records, t.records)
  {
    var rs := WithCurrent(s.records, Current(s.records).(spec := Some(o.subtype), diagnosis := Some(o.value)));
    assert rs[..|s.records| - 1] == s.records[..|s.records| - 1];
    s.(records := rs)
  }

  /** Any other field: when FIELDTABLE names a key for it, the current record
      takes the value under that key, and so does the cache when `cacheIt`. */
  function TableField(env: Env, s: Fold, o: Field, cacheIt: bool): (t: Fold)
    requires Sane(s)
    ensures Sane(t) && t.recipients == s.recipients && Column(t.records) == Column(s.records)
    ensures t.reading == s.reading && t.prev == s.prev && t.bound == s.bound
    ensures env.fieldTable(o.name).None? ==> t == s
    ensures |s.records| <= |t.records| && EarlierKept(s.records, t.records)
    ensures env.fieldTable(o.name).Some? ==>
      var k := env.fieldTable(o.name).value;
      && Current(t.records) == Current(s.records).Set(k, Some(o.value))
      && t.cache == (if cacheIt then s.cache[k := o.value] else s.cache)
  {
    match env.fieldTable(o.name)
    case None => s
    case Some(k) =>
      var q := Current(s.records).Set(k, Some(o.value));
      var rs := WithCurrent(s.records, q);
      assert rs[..|s.records| - 1] == s.records[..|s.records| - 1];
      s.(records := rs,
         cache := if cacheIt then s.cache[k := o.value] else s.cache)
  }

  /** `v['diagnosis'] = d` */
  function SetDiagnosis(s: Fold, d: Option<string>): (t: Fold)
    requires Sane(s)
    ensures Sane(t) && t.recipients == s.recipients && Column(t.records) == Column(s.records)
    ensures t.reading == s.reading && t.prev == s.prev && t.bound == s.bound && t.cache == s.cache
    ensures t.records == WithCurrent(s.records, Current(s.records).(diagnosis := d))
  {
    s.(records := WithCurrent(s.records, Current(s.records).(diagnosis := d)))
  }

  /** A continuation line `e`: `piece` is appended to the diagnosis after a
      space (a nil diagnosis counting as ''), and the line is remembered as
      `'Diagnostic-Code: ' + e` so that the next indented line chains on. */
  function Continue(s: Fold, e: string, piece: string): (t: Fold)
    requires Sane(s)
    ensures Sane(t) && t.recipients == s.recipients && Column(t.records) == Column(s.records)
    ensures t.reading == s.reading && t.bound == s.bound && t.cache == s.cache
    ensures t.records == WithCurrent(s.records, Current(s.records).(diagnosis := Some(Current(s.records).diagnosis.GetOr("") + " " + piece)))
    ensures StartsWith(t.prev, DiagnosticCode)
  {
    PrefixedLine(e);
    SetDiagnosis(s, Some(Current(s.records).diagnosis.GetOr("") + " " + piece)).(prev := "Diagnostic-Code: " + e)
  }

  lemma PrefixedLine(e: string)
    ensures StartsWith("Diagnostic-Code: " + e, DiagnosticCode)
  {
    assert ("Diagnostic-Code: " + e)[..|DiagnosticCode|] == DiagnosticCode;
  }

  /** The text a run of continuation lines adds to the diagnosis: a space and
      the `piece` of each line, in order. */
  function Swept(piece: string -> string, lines: seq<string>): string
    decreases |lines|
  {
    if |lines| == 0 then "" else " " + piece(lines[0]) + Swept(piece, lines[1..])
  }

  /** The diagnosis after a run of continuation lines: unchanged after none,
      otherwise the old text ('' for nil) followed by the lines' pieces. */
  function Extended(piece: string -> string, d: Option<string>, lines: seq<string>): Option<string> {
    if |lines| == 0 then d else Some(d.GetOr("") + Swept(piece, lines))
  }

  /** One more continuation line extends the diagnosis the same way. */
  lemma ExtendedStep(piece: string -> string, d: Option<string>, lines: seq<string>)
    requires |lines| > 0
    ensures Extended(piece, Some(d.GetOr("") + " " + piece(lines[0])), lines[1..]) == Extended(piece, d, lines)
  {
    var x, p := d.GetOr(""), " " + piece(lines[0]);
    var rest := Swept(piece, lines[1..]);
    ConcatAssoc(x, " ", piece(lines[0]));
    ConcatAssoc(x, p, rest);
    if |lines| == 1 {
      assert p + rest == p;
    }
  }

  /** The records after a run of continuation lines: only the current
      record's diagnosis changes, extended by the run. */
  function ContinuedRecords(piece: string -> string, rs: seq<Record>, lines: seq<string>): seq<Record>
    requires |rs| >= 1
  {
    WithCurrent(rs, Current(rs).(diagnosis := Extended(piece, Current(rs).diagnosis, lines)))
  }

  /** Continuing the current record's diagnosis with the first line of a run,
      then with the rest of the run, extends it by the whole run. */
  lemma ChainedContinue(piece: string -> string, rs: seq<Record>, lines: seq<string>)
    requires |rs| >= 1 && |lines| > 0
    ensures var c := Current(rs);
      var rs1 := WithCurrent(rs, c.(diagnosis := Some(c.diagnosis.GetOr("") + " " + piece(lines[0]))));
      ContinuedRecords(piece, rs1, lines[1..]) == ContinuedRecords(piece, rs, lines)
  {
    var c := Current(rs);
    var c1 := c.(diagnosis := Some(c.diagnosis.GetOr("") + " " + piece(lines[0])));
    var rs1 := WithCurrent(rs, c1);
    assert Current(rs1) == c1;
    ExtendedStep(piece, c.diagnosis, lines);
    WithCurrentTwice(rs, c1, c.(diagnosis := Extended(piece, c.diagnosis, lines)));
  }

  /** An empty run changes nothing. */
  lemma NoContinuation(piece: string -> string, rs: seq<Record>)
    requires |rs| >= 1
    ensures ContinuedRecords(piece, rs, []) == rs
  {
    assert Current(rs).(diagnosis := Current(rs).diagnosis) == Current(rs);
    assert WithCurrent(rs, Current(rs)) == rs;
  }

  /** The address a line inside the report contributes: the value of a
      Final-Recipient field, as RFC1894.match and RFC1894.field read it. */
  function FinalRecipientOf(env: Env, e: string): Option<string> {
    if e != "" && env.fieldLevel(e).Some? && env.field(e).Some?
       && env.field(e).value.kind == KindAddr && env.field(e).value.name == FinalRecipient
    then Some(env.field(e).value.value)
    else None
  }

  /** Reference definition: the Final-Recipient values of the lines after the
      first one `opens` accepts (all of them when already `reading`), in order. */
  function FinalRecipients(env: Env, opens: string -> bool, reading: bool, lines: seq<string>): (r: seq<Option<string>>)
    ensures AllSome(r)
    decreases |lines|
  {
    if |lines| == 0 then []
    else if !reading then FinalRecipients(env, opens, opens(lines[0]), lines[1..])
    else
      var rest := FinalRecipients(env, opens, true, lines[1..]);
      match FinalRecipientOf(env, lines[0])
      case Some(a) => [Some(a)] + rest
      case None => rest
  }

  /** A line RFC1894.match accepts, in the adapters that skip it when
      RFC1894.field cannot read it (`next unless o`): `v` is bound only to a
      readable field, and per-message values are cached when `cacheIt`. */
  function ReadField(env: Env, f: Fold, e: string, cacheIt: bool): (t: Fold)
    requires Sane(f) && e != "" && env.fieldLevel(e).Some?
    ensures Sane(t) && t.reading == f.reading && t.prev == f.prev
    ensures env.field(e).None? ==> t == f
    ensures env.field(e).Some? ==> t.bound
    ensures FinalRecipientOf(env, e).Some? ==>
      && Column(t.records) == Push(Column(f.records), FinalRecipientOf(env, e))
      && t.recipients == f.recipients + 1
    ensures FinalRecipientOf(env, e).None? ==>
      Column(t.records) == Column(f.records) && t.recipients == f.recipients
    // A readable field does what its kind does to the current record.
    ensures env.field(e).Some? && env.field(e).value.kind == KindAddr ==>
      t == AddressField(f.(bound := true), env.field(e).value)
    ensures env.field(e).Some? && env.field(e).value.kind == KindCode ==>
      t == CodeField(f.(bound := true), env.field(e).value)
    ensures env.field(e).Some? && env.field(e).value.kind !in {KindAddr, KindCode} ==>
      t == TableField(env, f.(bound := true), env.field(e).value, cacheIt)
  {
    match env.field(e)
    case None => f
    case Some(o) =>
      var g := f.(bound := true);
      if o.kind == KindAddr then
        assert FinalRecipientOf(env, e) == if o.name == FinalRecipient then Some(o.value) else None;
        var t := AddressField(g, o);
        t
      else
        assert FinalRecipientOf(env, e).None?;
        var t := if o.kind == KindCode then CodeField(g, o) else TableField(env, g, o, cacheIt);
        assert Column(t.records) == Column(f.records) && t.recipients == f.recipients;
        t
  }

  /** `e['lhost'] ||= permessage['rhost']` followed by
      `permessage.each_key { |a| e[a] ||= permessage[a] }`. */
  function PerMessageDefaults(e: Record, cache: map<Key, string>): (r: Record)
    ensures forall k | k != LHost :: r.Get(k) == Inherit(e.Get(k), k, cache)
    ensures r.lhost == Inherit(Inherit(e.lhost, RHost, cache), LHost, cache)
  {
    var e1 := e.Set(LHost, Inherit(e.lhost, RHost, cache));
    var r := BackFill(e1, cache);
    assert forall k :: r.Get(k) == Inherit(e1.Get(k), k, cache);
    r
  }
  // ---------------------------------------------------------------------------
  // The scan loop of the adapters that bind `v` only to a readable field
  // (Aol, MessageLabs), configured by what differs between them.

  /** What such an adapter configures:
      - `opens`: the line that opens the report (it is itself skipped);
      - `cacheAll`: every table field is cached as per-message (`next unless f`,
        true for any level), rather than only level 1 (`next unless f == 1`);
      - `continues`: a non-field line after a Diagnostic-Code line that
        continues it;
      - `piece`: the text such a line appends to the diagnosis. */
  datatype Config = Config(
    opens: string -> bool,
    cacheAll: bool,
    continues: string -> bool,
    piece: string -> string)

  /** A line that continues a Diagnostic-Code field under `cfg`. */
  predicate ContinuationLine(env: Env, cfg: Config, e: string) {
    e != "" && env.fieldLevel(e).None? && cfg.continues(e)
  }

  /** One pass of the `while` loop. A continuation line raises when `v` is
      still nil, or when the current record has no diagnosis to append to. */
  function Step(env: Env, cfg: Config, s: Fold, e: string): (t: Result<Fold>)
    requires Sane(s)
    ensures t.Success? ==> Sane(t.value) && t.value.reading == (s.reading || cfg.opens(e))
    ensures !s.reading ==> t == Success(s.(reading := cfg.opens(e), prev := e))
    // Inside the report a field line is read as a field, its per-message
    // values cached at the levels `cfg` caches; an empty line, and a line
    // that continues nothing, only move the lookback.
    ensures s.reading && e != "" && env.fieldLevel(e).Some? ==>
      t == Success(ReadField(env, s.(prev := e), e, cfg.cacheAll || env.fieldLevel(e) == Some(1)))
    ensures s.reading && (e == "" || (env.fieldLevel(e).None? && !(StartsWith(s.prev, DiagnosticCode) && cfg.continues(e)))) ==>
      t == Success(s.(prev := e))
    ensures t.Success? && s.reading ==>
      && Column(t.value.records) == (if FinalRecipientOf(env, e).Some?
                                     then Push(Column(s.records), FinalRecipientOf(env, e))
                                     else Column(s.records))
      && t.value.recipients == s.recipients + (if FinalRecipientOf(env, e).Some? then 1 else 0)
    // Only a table field of a cached level reaches the cache.
    ensures t.Success? && !cfg.cacheAll && env.fieldLevel(e) != Some(1) ==> t.value.cache == s.cache
    ensures && s.reading && e != "" && env.fieldLevel(e).Some? && env.field(e).Some?
            && env.field(e).value.kind !in {KindAddr, KindCode} && env.fieldTable(env.field(e).value.name).Some?
            && (cfg.cacheAll || env.fieldLevel(e) == Some(1)) ==>
      var k := env.fieldTable(env.field(e).value.name).value;
      t.Success? && t.value.cache == s.cache[k := env.field(e).value.value]
    ensures t.Failure? ==>
      && s.reading && StartsWith(s.prev, DiagnosticCode) && ContinuationLine(env, cfg, e)
      && (t.crash == NilCurrentRecord <==> !s.bound)
      && (t.crash == NilDiagnosis <==> s.bound && Current(s.records).diagnosis.None?)
    // The piece continues the diagnosis, and the line is rewritten.
    ensures && s.reading && StartsWith(s.prev, DiagnosticCode) && ContinuationLine(env, cfg, e)
            && s.bound && Current(s.records).diagnosis.Some? ==>
      t == Success(Continue(s.(prev := e), e, cfg.piece(e)))
  {
    var f := s.(prev := e);
    if !s.reading then Success(f.(reading := cfg.opens(e)))
    else if e == "" then Success(f)
    else if env.fieldLevel(e).Some? then Success(ReadField(env, f, e, cfg.cacheAll || env.fieldLevel(e) == Some(1)))
    else if !StartsWith(s.prev, DiagnosticCode) || !cfg.continues(e) then Success(f)
    else if !s.bound then Failure(NilCurrentRecord)
    else if Current(s.records).diagnosis.None? then Failure(NilDiagnosis)
    else Success(Continue(f, e, cfg.piece(e)))
  }

  /** The `while e = bodyslices.shift` loop; the first exception ends it. */
  function ScanLines(env: Env, cfg: Config, s: Fold, lines: seq<string>): (t: Result<Fold>)
    requires Sane(s)
    ensures t.Success? ==> Sane(t.value)
    ensures t.Failure? ==> t.crash == NilCurrentRecord || t.crash == NilDiagnosis
    ensures t.Success? && s.reading ==> t.value.reading
    decreases |lines|
  {
    if |lines| == 0 then Success(s)
    else match Step(env, cfg, s, lines[0])
      case Failure(c) => Failure(c)
      case Success(s1) => ScanLines(env, cfg, s1, lines[1..])
  }

  /** Without a crash, the scan rolls the report's Final-Recipient values into
      the recipient column and counts them. */
  lemma {:induction false} ScanFollowsReport(env: Env, cfg: Config, s: Fold, lines: seq<string>)
    requires Sane(s)
    ensures ScanLines(env, cfg, s, lines).Success? ==>
      var t := ScanLines(env, cfg, s, lines).value;
      var addrs := FinalRecipients(env, cfg.opens, s.reading, lines);
      && Column(t.records) == Roll(Column(s.records), addrs)
      && t.recipients == s.recipients + |addrs|
    decreases |lines|
  {
    if |lines| > 0 {
      var e := lines[0];
      var t := Step(env, cfg, s, e);
      if t.Success? {
        ScanFollowsReport(env, cfg, t.value, lines[1..]);
        var rest := FinalRecipients(env, cfg.opens, true, lines[1..]);
        if s.reading && FinalRecipientOf(env, e).Some? {
          var a := Some(FinalRecipientOf(env, e).value);
          assert ([a] + rest)[0] == a && ([a] + rest)[1..] == rest;
        }
      }
    }
  }

  /** Every Final-Recipient field, and nothing else, yields a record; with at
      least one, the records hold exactly their values, in order. */
  lemma OneRecordPerFinalRecipient(env: Env, cfg: Config, lines: seq<string>)
    requires ScanLines(env, cfg, Start, lines).Success? && ScanLines(env, cfg, Start, lines).value.recipients > 0
    ensures Column(ScanLines(env, cfg, Start, lines).value.records) == FinalRecipients(env, cfg.opens, false, lines)
    ensures |ScanLines(env, cfg, Start, lines).value.records| == ScanLines(env, cfg, Start, lines).value.recipients
  {
    ScanFollowsReport(env, cfg, Start, lines);
    RollFromBlank(FinalRecipients(env, cfg.opens, false, lines));
  }

  /** After a Diagnostic-Code line whose record has a diagnosis, every
      continuation line appends a space and its piece, because each one is
      rewritten as a Diagnostic-Code line for the next lookback. Nothing else
      in the records changes. */
  lemma {:induction false} ContinuationsChain(env: Env, cfg: Config, s: Fold, lines: seq<string>)
    requires Sane(s) && s.reading && s.bound && StartsWith(s.prev, DiagnosticCode)
    requires Current(s.records).diagnosis.Some?
    requires forall i | 0 <= i < |lines| :: ContinuationLine(env, cfg, lines[i])
    ensures ScanLines(env, cfg, s, lines).Success?
    ensures ScanLines(env, cfg, s, lines).value.records == ContinuedRecords(cfg.piece, s.records, lines)
    decreases |lines|
  {
    if |lines| == 0 {
      NoContinuation(cfg.piece, s.records);
    } else {
      var e, rest := lines[0], lines[1..];
      var s1 := Continue(s.(prev := e), e, cfg.piece(e));
      ContinueOnce(env, cfg, s, lines);
      ContinuationsChain(env, cfg, s1, rest);
      ChainedContinue(cfg.piece, s.records, lines);
    }
  }

  /** The first line of such a run: the scan goes on from the continued fold. */
  lemma ContinueOnce(env: Env, cfg: Config, s: Fold, lines: seq<string>)
    requires Sane(s) && s.reading && s.bound && StartsWith(s.prev, DiagnosticCode)
    requires Current(s.records).diagnosis.Some?
    requires |lines| > 0 && ContinuationLine(env, cfg, lines[0])
    ensures var e := lines[0];
      ScanLines(env, cfg, s, lines) == ScanLines(env, cfg, Continue(s.(prev := e), e, cfg.piece(e)), lines[1..])
  {
    var e := lines[0];
    assert Step(env, cfg, s, e) == Success(Continue(s.(prev := e), e, cfg.piece(e)));
  }

  /** A continuation line for a record without a diagnosis raises. */
  lemma NilDiagnosisRaises(env: Env, cfg: Config, s: Fold, e: string)
    requires Sane(s) && s.reading && s.bound && StartsWith(s.prev, DiagnosticCode)
    requires ContinuationLine(env, cfg, e) && Current(s.records).diagnosis.None?
    ensures ScanLines(env, cfg, s, [e]) == Failure(NilDiagnosis)
  {
    assert Step(env, cfg, s, e) == Failure(NilDiagnosis);
  }
}

=== FILE: exim.dfy ===
/** Sisimai::Lhost::Exim: bounces written by Exim's deliver.c. The body is read
    as plain text (recipient lines indented by two spaces, the error text
    below them) and, when the bounce is multipart, as an RFC 3464
    delivery-status part as well. */
module Exim {
  import opened Options
  import opened Text
  import opened Records
  import opened Collaborators
  import opened Tables
  import opened Hosts

  // ---------------------------------------------------------------------------
  // Constants of lib/sisimai/lhost/exim.rb

  const Boundaries: seq<string> := [
    "------ This is a copy of the message, including all the headers. ------",
    "Content-Type: message/rfc822"]

  const DeliveryStatusStart := "Content-Type: message/delivery-status"

  const FrozenMarks: seq<string> := [" has been frozen", " was frozen on arrival"]

  const MessageStarts: seq<string> := [
    "This message was created automatically by mail delivery software.",
    "A message that you sent was rejected by the local scannning code",
    "A message that you sent contained one or more recipient addresses ",
    "A message that you sent could not be delivered to all of its recipients",
    " has been frozen",
    " was frozen on arrival",
    " router encountered the following error(s):"]

  const AliasMark := " an undisclosed address"

  /** The `%w[...]` literal of the subject test is split at white space, quote
      marks and commas included, so these are the words the subject is
      searched for. */
  const SubjectWords: seq<string> := [
    "'Delivery", "Status", "Notification',",
    "'Mail", "delivery", "failed',",
    "'Mail", "failure',",
    "'Message", "frozen',",
    "'Warning:", "message", "',",
    "'error(s)", "in", "forwarding", "or", "filtering'"]

  const SmtpHeads: seq<string> := [
    "SMTP error from remote mail server after ",
    "SMTP error from remote mailer after "]

  /** ReCommands, in order. */
  const ReCommands: seq<CommandPattern> := [
    CommandPattern(SmtpHeads),
    CommandPattern(["SMTP error from remote mail server after end of ",
                    "SMTP error from remote mailer after end of "]),
    CommandPattern(["LMTP error after "]),
    CommandPattern(["LMTP error after end of "])]

  /** MessagesOf, in declaration order. */
  const MessagesOf: Table := [
    ("userunknown", ["user not found"]),
    ("hostunknown", ["all host address lookups failed permanently",
                     "all relevant MX records point to non-existent hosts",
                     "Unrouteable address"]),
    ("mailboxfull", ["mailbox is full", "error: quota exceed"]),
    ("notaccept", ["an MX or SRV record indicated no SMTP service",
                   "no host found for existing SMTP connection"]),
    ("syntaxerror", ["angle-brackets nested too deep",
                     "expected word or \"<\"",
                     "domain missing in source-routed address",
                     "malformed address:"]),
    ("systemerror", ["delivery to file forbidden",
                     "delivery to pipe forbidden",
                     "local delivery failed",
                     "LMTP error after "]),
    ("contenterror", ["Too many \"Received\" headers"])]

  const DelayedFor: seq<string> := [
    "retry timeout exceeded",
    "No action is required on your part",
    "retry time not reached for any host after a long failure period",
    "all hosts have been failing for a long time and were last tried",
    "Delay reason: ",
    "has been frozen",
    "was frozen on arrival by "]

  // ---------------------------------------------------------------------------
  // Recognition

  /** A Message-Id of Exim's shape `<XXXXXX-XXXXXX-XX@host>`. */
  predicate EximMessageId(msgid: string) {
    StartsWith(msgid, "<") && IndexOf(msgid, "-") == Some(8) && IndexOf(msgid, "@") == Some(18)
  }

  /** The number of Exim signals the headers show. */
  function Score(h: Headers): (n: nat)
    ensures n <= 3
    ensures n >= 2 <==>
      (StartsWith(h.from, "Mail Delivery System") && EximMessageId(Header(h, "message-id").GetOr(""))) ||
      (StartsWith(h.from, "Mail Delivery System") && AnyContained(h.subject, SubjectWords)) ||
      (EximMessageId(Header(h, "message-id").GetOr("")) && AnyContained(h.subject, SubjectWords))
  {
    var msgid := Header(h, "message-id").GetOr("");
    (if StartsWith(h.from, "Mail Delivery System") then 1 else 0)
    + (if EximMessageId(msgid) then 1 else 0)
    + (if AnyContained(h.subject, SubjectWords) then 1 else 0)
  }

  /** The adapter takes the message: not from mail.ru, and two signals or more. */
  predicate Recognizes(h: Headers) {
    !Contains(h.from, ".mail.ru") && Score(h) >= 2
  }

  /** The Message-Id test read character by character: '<' first, the first
      '-' at index 8 and the first '@' at index 18. */
  lemma {:induction false} MessageIdShape(msgid: string)
    ensures EximMessageId(msgid) <==>
      && |msgid| > 18 && msgid[0] == '<' && msgid[8] == '-' && msgid[18] == '@'
      && '-' !in msgid[..8] && '@' !in msgid[..18]
  {
    FirstCharAt(msgid, '-', 8);
    FirstCharAt(msgid, '@', 18);
  }

  lemma FirstCharAt(s: string, c: char, k: nat)
    ensures IndexOf(s, [c]) == Some(k) <==> k < |s| && s[k] == c && c !in s[..k]
  {
    forall j | 0 <= j < |s| ensures OccursAt(s, [c], j) <==> s[j] == c {
      assert s[j..j + 1] == [s[j]];
    }
    if k < |s| && s[k] == c && c !in s[..k] {
      assert OccursAt(s, [c], k);
      forall j | 0 <= j < k ensures !OccursAt(s, [c], j) {
        assert s[..k][j] == s[j];
      }
      var r := IndexOf(s, [c]);
      assert r.Some?;
      assert !(r.value < k) && !(k < r.value);
    }
    if IndexOf(s, [c]) == Some(k) {
      forall j | 0 <= j < k ensures s[..k][j] != c {
        assert !OccursAt(s, [c], j);
      }
    }
  }

  /** The words of the literal are matched one by one: a subject that merely
      contains "in" (say "Undeliverable: meeting invitation") is a signal,
      while the phrase "Mail failure" is never matched as a whole. */
  lemma LooseSubjectWord(subject: string)
    requires Contains(subject, "in")
    ensures AnyContained(subject, SubjectWords)
  {
    assert SubjectWords[14] == "in";
  }

  // ---------------------------------------------------------------------------
  // Line scan

  /** The scan state: `readcursor`, `nextcursor`, `recipients` and `dscontents`. */
  datatype Scan = Scan(reading: bool, nextcursor: bool, recipients: nat, records: seq<Record>)

  /** Records are opened only by recipient lines, so there is at most one more
      record than recipient lines counted. */
  predicate Sane(s: Scan) {
    1 <= |s.records| <= s.recipients + 1
  }

  const Start := Scan(false, false, 0, [Blank])

  /** The start-of-report test: the cursor after line `e`, and whether `e` is
      read any further. A line that opens the report is read only when it also
      says the message was frozen; empty lines are never read. */
  function Gate(reading: bool, e: string): (bool, bool) {
    var now := reading || AnyContained(e, MessageStarts);
    (now, now && e != "" && (reading || AnyContained(e, FrozenMarks)))
  }

  /** `e[2, 1]` is neither a space nor '<' (the line has at least two characters). */
  predicate ThirdCharOk(e: string) {
    Slice(e, 2, 1) != Some(" ") && Slice(e, 2, 1) != Some("<")
  }

  /** Lines 184-197: the line names a recipient. */
  predicate IsRecipientLine(e: string) {
    || (StartsWith(e, "  ") && Contains(e, "@") && Contains(e, ".") && !Contains(e, "pipe to |") && ThirdCharOk(e))
    || Contains(e, AliasMark)
  }

  /** The recipient-line test read character by character. */
  lemma RecipientLineChars(e: string)
    ensures IsRecipientLine(e) <==>
      || (&& |e| >= 3 && e[0] == ' ' && e[1] == ' ' && e[2] != ' ' && e[2] != '<'
          && '@' in e && '.' in e && !Contains(e, "pipe to |"))
      || Contains(e, AliasMark)
  {
    CharContained(e, '@');
    CharContained(e, '.');
    if StartsWith(e, "  ") {
      assert e[..2] == "  ";
      assert e[0] == ' ' && e[1] == ' ';
      if |e| == 2 {
        assert '@' !in e;
      } else {
        assert e[2..3] == [e[2]];
        assert Slice(e, 2, 1) == Some([e[2]]);
      }
    }
    if |e| >= 3 && e[0] == ' ' && e[1] == ' ' {
      assert e[..2] == "  ";
      assert e[2..3] == [e[2]];
      assert Slice(e, 2, 1) == Some([e[2]]);
    }
  }

  lemma CharContained(s: string, c: char)
    ensures Contains(s, [c]) <==> c in s
  {
    if c in s {
      var i :| 0 <= i < |s| && s[i] == c;
      assert s[i..i + 1] == [c];
      assert OccursAt(s, [c], i);
    }
    if Contains(s, [c]) {
      var i :| 0 <= i <= |s| - 1 && OccursAt(s, [c], i);
      assert s[i..i + 1][0] == s[i];
    }
  }

  /** Positions of ' <' and '>:' when both lie beyond index 1: the line carries
      an address in angle brackets and an error message after it. */
  function Bracketed(e: string): (r: Option<(nat, nat)>)
    ensures r.Some? ==> 1 < r.value.0 && 1 < r.value.1 && r.value.1 + 2 <= |e|
  {
    match (IndexOf(e, " <"), IndexOf(e, ">:"))
    case (Some(p1), Some(p2)) => if p1 > 1 && p2 > 1 then Some((p1, p2)) else None
    case _ => None
  }

  /** The address a recipient line yields (lines 205-235). */
  function Address(env: Env, e: string): Option<string> {
    if Contains(e, AliasMark) then Slice(e, 2, |e|)
    else match Bracketed(e)
      case Some((p1, p2)) => S3S4Opt(env, Slice(e, p1 + 1, p2 - p1 - 1))
      case None => S3S4Opt(env, Slice(e, 2, |e|))
  }

  /** Replaces the current record by `r`, which keeps its recipient. */
  function Edit(s: Scan, r: Record): (t: Scan)
    requires Sane(s) && r.recipient == Current(s.records).recipient
    ensures Sane(t) && Column(t.records) == Column(s.records)
    ensures t.recipients == s.recipients && t.reading == s.reading && t.nextcursor == s.nextcursor
    ensures Current(t.records) == r && |t.records| == |s.records|
    ensures EarlierKept(s.records, t.records)
  {
    s.(records := WithCurrent(s.records, r))
  }

  /** `v['alterrors'] << e + ' ' unless v['alterrors'].include?(e)`. */
  function AppendOnce(alt: string, e: string): (r: string)
    ensures Contains(r, e)
    ensures Contains(alt, e) ==> r == alt
    ensures !Contains(alt, e) ==> r == alt + e + " "
  {
    if Contains(alt, e) then alt
    else
      ContainsAppended(alt, e, " ");
      alt + e + " "
  }

  /** The append of lines 283-286 is idempotent: reading the same line twice
      leaves `alterrors` as reading it once does. */
  lemma AppendOnceIdempotent(alt: string, e: string)
    ensures AppendOnce(AppendOnce(alt, e), e) == AppendOnce(alt, e)
  {
  }

  /** A recipient line (lines 197-237): the address goes into the current
      record or a new one, and the counter goes up by one. A line with an
      address in angle brackets followed by ':' also sets that record's
      diagnosis to the swept text after the brackets. */
  function RecipientLine(env: Env, s: Scan, e: string): (t: Scan)
    requires Sane(s)
    ensures Sane(t) && t.reading == s.reading && t.nextcursor == s.nextcursor
    ensures Column(t.records) == Push(Column(s.records), Address(env, e))
    ensures t.recipients == s.recipients + 1
    ensures |s.records| <= |t.records| && EarlierKept(s.records, t.records)
    ensures Current(s.records).recipient.Some? ==> t.records[|s.records| - 1] == Current(s.records)
    ensures !Contains(e, AliasMark) && Bracketed(e).Some? ==>
      Current(t.records) == Opened(s.records).(recipient := Address(env, e),
                                                diagnosis := SweepOpt(env, Slice(e, Bracketed(e).value.1 + 1, |e|)))
    ensures Contains(e, AliasMark) || Bracketed(e).None? ==>
      Current(t.records) == Opened(s.records).(recipient := Address(env, e))
  {
    var rs := AddRecipient(s.records, Address(env, e));
    var t := s.(records := rs, recipients := s.recipients + 1);
    if Contains(e, AliasMark) then t
    else match Bracketed(e)
      case Some((_, p2)) =>
        var v := Current(rs);
        Edit(t, v.(diagnosis := SweepOpt(env, Slice(e, p2 + 1, |e|))))
      case None => t
  }

  /** A line of the delivery-status part (lines 253-288): a field line when
      RFC1894.match accepts it, skipped when RFC1894.field cannot read it, and
      otherwise a line of error text. */
  function StatusPartLine(env: Env, s: Scan, e: string): (t: Scan)
    requires Sane(s)
    ensures Sane(t) && Column(t.records) == Column(s.records)
    ensures t.recipients == s.recipients && t.reading == s.reading
    ensures s.nextcursor ==> t.nextcursor
    ensures |t.records| == |s.records| && EarlierKept(s.records, t.records)
    ensures env.fieldLevel(e).Some? && env.field(e).None? ==> t == s
    ensures env.fieldLevel(e).Some? && env.field(e).Some? ==> t == StatusField(env, s, env.field(e).value)
    ensures env.fieldLevel(e).None? ==> t == StatusNote(s, e)
  {
    match env.fieldLevel(e)
    case Some(_) =>
      (match env.field(e)
       case None => s
       case Some(o) => StatusField(env, s, o))
    case None => StatusNote(s, e)
  }

  /** A field of the delivery-status part (lines 256-277): a Final-Recipient
      field defaults the spec to SMTP or X-UNIX, any other address field is
      ignored, a Diagnostic-Code field sets spec and diagnosis, and another
      field FIELDTABLE names is stored under its key. */
  function StatusField(env: Env, s: Scan, o: Field): (t: Scan)
    requires Sane(s)
    ensures Sane(t) && Column(t.records) == Column(s.records)
    ensures t.recipients == s.recipients && t.reading == s.reading && t.nextcursor == s.nextcursor
    ensures |t.records| == |s.records| && EarlierKept(s.records, t.records)
    ensures o.kind == KindAddr && o.name != "final-recipient" ==> t == s
    ensures var v := Current(s.records);
      o.kind == KindAddr && o.name == "final-recipient" ==>
        Current(t.records) == v.(spec := v.spec.Or(Some(if Contains(o.value, "@") then "SMTP" else "X-UNIX")))
    ensures o.kind == KindCode ==>
      Current(t.records) == Current(s.records).(spec := Some(o.subtype), diagnosis := Some(o.value))
    ensures o.kind != KindAddr && o.kind != KindCode && env.fieldTable(o.name).None? ==> t == s
    ensures o.kind != KindAddr && o.kind != KindCode && env.fieldTable(o.name).Some? ==>
      Current(t.records) == Current(s.records).Set(env.fieldTable(o.name).value, Some(o.value))
  {
    var v := Current(s.records);
    if o.kind == KindAddr then
      if o.name != "final-recipient" then s
      else Edit(s, v.(spec := v.spec.Or(Some(if Contains(o.value, "@") then "SMTP" else "X-UNIX"))))
    else if o.kind == KindCode then
      Edit(s, v.(spec := Some(o.subtype), diagnosis := Some(o.value)))
    else
      match env.fieldTable(o.name)
      case None => s
      case Some(k) => Edit(s, v.Set(k, Some(o.value)))
  }

  /** A line of the delivery-status part that is no field (lines 278-287).
      After the delivery-status header it is ignored. Before that, the line
      that is the header sets the flag; every such line makes sure `alterrors`
      exists, and a line indented by white space is appended to it, without
      that indentation and only when not already there. */
  function StatusNote(s: Scan, e: string): (t: Scan)
    requires Sane(s)
    ensures Sane(t) && Column(t.records) == Column(s.records)
    ensures t.recipients == s.recipients && t.reading == s.reading
    ensures |t.records| == |s.records| && EarlierKept(s.records, t.records)
    ensures s.nextcursor ==> t == s
    ensures !s.nextcursor ==> t.nextcursor == StartsWith(e, DeliveryStatusStart)
    ensures var v := Current(s.records);
      !s.nextcursor && (StartsWith(e, " ") || StartsWith(e, "\t")) ==>
        Current(t.records) == v.(alterrors := Some(AppendOnce(v.alterrors.GetOr(""), DropLeading(e, IsRegexSpace))))
    ensures var v := Current(s.records);
      !s.nextcursor && !StartsWith(e, " ") && !StartsWith(e, "\t") ==>
        Current(t.records) == v.(alterrors := Some(v.alterrors.GetOr("")))
  {
    if s.nextcursor then s
    else
      var v := Current(s.records);
      var s1 := s.(nextcursor := StartsWith(e, DeliveryStatusStart));
      var alt := v.alterrors.GetOr("");
      var alt1 := if StartsWith(e, " ") || StartsWith(e, "\t")
                  then AppendOnce(alt, DropLeading(e, IsRegexSpace))
                  else alt;
      Edit(s1, v.(alterrors := Some(alt1)))
  }

  /** A line of a plain-text bounce (lines 289-307). Once there are as many
      records as recipient lines counted (a nil address leaves the current
      record without a recipient), the line is error text appended to the
      diagnosis with two spaces; before that a pipe line replaces the diagnosis and a line
      indented by four spaces is appended to `alterrors`. */
  function PlainLine(s: Scan, e: string): (t: Scan)
    requires Sane(s)
    ensures Sane(t) && Column(t.records) == Column(s.records)
    ensures t.recipients == s.recipients && t.reading == s.reading && t.nextcursor == s.nextcursor
    ensures EarlierKept(s.records, t.records) && |t.records| == |s.records|
    ensures var v := Current(s.records);
      |s.records| == s.recipients ==> Current(t.records) == v.(diagnosis := Some(v.diagnosis.GetOr("") + e + "  "))
    ensures var v := Current(s.records);
      |s.records| != s.recipients && Contains(e, " pipe to |/") ==> Current(t.records) == v.(diagnosis := Some(e))
    ensures var v := Current(s.records);
      |s.records| != s.recipients && !Contains(e, " pipe to |/") && StartsWith(e, "    ") ==>
        Current(t.records) == v.(alterrors := Some(v.alterrors.GetOr("") + e + " "))
    ensures |s.records| != s.recipients && !Contains(e, " pipe to |/") && !StartsWith(e, "    ") ==> t == s
  {
    var v := Current(s.records);
    if |s.records| == s.recipients then
      var t := Edit(s, v.(diagnosis := Some(v.diagnosis.GetOr("") + e + "  ")));
      t
    else if Contains(e, " pipe to |/") then
      var t := Edit(s, v.(diagnosis := Some(e)));
      t
    else if StartsWith(e, "    ") then
      var t := Edit(s, v.(alterrors := Some(v.alterrors.GetOr("") + e + " ")));
      t
    else s
  }

  /** Lines 238-242: the line names the address a recipient was generated from. */
  predicate IsGeneratedLine(e: string) {
    Contains(e, " (generated from ") || Contains(e, " generated by ")
  }

  lemma GeneratedLineHasSpace(e: string)
    requires IsGeneratedLine(e)
    ensures Contains(e, " ")
  {
    var p := if Contains(e, " (generated from ") then " (generated from " else " generated by ";
    var i :| 0 <= i <= |e| - |p| && OccursAt(e, p, i);
    assert OccursAt(p, " ", 0);
    ContainsInside(e, p, i, " ");
  }

  /** The alias such a line gives: the address after its last space. */
  function GeneratedAlias(env: Env, e: string): (r: Option<string>)
    requires IsGeneratedLine(e)
    ensures r.Some?
  {
    GeneratedLineHasSpace(e);
    S3S4Opt(env, Slice(e, RIndexOf(e, " ").value + 1, |e|))
  }

  /** One line inside the report (lines 180-309), tested in the source's
      order: a recipient line, a line naming what it was generated from (the
      current record's alias), a frozen notice (appended to `alterrors`), then
      a line of the delivery-status part or of a plain-text bounce. Only a
      recipient line opens a record, and earlier records are never touched. */
  function ReadLine(env: Env, boundary: string, s: Scan, e: string): (t: Scan)
    requires Sane(s)
    ensures Sane(t) && t.reading == s.reading
    ensures IsRecipientLine(e) ==>
      Column(t.records) == Push(Column(s.records), Address(env, e)) && t.recipients == s.recipients + 1
    ensures !IsRecipientLine(e) ==>
      Column(t.records) == Column(s.records) && t.recipients == s.recipients && |t.records| == |s.records|
    ensures |s.records| <= |t.records| && EarlierKept(s.records, t.records)
    ensures IsRecipientLine(e) ==> t == RecipientLine(env, s, e)
    ensures !IsRecipientLine(e) && IsGeneratedLine(e) ==>
      t.nextcursor == s.nextcursor && Current(t.records) == Current(s.records).(alias := GeneratedAlias(env, e))
    ensures !IsRecipientLine(e) && !IsGeneratedLine(e) && AnyContained(e, FrozenMarks) ==>
      var v := Current(s.records);
      t.nextcursor == s.nextcursor && Current(t.records) == v.(alterrors := Some(v.alterrors.GetOr("") + e + " "))
    ensures !IsRecipientLine(e) && !IsGeneratedLine(e) && !AnyContained(e, FrozenMarks) ==>
      t == if boundary != "" then StatusPartLine(env, s, e) else PlainLine(s, e)
  {
    var v := Current(s.records);
    if IsRecipientLine(e) then RecipientLine(env, s, e)
    else if IsGeneratedLine(e) then Edit(s, v.(alias := GeneratedAlias(env, e)))
    else if AnyContained(e, FrozenMarks) then
      Edit(s, v.(alterrors := Some(v.alterrors.GetOr("") + e + " ")))
    else if boundary != "" then StatusPartLine(env, s, e)
    else PlainLine(s, e)
  }

  /** One turn of the `while e = bodyslices.shift` loop. */
  function Step(env: Env, boundary: string, s: Scan, e: string): (t: Scan)
    requires Sane(s)
    ensures Sane(t) && t.reading == Gate(s.reading, e).0
    ensures Gate(s.reading, e).1 && IsRecipientLine(e) ==>
      Column(t.records) == Push(Column(s.records), Address(env, e)) && t.recipients == s.recipients + 1
    ensures !(Gate(s.reading, e).1 && IsRecipientLine(e)) ==>
      Column(t.records) == Column(s.records) && t.recipients == s.recipients
    ensures !Gate(s.reading, e).1 ==> t == s.(reading := Gate(s.reading, e).0)
    ensures Gate(s.reading, e).1 ==> t == ReadLine(env, boundary, s.(reading := true), e)
  {
    var g := Gate(s.reading, e);
    var s1 := s.(reading := g.0);
    if g.1 then ReadLine(env, boundary, s1, e) else s1
  }

  /** The loop over all lines; once the report has begun it is never left. */
  function ScanLines(env: Env, boundary: string, s: Scan, lines: seq<string>): (t: Scan)
    requires Sane(s)
    ensures Sane(t)
    ensures s.reading ==> t.reading
    decreases |lines|
  {
    if |lines| == 0 then s
    else ScanLines(env, boundary, Step(env, boundary, s, lines[0]), lines[1..])
  }

  /** Lines 162-170: nothing before the first line that opens the report has
      any effect. That line itself only sets the cursor, unless it also says
      the message was frozen, in which case it is read as the report's first line. */
  lemma {:induction false} PreambleSkipped(env: Env, boundary: string, before: seq<string>,
                                           opener: string, after: seq<string>)
    requires forall i | 0 <= i < |before| :: !AnyContained(before[i], MessageStarts)
    requires AnyContained(opener, MessageStarts)
    ensures !AnyContained(opener, FrozenMarks) ==>
      ScanLines(env, boundary, Start, before + [opener] + after)
      == ScanLines(env, boundary, Start.(reading := true), after)
    ensures AnyContained(opener, FrozenMarks) ==>
      ScanLines(env, boundary, Start, before + [opener] + after)
      == ScanLines(env, boundary, Start.(reading := true), [opener] + after)
    decreases |before|
  {
    if |before| == 0 {
      assert ([] + [opener] + after)[0] == opener;
      assert ([] + [opener] + after)[1..] == after;
      if AnyContained(opener, FrozenMarks) {
        assert opener != "";
        assert ([opener] + after)[0] == opener;
        assert ([opener] + after)[1..] == after;
      }
    } else {
      assert (before + [opener] + after)[0] == before[0];
      assert (before + [opener] + after)[1..] == before[1..] + [opener] + after;
      PreambleSkipped(env, boundary, before[1..], opener, after);
    }
  }

  /** Reference definition: the addresses of the recipient lines inside the
      report, in order, computed from the cursor alone. */
  function BodyAddresses(env: Env, reading: bool, lines: seq<string>): seq<Option<string>>
    decreases |lines|
  {
    if |lines| == 0 then []
    else
      var g := Gate(reading, lines[0]);
      (if g.1 && IsRecipientLine(lines[0]) then [Address(env, lines[0])] else [])
      + BodyAddresses(env, g.0, lines[1..])
  }

  lemma RollCons(col: seq<Option<string>>, a: Option<string>, rest: seq<Option<string>>)
    requires |col| >= 1
    ensures Roll(col, [a] + rest) == Roll(Push(col, a), rest)
  {
    assert ([a] + rest)[0] == a;
    assert ([a] + rest)[1..] == rest;
  }

  /** The scan's recipient column is the start column rolled over the
      reference addresses, and the counter grows by their number. */
  lemma {:induction false} ScanFollowsAddresses(env: Env, boundary: string, s: Scan, lines: seq<string>)
    requires Sane(s)
    ensures Column(ScanLines(env, boundary, s, lines).records)
            == Roll(Column(s.records), BodyAddresses(env, s.reading, lines))
    ensures ScanLines(env, boundary, s, lines).recipients
            == s.recipients + |BodyAddresses(env, s.reading, lines)|
    decreases |lines|
  {
    if |lines| > 0 {
      var e := lines[0];
      var g := Gate(s.reading, e);
      var s1 := Step(env, boundary, s, e);
      ScanFollowsAddresses(env, boundary, s1, lines[1..]);
      var rest := BodyAddresses(env, g.0, lines[1..]);
      if g.1 && IsRecipientLine(e) {
        RollCons(Column(s.records), Address(env, e), rest);
      } else {
        assert BodyAddresses(env, s.reading, lines) == rest;
      }
    }
  }

  /** Records found in the body equal the recipient lines in number and order
      when every recipient line yields an address. */
  lemma BodyRecipientsInOrder(env: Env, boundary: string, lines: seq<string>)
    requires var addrs := BodyAddresses(env, false, lines); |addrs| > 0 && AllSome(addrs)
    ensures Column(ScanLines(env, boundary, Start, lines).records) == BodyAddresses(env, false, lines)
    ensures |ScanLines(env, boundary, Start, lines).records| == ScanLines(env, boundary, Start, lines).recipients
  {
    ScanFollowsAddresses(env, boundary, Start, lines);
    RollFromBlank(BodyAddresses(env, false, lines));
  }

  // ---------------------------------------------------------------------------
  // After the scan: aliases and the X-Failed-Recipients fallback

  /** Lines 316-321 for one record: a non-empty alias replaces a recipient that
      is empty or has no '@'; a nil recipient makes `empty?` raise. */
  function Realias(q: Record): (r: Result<Record>)
    ensures q.alias.None? || q.alias == Some("") ==> r == Success(q)
    ensures r.Failure? <==> q.alias.Some? && q.alias != Some("") && q.recipient.None?
    ensures r.Failure? ==> r.crash == NilRecipient
    ensures r.Success? ==> r.value == q.(recipient := r.value.recipient)
    ensures r.Success? && r.value.recipient != q.recipient ==>
      && r.value.recipient == q.alias && q.alias != Some("")
      && (q.recipient == Some("") || '@' !in q.recipient.value)
    ensures q.alias.Some? && q.alias != Some("") && q.recipient.Some?
            && (q.recipient == Some("") || '@' !in q.recipient.value) ==>
      r == Success(q.(recipient := q.alias))
  {
    if q.alias.None? || q.alias == Some("") then Success(q)
    else if q.recipient.None? then Failure(NilRecipient)
    else if q.recipient == Some("") || !Contains(q.recipient.value, "@") then
      CharContained(q.recipient.value, '@');
      Success(q.(recipient := q.alias))
    else
      CharContained(q.recipient.value, '@');
      Success(q)
  }

  /** The X-Failed-Recipients entries, split at ',' and stripped. */
  function FailedRecipients(h: Headers): (r: seq<string>)
    ensures Header(h, "x-failed-recipients").None? ==> r == []
    ensures Header(h, "x-failed-recipients").Some? ==>
      var parts := Split(Header(h, "x-failed-recipients").value, ',');
      |r| == |parts| && forall i | 0 <= i < |r| :: r[i] == Strip(parts[i])
  {
    match Header(h, "x-failed-recipients")
    case None => []
    case Some(x) =>
      var parts := Split(x, ',');
      seq(|parts|, i requires 0 <= i < |parts| => Strip(parts[i]))
  }

  /** Lines 323-342: with no recipient in the body, one record per header entry, in order. */
  function Fallback(rs: seq<Record>, entries: seq<string>): (r: seq<Record>)
    requires |rs| == 1
    ensures |entries| == 0 ==> r == rs
    ensures |entries| > 0 ==> |r| == |entries|
    ensures |entries| > 0 ==> forall i | 0 <= i < |r| :: r[i].recipient == Some(entries[i])
    ensures |entries| > 0 ==> r[0] == rs[0].(recipient := Some(entries[0]))
    ensures forall i | 1 <= i < |r| :: r[i] == Blank.(recipient := Some(entries[i]))
  {
    FillFromList(rs, entries, |entries|)
  }

  // ---------------------------------------------------------------------------
  // Per-record post-processing (lines 353-500)

  /** Lines 357-380: a record with no diagnosis in a multipart bounce takes the
      first record's diagnosis, or '' when it is the first record itself. The
      first record is read after its own post-processing (`anchor`); it is
      absent while the first record itself is processed. */
  function FromAnchor(e: Record, anchor: Option<Record>, boundary: string): (r: Record)
    ensures e.diagnosis.Some? || boundary == "" ==> r == e
    ensures e.diagnosis.None? && boundary != "" ==> r.diagnosis.Some?
    ensures anchor.None? ==> r == e.(diagnosis := r.diagnosis)
    ensures anchor.None? && e.diagnosis.None? && boundary != "" ==> r.diagnosis == Some("")
    ensures r == e.(diagnosis := r.diagnosis, spec := r.spec, alterrors := r.alterrors)
    ensures anchor.Some? && e.diagnosis.None? && boundary != "" ==>
      && r.diagnosis == Some(anchor.value.diagnosis.GetOr(""))
      && r.spec == e.spec.Or(anchor.value.spec)
      && r.alterrors == (if anchor.value.alterrors.GetOr("") != "" then anchor.value.alterrors else e.alterrors)
  {
    if e.diagnosis.Some? || boundary == "" then e
    else match anchor
      case None => e.(diagnosis := Some(""))
      case Some(a) =>
        var e1 := e.(diagnosis := Some(a.diagnosis.GetOr("")), spec := e.spec.Or(a.spec));
        if a.alterrors.GetOr("") != "" then e1.(alterrors := a.alterrors) else e1
  }

  /** Lines 382-398: a non-empty `alterrors` fills an empty diagnosis, replaces
      one that starts with '-' or ends with '__', and replaces a shorter one it
      contains (ignoring case); the key is then deleted. */
  function MergeAltErrors(e: Record): (r: Record)
    ensures e.alterrors.GetOr("") == "" ==> r == e
    ensures r.alterrors.GetOr("") == ""
    ensures e.alterrors.GetOr("") != "" ==>
      && r == e.(alterrors := None, diagnosis := r.diagnosis)
      && (r.diagnosis == e.alterrors || r.diagnosis == e.diagnosis)
      && (e.diagnosis.GetOr("") == "" ==> r.diagnosis == e.alterrors)
    ensures e.alterrors.GetOr("") != "" && e.diagnosis.GetOr("") != "" ==>
      var d := e.diagnosis.value;
      var alt := e.alterrors.value;
      r.diagnosis == e.alterrors <==>
        || StartsWith(d, "-") || EndsWith(d, "__")
        || (|d| < |alt| && Contains(Downcase(alt), Downcase(d)))
        || d == alt
  {
    var alt := e.alterrors.GetOr("");
    if alt == "" then e
    else
      var d := if e.diagnosis.GetOr("") == "" then alt else e.diagnosis.value;
      var d1 :=
        if StartsWith(d, "-") || EndsWith(d, "__") then alt
        else if |d| < |alt| && Contains(Downcase(alt), Downcase(d)) then alt
        else d;
      e.(diagnosis := Some(d1), alterrors := None)
  }

  /** Line 399-400: the swept diagnosis, cut before its first '__' when that
      lies beyond index 1; a '__' at index 0 or 1 leaves it whole. */
  function CleanDiagnosis(env: Env, d: Option<string>): (r: string)
    ensures IndexOf(r, "__").None? || IndexOf(r, "__").value <= 1
    ensures d.None? ==> r == ""
    ensures d.Some? ==> StartsWith(env.sweep(d.value), r)
    ensures d.Some? && IndexOf(env.sweep(d.value), "__").Some? && IndexOf(env.sweep(d.value), "__").value > 1 ==>
      r == env.sweep(d.value)[..IndexOf(env.sweep(d.value), "__").value] && !Contains(r, "__")
    ensures d.Some? && (IndexOf(env.sweep(d.value), "__").None? || IndexOf(env.sweep(d.value), "__").value <= 1) ==>
      r == env.sweep(d.value)
  {
    var swept := SweepOpt(env, d).GetOr("");
    match IndexOf(swept, "__")
    case Some(p1) =>
      if p1 > 1 then
        var cut := swept[..p1];
        NoEarlierOccurrence(swept, "__", p1);
        cut
      else swept
    case None => swept
  }

  /** Cutting before the first occurrence of `p` leaves no occurrence of `p`. */
  lemma NoEarlierOccurrence(s: string, p: string, k: nat)
    requires |p| > 0 && k <= |s| && forall j | 0 <= j < k :: !OccursAt(s, p, j)
    ensures IndexOf(s[..k], p).None?
  {
    forall j | 0 <= j ensures !OccursAt(s[..k], p, j) {
      if OccursAt(s[..k], p, j) {
        assert s[..k][j..j + |p|] == s[j..j + |p|];
        assert OccursAt(s, p, j);
      }
    }
  }

  /** The SMTP command and reason a record without a command gets (lines 415-447). */
  function Classify(d: string, reason: Option<string>): (r: (Option<string>, Option<string>))
    ensures r.0 == FirstCommand(d, ReCommands)
    ensures r.0 == Some("HELO") || r.0 == Some("EHLO") ==> r.1 == Some("blocked")
    ensures r.0 == Some("MAIL") ==> r.1 == Some("onhold")
    ensures r.0 != Some("HELO") && r.0 != Some("EHLO") && r.0 != Some("MAIL") ==>
      && (FirstMatch(MessagesOf, d).Some? ==> r.1 == FirstMatch(MessagesOf, d))
      && (FirstMatch(MessagesOf, d).None? && reason.Some? ==> r.1 == reason)
      && (FirstMatch(MessagesOf, d).None? && reason.None? ==>
            r.1 == if AnyContained(d, DelayedFor) then Some("expired")
                   else if Contains(d, "pipe to |") then Some("mailererror")
                   else None)
  {
    var command := FirstCommand(d, ReCommands);
    if command == Some("HELO") || command == Some("EHLO") then (command, Some("blocked"))
    else if command == Some("MAIL") then (command, Some("onhold"))
    else
      var found := FirstMatch(MessagesOf, d).Or(reason);
      if found.Some? then (command, found)
      else if AnyContained(d, DelayedFor) then (command, Some("expired"))
      else if Contains(d, "pipe to |") then (command, Some("mailererror"))
      else (command, None)
  }

  /** Lines 459-499: the status a record ends with. A status it already has is
      kept. Otherwise the code `Status.find` reads in the diagnosis is used
      when it starts with a non-zero digit; failing that, a reply code with
      leading 4 or 5 yields a temporary or permanent pseudo status; with
      neither, the reason decides: 'expired' and 'mailboxfull' are temporary,
      every other reason permanent. */
  function ReconcileStatus(env: Env, status: Option<string>, replycode: Option<string>,
                           reason: Option<string>, d: string): (r: string)
    ensures status.Some? ==> r == status.value
    ensures status.None? && env.statusFind(d).Some? && FirstDigit(env.statusFind(d).value) > 0 ==>
      r == env.statusFind(d).value
    ensures status.None? && env.statusFind(d).None? && replycode.Or(env.replyFind(d)).Some? ==>
      var r1 := FirstDigit(replycode.Or(env.replyFind(d)).value);
      && (r1 == 4 ==> r == env.statusCode(reason, true).GetOr(""))
      && (r1 == 5 ==> r == env.statusCode(reason, false).GetOr(""))
      && (r1 != 0 && r1 != 4 && r1 != 5 ==> r == "")
    ensures
      && status.None?
      && (env.statusFind(d).None? ==>
            replycode.Or(env.replyFind(d)).None? || FirstDigit(replycode.Or(env.replyFind(d)).value) == 0)
      && (env.statusFind(d).Some? ==> FirstDigit(env.statusFind(d).value) == 0)
      ==> r == env.statusCode(reason, reason == Some("expired") || reason == Some("mailboxfull")).GetOr("")
  {
    var cs := status.Or(env.statusFind(d));
    var cr := replycode.Or(env.replyFind(d));
    var r1 := if cs.None? && cr.Some? then FirstDigit(cr.value) else 0;
    var cs1 :=
      if cs.None? && cr.Some? && r1 == 4 then env.statusCode(reason, true)
      else if cs.None? && cr.Some? && r1 == 5 then env.statusCode(reason, false)
      else cs;
    var s1 := if cs1.Some? then FirstDigit(cs1.value) else 0;
    var v1 := s1 + r1;
    if v1 > 0 then
      var st := if r1 > 0 then cs1 else status;
      st.Or(Some(cs1.GetOr(""))).value
    else
      var temporary := reason == Some("expired") || reason == Some("mailboxfull");
      status.Or(Some(env.statusCode(reason, temporary).GetOr(""))).value
  }

  /** The whole post-processing of one record. */
  function Finish(env: Env, e: Record, anchor: Option<Record>, boundary: string,
                  localhost: string, received: seq<string>): (r: Record)
    ensures r.recipient == e.recipient && r.alias == e.alias && r.action == e.action && r.date == e.date
    ensures r.lhost == e.lhost.Or(Some(localhost))
    ensures r.status.Some? && (e.status.Some? ==> r.status == e.status)
    ensures r.diagnosis.Some?
    ensures r.alterrors.GetOr("") == ""
    ensures e.command.Some? ==> r.command == e.command && r.reason == e.reason
    ensures e.rhost.Some? ==> r.rhost == e.rhost
    ensures r.diagnosis == Some(CleanDiagnosis(env, MergeAltErrors(FromAnchor(e, anchor, boundary)).diagnosis))
    ensures e.command.None? ==> (r.command, r.reason) == Classify(r.diagnosis.value, e.reason)
    ensures r.status == Some(ReconcileStatus(env, e.status, e.replycode, r.reason, r.diagnosis.value))
    ensures r.rhost == RemoteHost(env, e.rhost, r.diagnosis.value, received)
    ensures r == MergeAltErrors(FromAnchor(e, anchor, boundary)).(
      lhost := r.lhost, diagnosis := r.diagnosis, rhost := r.rhost,
      command := r.command, reason := r.reason, status := r.status)
  {
    // Neither the anchor copy nor the merge reads `lhost`, `rhost`, `command`,
    // `reason`, `status` or `replycode`, so those are read from `e` itself.
    var e2 := MergeAltErrors(FromAnchor(e, anchor, boundary));
    var d := CleanDiagnosis(env, e2.diagnosis);
    var rhost := RemoteHost(env, e.rhost, d, received);
    var cr := if e.command.None? then Classify(d, e.reason) else (e.command, e.reason);
    var status := ReconcileStatus(env, e.status, e.replycode, cr.1, d);
    e2.(lhost := e.lhost.Or(Some(localhost)), diagnosis := Some(d), rhost := rhost,
        command := cr.0, reason := cr.1, status := Some(status))
  }

  /** Lines 353-500 over all records: the first record is processed on its
      own, every later one reads the processed first record. */
  function FinishAll(env: Env, rs: seq<Record>, boundary: string, localhost: string,
                     received: seq<string>): (r: seq<Record>)
    requires |rs| >= 1
    ensures |r| == |rs|
    ensures r[0] == Finish(env, rs[0], None, boundary, localhost, received)
    ensures forall i {:trigger Finish(env, rs[i], Some(r[0]), boundary, localhost, received)} | 1 <= i < |rs| ::
      r[i] == Finish(env, rs[i], Some(r[0]), boundary, localhost, received)
    ensures forall i | 0 <= i < |rs| :: Completed(r[i]) && r[i].recipient == rs[i].recipient
  {
    var r := Anchored(q => Finish(env, q, None, boundary, localhost, received),
                      (q, a) => Finish(env, q, Some(a), boundary, localhost, received), rs);
    forall i | 0 <= i < |rs| ensures Completed(r[i]) && r[i].recipient == rs[i].recipient {
      FinishCompletes(env, rs[i], if i == 0 then None else Some(r[0]), boundary, localhost, received);
      FinishKeepsRecipient(env, rs[i], if i == 0 then None else Some(r[0]), boundary, localhost, received);
    }
    r
  }

  /** A processed record: it has a status and a diagnosis, and no pending `alterrors`. */
  predicate Completed(r: Record) {
    r.status.Some? && r.diagnosis.Some? && r.alterrors.GetOr("") == ""
  }

  lemma FinishCompletes(env: Env, e: Record, anchor: Option<Record>, boundary: string,
                        localhost: string, received: seq<string>)
    ensures Completed(Finish(env, e, anchor, boundary, localhost, received))
  {
  }

  /** Post-processing never moves or changes a recipient. */
  lemma FinishAllKeepsColumn(env: Env, rs: seq<Record>, boundary: string, localhost: string,
                             received: seq<string>)
    requires |rs| >= 1
    ensures Column(FinishAll(env, rs, boundary, localhost, received)) == Column(rs)
  {
  }

  lemma FinishKeepsRecipient(env: Env, e: Record, anchor: Option<Record>, boundary: string,
                             localhost: string, received: seq<string>)
    ensures Finish(env, e, anchor, boundary, localhost, received).recipient == e.recipient
  {
  }

  /** The processed first record never has a non-empty `alterrors`, so the copy
      of lines 375-378 never fires for the later records. */
  lemma AnchorLendsNoAltErrors(env: Env, e: Record, anchor: Record, boundary: string,
                               localhost: string, received: seq<string>)
    requires anchor.alterrors.GetOr("") == ""
    ensures FromAnchor(e, Some(anchor), boundary).alterrors == e.alterrors
  {
  }

  // ---------------------------------------------------------------------------
  // inquire

  /** Lines 345-351: `localhost0`, the word after 'from ' in the last Received
      header; it stays '' when there is no header or no such word. */
  function LocalHost(received: seq<string>): (r: string)
    ensures LastReceived(received).Some? && WordAfter(LastReceived(received).value, "from ").Some? ==>
      r == WordAfter(LastReceived(received).value, "from ").value
    ensures LastReceived(received).None? || WordAfter(LastReceived(received).value, "from ").None? ==> r == ""
  {
    match LastReceived(received)
    case None => ""
    case Some(last) => WordAfter(last, "from ").GetOr("")
  }

  /** Lines 154-157: the multipart boundary named by Content-Type, or ''. */
  function ReportBoundary(env: Env, h: Headers): string {
    match Header(h, "content-type")
    case Some(ct) => env.boundary(ct).GetOr("")
    case None => ""
  }

  /** The scan of the body lines before the original message (lines 159-310). */
  function Scanned(env: Env, h: Headers, body: string): (s: Scan)
    ensures Sane(s)
  {
    ScanLines(env, ReportBoundary(env, h), Start, BodyLines(env, body, Boundaries).0)
  }

  /** Lines 312-343: the records found and the recipient count. With recipients
      in the body their aliases are applied (a crash when a record aliased has
      no recipient); without, X-Failed-Recipients supplies them. */
  function Collected(s: Scan, entries: seq<string>): (c: Result<(seq<Record>, nat)>)
    requires Sane(s)
    ensures c.Failure? <==> s.recipients > 0 && exists i | 0 <= i < |s.records| :: Realias(s.records[i]).Failure?
    ensures c.Failure? ==> c.crash == NilRecipient
    ensures c.Success? ==> |c.value.0| >= 1
    ensures c.Success? ==> (c.value.1 == 0 <==> s.recipients == 0 && |entries| == 0)
    ensures c.Success? && s.recipients > 0 ==>
      && |c.value.0| == |s.records|
      && forall i | 0 <= i < |s.records| ::
           Realias(s.records[i]).Success? && c.value.0[i] == Realias(s.records[i]).value
    ensures c.Success? && s.recipients == 0 && |entries| > 0 ==>
      && |c.value.0| == |entries|
      && forall i | 0 <= i < |entries| :: c.value.0[i].recipient == Some(entries[i])
    ensures c.Success? && s.recipients == 0 ==> c.value.0 == Fallback(s.records, entries)
  {
    if s.recipients > 0 then
      match MapChecked(Realias, s.records)
      case Failure(c) => Failure(c)
      case Success(rs) => Success((rs, s.recipients))
    else
      Success((Fallback(s.records, entries), |entries|))
  }

  /** `Sisimai::Lhost::Exim.inquire(mhead, mbody)`. Nothing is returned when no
      recipient is found, neither in the body nor in X-Failed-Recipients; a
      crash comes only from re-aliasing a record that has no recipient. */
  function Inquire(env: Env, h: Headers, body: string): (o: Outcome)
    ensures !Recognizes(h) ==> o == Declined
    ensures Recognizes(h) ==>
      (o.Declined? <==> Scanned(env, h, body).recipients == 0 && |FailedRecipients(h)| == 0)
    ensures o.Parsed? ==> |o.records| >= 1
    ensures o.Parsed? ==> forall i | 0 <= i < |o.records| :: Completed(o.records[i])
    ensures o.Raised? ==>
      && o.crash == NilRecipient
      && exists i | 0 <= i < |Scanned(env, h, body).records| :: Realias(Scanned(env, h, body).records[i]).Failure?
    ensures o.Parsed? ==>
      && Collected(Scanned(env, h, body), FailedRecipients(h)).Success?
      && o.records == FinishAll(env, Collected(Scanned(env, h, body), FailedRecipients(h)).value.0,
                                ReportBoundary(env, h), LocalHost(h.received), h.received)
  {
    if !Recognizes(h) then Declined
    else Report(env, h, Scanned(env, h, body), BodyLines(env, body, Boundaries).1)
  }

  /** What `inquire` returns for a message it recognizes, from the scan `s`
      of its body and the original message `rfc822`. */
  function Report(env: Env, h: Headers, s: Scan, rfc822: string): (o: Outcome)
    requires Sane(s)
    ensures o.Declined? <==> s.recipients == 0 && |FailedRecipients(h)| == 0
    ensures o.Parsed? ==> |o.records| >= 1
    ensures o.Parsed? ==> forall i | 0 <= i < |o.records| :: Completed(o.records[i])
    ensures o.Raised? ==>
      o.crash == NilRecipient && exists i | 0 <= i < |s.records| :: Realias(s.records[i]).Failure?
    ensures o.Parsed? ==>
      && Collected(s, FailedRecipients(h)).Success?
      && o.records == FinishAll(env, Collected(s, FailedRecipients(h)).value.0, ReportBoundary(env, h),
                                LocalHost(h.received), h.received)
  {
    var boundary := ReportBoundary(env, h);
    match Collected(s, FailedRecipients(h))
    case Failure(c) => Raised(c)
    case Success((rs, n)) =>
      if n == 0 then Declined
      else Parsed(FinishAll(env, rs, boundary, LocalHost(h.received), h.received), rfc822)
  }

  /** What a sequence with the same recipients as the collected records says:
      the re-aliased body recipients, or the X-Failed-Recipients entries. */
  lemma CollectedColumn(s: Scan, entries: seq<string>, out: seq<Record>)
    requires Sane(s) && Collected(s, entries).Success?
    requires Column(out) == Column(Collected(s, entries).value.0)
    ensures s.recipients > 0 ==>
      && |out| == |s.records|
      && forall i | 0 <= i < |s.records| ::
           Realias(s.records[i]).Success? && out[i].recipient == Realias(s.records[i]).value.recipient
    ensures s.recipients == 0 ==>
      && |out| == |Collected(s, entries).value.0|
      && (|entries| > 0 ==> |out| == |entries| && forall i | 0 <= i < |out| :: out[i].recipient == Some(entries[i]))
  {
    var rs := Collected(s, entries).value.0;
    forall i | 0 <= i < |out| ensures out[i].recipient == rs[i].recipient {
      assert Column(out)[i] == Column(rs)[i];
    }
  }

  /** The records returned are those of the body with their aliases applied,
      one for one; or, when the body had no recipient, one per
      X-Failed-Recipients entry carrying that entry. */
  lemma InquireRecords(env: Env, h: Headers, body: string)
    ensures var o := Inquire(env, h, body);
      var rs := Scanned(env, h, body).records;
      o.Parsed? && Scanned(env, h, body).recipients > 0 ==>
        && |o.records| == |rs|
        && forall i | 0 <= i < |rs| ::
             Realias(rs[i]).Success? && o.records[i].recipient == Realias(rs[i]).value.recipient
    ensures var o := Inquire(env, h, body);
      o.Parsed? && Scanned(env, h, body).recipients == 0 ==>
        && |o.records| == |FailedRecipients(h)|
        && forall i | 0 <= i < |o.records| :: o.records[i].recipient == Some(FailedRecipients(h)[i])
  {
    var o := Inquire(env, h, body);
    if o.Parsed? {
      var s := Scanned(env, h, body);
      var rs := Collected(s, FailedRecipients(h)).value.0;
      FinishAllKeepsColumn(env, rs, ReportBoundary(env, h), LocalHost(h.received), h.received);
      CollectedColumn(s, FailedRecipients(h), o.records);
    }
  }

  /** The records returned carry the recipient lines' addresses, in order, when
      every such line yields an address with '@' in it. */
  lemma ParsedRecords(env: Env, h: Headers, body: string)
    ensures var o := Inquire(env, h, body);
      var addrs := BodyAddresses(env, false, BodyLines(env, body, Boundaries).0);
      o.Parsed? && |addrs| > 0 && AllSome(addrs) && (forall i | 0 <= i < |addrs| :: '@' in addrs[i].value) ==>
        Column(o.records) == addrs
  {
    var lines := BodyLines(env, body, Boundaries).0;
    var addrs := BodyAddresses(env, false, lines);
    var o := Inquire(env, h, body);
    if o.Parsed? && |addrs| > 0 && AllSome(addrs) && (forall i | 0 <= i < |addrs| :: '@' in addrs[i].value) {
      var rs := Scanned(env, h, body).records;
      BodyRecipientsInOrder(env, ReportBoundary(env, h), lines);
      InquireRecords(env, h, body);
      RealiasKeepsAddresses(rs, o.records, addrs);
    }
  }

  /** Re-aliasing leaves every recipient that already has an '@'. */
  lemma RealiasKeepsAddresses(rs: seq<Record>, out: seq<Record>, addrs: seq<Option<string>>)
    requires Column(rs) == addrs && AllSome(addrs) && forall i | 0 <= i < |addrs| :: '@' in addrs[i].value
    requires |out| == |rs|
    requires forall i | 0 <= i < |rs| :: Realias(rs[i]).Success? && out[i].recipient == Realias(rs[i]).value.recipient
    ensures Column(out) == addrs
  {
    forall i | 0 <= i < |rs| ensures out[i].recipient == addrs[i] {
      assert rs[i].recipient == Column(rs)[i] == addrs[i];
      assert '@' in rs[i].recipient.value;
    }
  }

  /** With no recipient line in the report, the records returned carry the
      X-Failed-Recipients entries, in order. */
  lemma FallbackRecords(env: Env, h: Headers, body: string)
    ensures var o := Inquire(env, h, body);
      o.Parsed? && BodyAddresses(env, false, BodyLines(env, body, Boundaries).0) == [] ==>
        |o.records| == |FailedRecipients(h)| &&
        forall i | 0 <= i < |o.records| :: o.records[i].recipient == Some(FailedRecipients(h)[i])
  {
    ScanFollowsAddresses(env, ReportBoundary(env, h), Start, BodyLines(env, body, Boundaries).0);
    InquireRecords(env, h, body);
  }
}

=== FILE: hosts.dfy ===
/** Host names the Exim-style adapters take from the diagnosis and from the
    Received headers. */
module Hosts {
  import opened Options
  import opened Text
  import opened Collaborators

  /** The last Received header, nil when there is none. */
  function LastReceived(received: seq<string>): (r: Option<string>)
    ensures r.Some? <==> |received| > 0
    ensures r.Some? ==> r.value == received[|received| - 1]
  {
    if |received| == 0 then None else Some(received[|received| - 1])
  }

  /** `RFC5322.received(mhead['received'][-1]).pop`: the last host the last
      Received header names, nil when there is no header or no host. */
  function ReceivedHost(env: Env, received: seq<string>): Option<string> {
    match LastReceived(received)
    case None => None
    case Some(last) =>
      var hosts := env.received(last);
      if |hosts| == 0 then None else Some(hosts[|hosts| - 1])
  }

  /** A missing remote host comes from the word after 'host ' in the
      diagnosis, then from the last Received header; a present one is kept. */
  function RemoteHost(env: Env, rhost: Option<string>, diagnosis: string, received: seq<string>): (r: Option<string>)
    ensures rhost.Some? ==> r == rhost
    ensures rhost.None? && WordAfter(diagnosis, "host ").Some? ==> r == WordAfter(diagnosis, "host ")
    ensures rhost.None? && WordAfter(diagnosis, "host ").None? ==> r == ReceivedHost(env, received)
  {
    if rhost.Some? then rhost
    else
      var w := WordAfter(diagnosis, "host ");
      if w.Some? then w else ReceivedHost(env, received)
  }
}

=== FILE: mailru.dfy ===
/** Sisimai::Lhost::MailRu: bounces from mail.ru, whose software is derived
    from Exim. The body is plain text only: recipient lines indented by two
    spaces, the error text below them. */
module MailRu {
  import opened Options
  import opened Text
  import opened Records
  import opened Collaborators
  import opened Tables
  import opened Hosts

  // ---------------------------------------------------------------------------
  // Constants of lib/sisimai/lhost/mailru.rb

  const Boundaries: seq<string> := ["------ This is a copy of the message, including all the headers. ------"]

  const MessageStart := "This message was created automatically by mail delivery software."

  const SubjectPhrases: seq<string> := [
    "Delivery Status Notification",
    "Mail delivery failed",
    "Mail failure",
    "Message frozen",
    "Warning: message ",
    "error(s) in forwarding or filtering"]

  const ReCommands: seq<CommandPattern> := [
    CommandPattern(["SMTP error from remote mail server after ",
                    "SMTP error from remote mailer after "]),
    CommandPattern(["SMTP error from remote mail server after end of ",
                    "SMTP error from remote mailer after end of "])]

  /** MessagesOf, in declaration order: 'expired' comes first. */
  const MessagesOf: Table := [
    ("expired", ["retry timeout exceeded", "No action is required on your part"]),
    ("userunknown", ["user not found"]),
    ("hostunknown", ["all host address lookups failed permanently",
                     "all relevant MX records point to non-existent hosts",
                     "Unrouteable address"]),
    ("mailboxfull", ["mailbox is full", "error: quota exceed"]),
    ("notaccept", ["an MX or SRV record indicated no SMTP service",
                   "no host found for existing SMTP connection"]),
    ("syntaxerror", ["angle-brackets nested too deep",
                     "expected word or \"<\"",
                     "domain missing in source-routed address",
                     "malformed address:"]),
    ("systemerror", ["delivery to file forbidden",
                     "delivery to pipe forbidden",
                     "local delivery failed",
                     "LMTP error after "]),
    ("contenterror", ["Too many \"Received\" headers"])]

  // ---------------------------------------------------------------------------
  // Recognition (lines 53-65)

  predicate FromMailRuDaemon(h: Headers) {
    var from := Downcase(h.from);
    Contains(from, "mailer-daemon@") && Contains(from, "mail.ru")
  }

  predicate MailRuMessageId(h: Headers) {
    var msgid := Downcase(Header(h, "message-id").GetOr(""));
    EndsWith(msgid, ".mail.ru>") || EndsWith(msgid, "smailru.net>")
  }

  /** The number of mail.ru signals the headers show. */
  function Score(h: Headers): (n: nat)
    ensures n <= 3
    ensures n == 3 <==> FromMailRuDaemon(h) && MailRuMessageId(h) && AnyContained(h.subject, SubjectPhrases)
  {
    (if FromMailRuDaemon(h) then 1 else 0)
    + (if MailRuMessageId(h) then 1 else 0)
    + (if AnyContained(h.subject, SubjectPhrases) then 1 else 0)
  }

  /** `return nil unless match > 2`: all three signals are needed. */
  predicate Recognizes(h: Headers) {
    Score(h) > 2
  }

  // ---------------------------------------------------------------------------
  // Line scan (lines 75-128)

  /** The scan state: `readcursor`, `recipients` and `dscontents`. */
  datatype Scan = Scan(reading: bool, recipients: nat, records: seq<Record>)

  /** Records are opened only by recipient lines, each of which counts, and
      every record opened that way has its recipient. */
  predicate Sane(s: Scan) {
    Tally(s.records, s.recipients)
  }

  const Start := Scan(false, 0, [Blank])

  /** Line 106 up to the comparison: two leading spaces and no run of four. */
  predicate Indented(e: string) {
    StartsWith(e, "  ") && !Contains(e, "    ")
  }

  /** What the recipient test makes of a line inside the report: a crash when
      `e.index('@')` is nil, otherwise whether the line names a recipient. */
  function RecipientTest(e: string): (r: Result<bool>)
    ensures r.Failure? <==> Indented(e) && !Contains(e, "@")
    ensures r.Failure? ==> r.crash == NilComparedWithInteger
    ensures r == Success(true) <==> Indented(e) && IndexOf(e, "@").Some? && IndexOf(e, "@").value > 1
  {
    if !Indented(e) then Success(false)
    else match IndexOf(e, "@")
      case None => Failure(NilComparedWithInteger)
      case Some(k) => Success(k > 1)
  }

  /** A line the loop reads inside the report, once it is known not to crash:
      a recipient line opens or fills a record; after the recipients, a line is
      error text appended to the current diagnosis; before the first one (no
      record yet has a recipient) only a line indented by four spaces is kept,
      in `alterrors`. Records other than the current one are never touched. */
  function ReadLine(s: Scan, e: string, recipient: bool): (t: Scan)
    requires Sane(s) && (recipient ==> |e| >= 2)
    ensures Sane(t) && t.reading == s.reading
    ensures |s.records| <= |t.records| && EarlierKept(s.records, t.records)
    ensures recipient ==>
      Column(t.records) == Push(Column(s.records), Some(e[2..])) && t.recipients == s.recipients + 1
    ensures recipient ==> Current(t.records) == Opened(s.records).(recipient := Some(e[2..]))
    ensures !recipient ==> Column(t.records) == Column(s.records) && t.recipients == s.recipients
    ensures !recipient && |s.records| == s.recipients ==>
      var v := Current(s.records);
      |t.records| == |s.records| && Current(t.records) == v.(diagnosis := Some(v.diagnosis.GetOr("") + e + " "))
    ensures !recipient && |s.records| != s.recipients && StartsWith(e, "    ") ==>
      var v := Current(s.records);
      |t.records| == |s.records| && Current(t.records) == v.(alterrors := Some(v.alterrors.GetOr("") + e + " "))
    ensures !recipient && |s.records| != s.recipients && !StartsWith(e, "    ") ==> t == s
  {
    var v := Current(s.records);
    if recipient then
      var rs := AddRecipient(s.records, Some(e[2..]));
      s.(records := rs, recipients := s.recipients + 1)
    else if |s.records| == s.recipients then
      s.(records := WithCurrent(s.records, v.(diagnosis := Some(v.diagnosis.GetOr("") + e + " "))))
    else if StartsWith(e, "    ") then
      s.(records := WithCurrent(s.records, v.(alterrors := Some(v.alterrors.GetOr("") + e + " "))))
    else s
  }

  /** One turn of the loop. Before the report, a line only moves the cursor,
      and the line that opens the report is itself skipped. */
  function Step(s: Scan, e: string): (t: Result<Scan>)
    requires Sane(s)
    ensures t.Success? ==> Sane(t.value)
    ensures !s.reading ==> t == Success(s.(reading := StartsWith(e, MessageStart)))
    ensures s.reading ==> t.Success? || (t.Failure? && t.crash == NilComparedWithInteger)
    ensures t.Success? && s.reading ==> t.value.reading
    // Inside the report an empty line is skipped, and any other line raises
    // exactly when the recipient test does, and is otherwise read as a
    // recipient line or not as the test says.
    ensures s.reading && e == "" ==> t == Success(s)
    ensures s.reading && e != "" ==>
      && (t.Failure? <==> RecipientTest(e).Failure?)
      && (t.Success? ==> t.value == ReadLine(s, e, RecipientTest(e).value))
  {
    if !s.reading then Success(s.(reading := StartsWith(e, MessageStart)))
    else if e == "" then Success(s)
    else match RecipientTest(e)
      case Failure(c) => Failure(c)
      case Success(b) => Success(ReadLine(s, e, b))
  }

  function ScanLines(s: Scan, lines: seq<string>): (t: Result<Scan>)
    requires Sane(s)
    ensures t.Success? ==> Sane(t.value)
    ensures t.Failure? ==> t.crash == NilComparedWithInteger
    ensures t.Success? && s.reading ==> t.value.reading
    decreases |lines|
  {
    if |lines| == 0 then Success(s)
    else match Step(s, lines[0])
      case Failure(c) => Failure(c)
      case Success(s1) => ScanLines(s1, lines[1..])
  }

  /** Reference definition: the addresses of the recipient lines inside the
      report, in order, and whether some line inside it crashes the test. */
  function BodyAddresses(reading: bool, lines: seq<string>): (r: (seq<Option<string>>, bool))
    ensures forall i | 0 <= i < |r.0| :: r.0[i].Some?
    decreases |lines|
  {
    if |lines| == 0 then ([], false)
    else
      var e := lines[0];
      if !reading then BodyAddresses(StartsWith(e, MessageStart), lines[1..])
      else if e == "" then BodyAddresses(true, lines[1..])
      else match RecipientTest(e)
        case Failure(_) => ([], true)
        case Success(b) =>
          var rest := BodyAddresses(true, lines[1..]);
          ((if b then [Some(e[2..])] else []) + rest.0, rest.1)
  }

  /** The scan crashes exactly when the reference does, and otherwise rolls
      the reference addresses into the recipient column and counts them. */
  lemma {:induction false} ScanFollowsAddresses(s: Scan, lines: seq<string>)
    requires Sane(s)
    ensures ScanLines(s, lines).Failure? <==> BodyAddresses(s.reading, lines).1
    ensures ScanLines(s, lines).Success? ==>
      && Column(ScanLines(s, lines).value.records) == Roll(Column(s.records), BodyAddresses(s.reading, lines).0)
      && ScanLines(s, lines).value.recipients == s.recipients + |BodyAddresses(s.reading, lines).0|
    decreases |lines|
  {
    if |lines| > 0 {
      var e := lines[0];
      var t := Step(s, e);
      if t.Success? {
        ScanFollowsAddresses(t.value, lines[1..]);
        if s.reading && e != "" {
          var b := RecipientTest(e).value;
          var rest := BodyAddresses(true, lines[1..]);
          if b {
            var a := Some(e[2..]);
            assert ([a] + rest.0)[0] == a && ([a] + rest.0)[1..] == rest.0;
          } else {
            assert BodyAddresses(s.reading, lines).0 == rest.0;
          }
        }
      }
    }
  }

  /** Every recipient line yields an address, so without a crash the records
      found in the body are exactly the recipient lines' addresses, in order. */
  lemma BodyRecipientsInOrder(lines: seq<string>)
    requires ScanLines(Start, lines).Success? && ScanLines(Start, lines).value.recipients > 0
    ensures Column(ScanLines(Start, lines).value.records) == BodyAddresses(false, lines).0
    ensures |ScanLines(Start, lines).value.records| == ScanLines(Start, lines).value.recipients
  {
    ScanFollowsAddresses(Start, lines);
    RollFromBlank(BodyAddresses(false, lines).0);
  }

  /** Lines 78-82: nothing before the first line that opens the report, nor
      that line itself, has any effect, and the cursor never goes back. */
  lemma {:induction false} PreambleSkipped(before: seq<string>, opener: string, after: seq<string>)
    requires forall i | 0 <= i < |before| :: !StartsWith(before[i], MessageStart)
    requires StartsWith(opener, MessageStart)
    ensures ScanLines(Start, before + [opener] + after) == ScanLines(Start.(reading := true), after)
    decreases |before|
  {
    if |before| == 0 {
      assert ([] + [opener] + after)[1..] == after;
    } else {
      assert (before + [opener] + after)[0] == before[0];
      assert (before + [opener] + after)[1..] == before[1..] + [opener] + after;
      PreambleSkipped(before[1..], opener, after);
    }
  }

  // ---------------------------------------------------------------------------
  // Fallback (lines 130-146)

  /** The X-Failed-Recipients entries, split at ','. `a.delete(' ')` returns a
      new string and leaves the entry as it was, so the entries keep their spaces. */
  function FailedRecipients(h: Headers): (r: seq<string>)
    ensures Header(h, "x-failed-recipients").None? ==> r == []
    ensures Header(h, "x-failed-recipients").Some? ==> r == Split(Header(h, "x-failed-recipients").value, ',')
  {
    match Header(h, "x-failed-recipients")
    case None => []
    case Some(x) => Split(x, ',')
  }

  // ---------------------------------------------------------------------------
  // Per-record post-processing (lines 156-215)

  /** Lines 148-154: `localhost0`. It stays '' without a Received header or
      without 'from ' in it, and is nil when no space follows the 'from '. */
  function LocalHost(received: seq<string>): (r: Option<string>)
    ensures LastReceived(received).None? ==> r == Some("")
    ensures LastReceived(received).Some? && !Contains(LastReceived(received).value, "from ") ==> r == Some("")
    ensures LastReceived(received).Some? && Contains(LastReceived(received).value, "from ") ==>
      r == WordAfter(LastReceived(received).value, "from ")
  {
    match LastReceived(received)
    case None => Some("")
    case Some(last) => if Contains(last, "from ") then WordAfter(last, "from ") else Some("")
  }

  /** Lines 160-168: a non-empty `alterrors` fills a missing diagnosis and
      replaces one that starts with '-' or ends with '__'; the key is then deleted. */
  function MergeAltErrors(e: Record): (r: Record)
    ensures e.alterrors.GetOr("") == "" ==> r == e
    ensures e.alterrors.GetOr("") != "" ==>
      && r == e.(alterrors := None, diagnosis := r.diagnosis)
      && (e.diagnosis.None? ==> r.diagnosis == e.alterrors)
      && (e.diagnosis.Some? && !StartsWith(e.diagnosis.value, "-") && !EndsWith(e.diagnosis.value, "__") ==>
            r.diagnosis == e.diagnosis)
    ensures e.alterrors.GetOr("") != "" && e.diagnosis.Some? ==>
      (r.diagnosis == e.alterrors <==>
         StartsWith(e.diagnosis.value, "-") || EndsWith(e.diagnosis.value, "__") || e.diagnosis == e.alterrors)
  {
    var alt := e.alterrors.GetOr("");
    if alt == "" then e
    else
      var d := e.diagnosis.GetOr(alt);
      var d1 := if StartsWith(d, "-") || EndsWith(d, "__") then alt else d;
      e.(diagnosis := Some(d1), alterrors := None)
  }

  /** Lines 169-171: the swept diagnosis, cut one character before its last
      '__' when that lies beyond index 2. */
  function CleanDiagnosis(env: Env, d: Option<string>): (r: string)
    ensures d.None? ==> r == ""
    ensures d.Some? ==> StartsWith(env.sweep(d.value), r)
    ensures d.Some? && r != env.sweep(d.value) ==>
      var sw := env.sweep(d.value);
      exists p | 2 < p <= |sw| - 2 :: OccursAt(sw, "__", p) && |r| == p - 1 &&
        forall j | p < j :: !OccursAt(sw, "__", j)
    ensures d.Some? && RIndexOf(env.sweep(d.value), "__").Some? && RIndexOf(env.sweep(d.value), "__").value > 2 ==>
      r == env.sweep(d.value)[..RIndexOf(env.sweep(d.value), "__").value - 1]
    ensures d.Some? && (RIndexOf(env.sweep(d.value), "__").None? || RIndexOf(env.sweep(d.value), "__").value <= 2) ==>
      r == env.sweep(d.value)
  {
    var swept := SweepOpt(env, d).GetOr("");
    match RIndexOf(swept, "__")
    case Some(p1) => if p1 > 2 then swept[..p1 - 1] else swept
    case None => swept
  }

  /** The SMTP command and reason a record without a command gets (lines 186-213). */
  function Classify(d: string, reason: Option<string>): (r: (Option<string>, Option<string>))
    ensures r.0 == FirstCommand(d, ReCommands)
    ensures r.0 == Some("HELO") || r.0 == Some("EHLO") ==> r.1 == Some("blocked")
    ensures r.0 == Some("MAIL") ==> r.1 == Some("rejected")
    ensures r.0 != Some("HELO") && r.0 != Some("EHLO") && r.0 != Some("MAIL") ==>
      r.1 == FirstMatch(MessagesOf, d).Or(reason)
  {
    var command := FirstCommand(d, ReCommands);
    if command == Some("HELO") || command == Some("EHLO") then (command, Some("blocked"))
    else if command == Some("MAIL") then (command, Some("rejected"))
    else (command, FirstMatch(MessagesOf, d).Or(reason))
  }

  /** The whole post-processing of one record. */
  function Finish(env: Env, e: Record, localhost: Option<string>, received: seq<string>): (r: Record)
    ensures r.recipient == e.recipient && r.alias == e.alias && r.status == e.status
    ensures r.lhost == e.lhost.Or(localhost)
    ensures r.command.Some? && r.diagnosis.Some?
    ensures e.command.Some? ==> r.command == e.command && r.reason == e.reason
    ensures e.rhost.Some? ==> r.rhost == e.rhost
    ensures r.diagnosis == Some(CleanDiagnosis(env, MergeAltErrors(e).diagnosis))
    ensures r.rhost == RemoteHost(env, e.rhost, r.diagnosis.value, received)
    ensures e.command.None? ==>
      var cr := Classify(r.diagnosis.value, e.reason);
      r.command == cr.0.Or(Some("")) && r.reason == cr.1
    ensures r == MergeAltErrors(e).(lhost := r.lhost, diagnosis := r.diagnosis, rhost := r.rhost,
                                    command := r.command, reason := r.reason)
  {
    // The merge reads neither `lhost` nor `rhost`, `command` or `reason`, so
    // those are read from `e` itself.
    var e1 := MergeAltErrors(e);
    var d := CleanDiagnosis(env, e1.diagnosis);
    var rhost := RemoteHost(env, e.rhost, d, received);
    var cr := if e.command.None? then Classify(d, e.reason) else (e.command, e.reason);
    e1.(lhost := e.lhost.Or(localhost), diagnosis := Some(d), rhost := rhost,
        command := cr.0.Or(Some("")), reason := cr.1)
  }

  /** A processed record: it has a command ('' when none matched) and a diagnosis. */
  predicate Completed(r: Record) {
    r.command.Some? && r.diagnosis.Some?
  }

  lemma FinishCompletes(env: Env, e: Record, localhost: Option<string>, received: seq<string>)
    ensures Completed(Finish(env, e, localhost, received))
  {
  }

  function FinishAll(env: Env, rs: seq<Record>, localhost: Option<string>, received: seq<string>): (r: seq<Record>)
    ensures |r| == |rs|
    ensures forall i | 0 <= i < |rs| :: r[i] == Finish(env, rs[i], localhost, received)
    ensures forall i | 0 <= i < |rs| :: Completed(r[i]) && r[i].recipient == rs[i].recipient
    ensures Column(r) == Column(rs)
  {
    var r := MapRecords(q => Finish(env, q, localhost, received), rs);
    forall i | 0 <= i < |rs| ensures Completed(r[i]) {
      FinishCompletes(env, rs[i], localhost, received);
    }
    SameColumn(r, rs);
    r
  }

  // ---------------------------------------------------------------------------
  // inquire

  /** The scan of the body lines before the original message (lines 75-128). */
  function Scanned(env: Env, body: string): (t: Result<Scan>)
    ensures t.Success? ==> Sane(t.value)
  {
    ScanLines(Start, BodyLines(env, body, Boundaries).0)
  }

  /** Lines 130-146 and 157-215 for a scan that did not crash: the body's
      records, or one per X-Failed-Recipients entry when the body had none. */
  function Report(env: Env, h: Headers, s: Scan, rfc822: string): (o: Outcome)
    requires Sane(s)
    ensures !o.Raised?
    ensures o.Declined? <==> s.recipients == 0 && |FailedRecipients(h)| == 0
    ensures o.Parsed? ==> |o.records| >= 1 && forall i | 0 <= i < |o.records| :: Completed(o.records[i])
    ensures o.Parsed? && s.recipients > 0 ==> Column(o.records) == Column(s.records)
    ensures o.Parsed? && s.recipients == 0 ==>
      && |o.records| == |FailedRecipients(h)|
      && forall i | 0 <= i < |o.records| :: o.records[i].recipient == Some(FailedRecipients(h)[i])
    ensures o.Parsed? ==>
      o.records == FinishAll(env, Collected(s, FailedRecipients(h)), LocalHost(h.received), h.received)
  {
    var rs := Collected(s, FailedRecipients(h));
    if s.recipients == 0 && |FailedRecipients(h)| == 0 then Declined
    else
      Parsed(FinishAll(env, rs, LocalHost(h.received), h.received), rfc822)
  }

  lemma SameColumn(a: seq<Record>, b: seq<Record>)
    requires |a| == |b| && forall i | 0 <= i < |a| :: a[i].recipient == b[i].recipient
    ensures Column(a) == Column(b)
  {
  }

  /** Lines 130-146: the records of the body, or with none there, one per
      X-Failed-Recipients entry; `recipients` counts them either way. */
  function Collected(s: Scan, entries: seq<string>): (rs: seq<Record>)
    requires Sane(s)
    ensures |rs| >= 1
    ensures s.recipients > 0 ==> rs == s.records
    ensures s.recipients == 0 && |entries| > 0 ==>
      |rs| == |entries| && forall i | 0 <= i < |entries| :: rs[i].recipient == Some(entries[i])
  {
    if s.recipients > 0 then s.records
    else FillFromList(s.records, entries, |entries|)
  }

  /** `Sisimai::Lhost::MailRu.inquire(mhead, mbody)`. A crash of the scan
      propagates; nothing is returned when neither the body nor
      X-Failed-Recipients names a recipient. */
  function Inquire(env: Env, h: Headers, body: string): (o: Outcome)
    ensures !Recognizes(h) ==> o == Declined
    ensures Recognizes(h) ==> (o.Raised? <==> Scanned(env, body).Failure?)
    ensures Recognizes(h) && Scanned(env, body).Success? ==>
      (o.Declined? <==> Scanned(env, body).value.recipients == 0 && |FailedRecipients(h)| == 0)
    ensures o.Parsed? ==> |o.records| >= 1 && forall i | 0 <= i < |o.records| :: Completed(o.records[i])
    ensures o.Parsed? && Scanned(env, body).value.recipients > 0 ==>
      Column(o.records) == Column(Scanned(env, body).value.records)
    ensures o.Parsed? && Scanned(env, body).value.recipients == 0 ==>
      && |o.records| == |FailedRecipients(h)|
      && forall i | 0 <= i < |o.records| :: o.records[i].recipient == Some(FailedRecipients(h)[i])
    ensures o.Raised? ==> o.crash == NilComparedWithInteger
    ensures o.Parsed? ==>
      && Scanned(env, body).Success?
      && o.records == FinishAll(env, Collected(Scanned(env, body).value, FailedRecipients(h)),
                                LocalHost(h.received), h.received)
  {
    if !Recognizes(h) then Declined
    else match Scanned(env, body)
      case Failure(c) => Raised(c)
      case Success(s) => Report(env, h, s, BodyLines(env, body, Boundaries).1)
  }

  /** The outcome read against the reference addresses: a crash exactly when
      some line inside the report fails the recipient test, otherwise the
      recipient lines' addresses in order, or the X-Failed-Recipients entries
      when there are none. */
  lemma ParsedRecords(env: Env, h: Headers, body: string)
    ensures var ba := BodyAddresses(false, BodyLines(env, body, Boundaries).0);
      Inquire(env, h, body).Raised? <==> Recognizes(h) && ba.1
    ensures var ba := BodyAddresses(false, BodyLines(env, body, Boundaries).0);
      Inquire(env, h, body).Parsed? && |ba.0| > 0 ==> Column(Inquire(env, h, body).records) == ba.0
    ensures var ba := BodyAddresses(false, BodyLines(env, body, Boundaries).0);
      var o := Inquire(env, h, body);
      o.Parsed? && |ba.0| == 0 ==>
        && |o.records| == |FailedRecipients(h)|
        && forall i | 0 <= i < |o.records| :: o.records[i].recipient == Some(FailedRecipients(h)[i])
  {
    var lines := BodyLines(env, body, Boundaries).0;
    ScanFollowsAddresses(Start, lines);
    if ScanLines(Start, lines).Success? && ScanLines(Start, lines).value.recipients > 0 {
      BodyRecipientsInOrder(lines);
    }
  }
}

=== FILE: messagelabs.dfy ===
/** `Sisimai::Lhost::MessageLabs.inquire`: an RFC 3464 report in a
    message/delivery-status part, every table field cached as per-message,
    indented continuation lines, and a two-entry reason table. */
module MessageLabs {
  import opened Options
  import opened Text
  import opened Records
  import opened Collaborators
  import opened Tables
  import opened Dsn

  const Boundaries: seq<string> := ["Content-Type: text/rfc822-headers"]

  /** The head of the line that opens the report. */
  const DeliveryStatusStart := "Content-Type: message/delivery-status"

  /** Lines 11-14, in declaration order. */
  const MessagesOf: Table := [
    ("userunknown", ["542 ", " Rejected", "No such user"]),
    ("securityerror", ["Please turn on SMTP Authentication in your mail client"])
  ]

  // ---------------------------------------------------------------------------
  // Recognition (lines 27-29)

  predicate Recognizes(h: Headers) {
    && Header(h, "x-msg-ref").Some?
    && Contains(h.from, "MAILER-DAEMON@messagelabs.com")
    && StartsWith(h.subject, "Mail Delivery Failure")
  }

  // ---------------------------------------------------------------------------
  // Scan (lines 34-96)

  predicate Opens(e: string) {
    StartsWith(e, DeliveryStatusStart)
  }

  /** Lines 43-96 as a configuration of the shared scan: the report opens at
      the delivery-status part, every table field is cached as per-message
      whatever its match level (line 86: every level is truthy), and an
      indented non-field line continues a Diagnostic-Code field, appending
      the swept line (lines 89-95). */
  function ScanConfig(env: Env): Config {
    Config(Opens, true, e => StartsWith(e, " "), env.sweep)
  }

  /** Lines 81-87: a table field is cached as per-message whatever its match level. */
  lemma EveryTableFieldCached(env: Env, s: Fold, e: string)
    requires Sane(s) && s.reading && e != "" && env.fieldLevel(e).Some? && env.field(e).Some?
    requires env.field(e).value.kind !in {KindAddr, KindCode}
    requires env.fieldTable(env.field(e).value.name).Some?
    ensures var k := env.fieldTable(env.field(e).value.name).value;
      Step(env, ScanConfig(env), s, e).Success?
      && Step(env, ScanConfig(env), s, e).value.cache == s.cache[k := env.field(e).value.value]
  {
  }

  // ---------------------------------------------------------------------------
  // Post-processing (lines 99-112)

  /** One record after the scan. `commandset` is never appended to, so every
      command is ''. The reason search calls `include?` on the diagnosis and
      raises when sweeping left it nil. */
  function Finish(env: Env, e: Record, cache: map<Key, string>): (r: Result<Record>)
    ensures var b := PerMessageDefaults(e, cache);
      && (r.Failure? <==> b.diagnosis.None?)
      && (r.Failure? ==> r.crash == NilDiagnosis)
    ensures r.Success? ==>
      var b := PerMessageDefaults(e, cache);
      var d := env.sweep(b.diagnosis.value);
      && r.value == b.(command := Some(""), diagnosis := Some(d), reason := r.value.reason)
      && r.value.reason == FirstMatch(MessagesOf, d).Or(b.reason)
  {
    var b := PerMessageDefaults(e, cache).(command := Some(""));
    var d := SweepOpt(env, b.diagnosis);
    if d.None? then Failure(NilDiagnosis)
    else Success(b.(diagnosis := d, reason := FirstMatch(MessagesOf, d.value).Or(b.reason)))
  }

  /** Lines 106-111: 'userunknown' wins whenever one of its keywords is in the
      diagnosis; 'securityerror' needs its phrase and none of those; with
      neither, the reason is left as it was. */
  lemma ReasonRules(env: Env, e: Record, cache: map<Key, string>)
    requires Finish(env, e, cache).Success?
    ensures var r := Finish(env, e, cache).value;
      var d := r.diagnosis.value;
      && (AnyContained(d, ["542 ", " Rejected", "No such user"]) ==> r.reason == Some("userunknown"))
      && (!AnyContained(d, ["542 ", " Rejected", "No such user"]) && Contains(d, "Please turn on SMTP Authentication in your mail client")
          ==> r.reason == Some("securityerror"))
      && (!AnyContained(d, MessagesOf[0].1) && !AnyContained(d, MessagesOf[1].1)
          ==> r.reason == PerMessageDefaults(e, cache).reason)
  {
    var r := Finish(env, e, cache).value;
    var d := r.diagnosis.value;
    if AnyContained(d, MessagesOf[0].1) {
      assert FirstHit(MessagesOf, d, 0);
      EarlierEntryWins(MessagesOf, d, 0);
    } else if Contains(d, "Please turn on SMTP Authentication in your mail client") {
      assert MessagesOf[1].1[0] == "Please turn on SMTP Authentication in your mail client";
      assert FirstHit(MessagesOf, d, 1);
      EarlierEntryWins(MessagesOf, d, 1);
    }
  }

  // ---------------------------------------------------------------------------
  // inquire

  /** The scan of the body's lines before the original message. */
  function Scanned(env: Env, body: string): Result<Fold> {
    ScanLines(env, ScanConfig(env), Start, BodyLines(env, body, Boundaries).0)
  }

  /** The post-processing of every record of a scan, in order: the
      finished records, or the exception of the first record that raises. */
  function Report(env: Env, s: Fold, rfc822: string): (o: Outcome)
    ensures !o.Declined?
    ensures o.Raised? <==> exists i | 0 <= i < |s.records| :: Finish(env, s.records[i], s.cache).Failure?
    ensures o.Raised? ==> exists i | 0 <= i < |s.records| ::
      && Finish(env, s.records[i], s.cache) == Failure(o.crash)
      && forall j | 0 <= j < i :: Finish(env, s.records[j], s.cache).Success?
    ensures o.Raised? ==> o.crash == NilDiagnosis
    ensures o.Parsed? ==>
      && o.rfc822 == rfc822 && |o.records| == |s.records|
      && forall i | 0 <= i < |s.records| :: Finish(env, s.records[i], s.cache) == Success(o.records[i])
  {
    var f := (q: Record) => Finish(env, q, s.cache);
    match MapChecked(f, s.records)
    case Failure(c) =>
      assert exists i | 0 <= i < |s.records| ::
        f(s.records[i]) == Failure(c) && forall j | 0 <= j < i :: f(s.records[j]).Success?;
      Raised(c)
    case Success(rs) => Parsed(rs, rfc822)
  }

  /** Some record of a scan with recipients raises in its post-processing. */
  predicate FinishRaises(env: Env, s: Fold) {
    s.recipients > 0 && exists i | 0 <= i < |s.records| :: Finish(env, s.records[i], s.cache).Failure?
  }

  /** `Sisimai::Lhost::MessageLabs.inquire(mhead, mbody)`. An exception comes out
      exactly when the scan raises or the post-processing of some record does. */
  function Inquire(env: Env, h: Headers, body: string): (o: Outcome)
    ensures !Recognizes(h) ==> o == Declined
    ensures Recognizes(h) ==>
      (o.Raised? <==> Scanned(env, body).Failure? || FinishRaises(env, Scanned(env, body).value))
    ensures Recognizes(h) && Scanned(env, body).Success? ==>
      (o.Declined? <==> Scanned(env, body).value.recipients == 0)
    ensures o.Raised? ==> o.crash == NilCurrentRecord || o.crash == NilDiagnosis
    ensures o.Parsed? ==>
      && Scanned(env, body).Success?
      && var s := Scanned(env, body).value;
      && |o.records| == |s.records|
      && forall i | 0 <= i < |s.records| :: Finish(env, s.records[i], s.cache) == Success(o.records[i])
    // With recipients, the result is the post-processing of the scan.
    ensures Recognizes(h) && Scanned(env, body).Success? && Scanned(env, body).value.recipients > 0 ==>
      o == Report(env, Scanned(env, body).value, BodyLines(env, body, Boundaries).1)
  {
    if !Recognizes(h) then Declined
    else
      var (lines, rfc822) := BodyLines(env, body, Boundaries);
      match ScanLines(env, ScanConfig(env), Start, lines)
      case Failure(c) => Raised(c)
      case Success(s) =>
        if s.recipients == 0 then Declined else Report(env, s, rfc822)
  }

  /** Line 103: every returned record has the command ''. */
  lemma CommandAlwaysEmpty(env: Env, h: Headers, body: string)
    ensures Inquire(env, h, body).Parsed? ==>
      forall i | 0 <= i < |Inquire(env, h, body).records| :: Inquire(env, h, body).records[i].command == Some("")
  {
    var o := Inquire(env, h, body);
    if !o.Parsed? { return; }
    var s := Scanned(env, body).value;
    forall i | 0 <= i < |o.records| ensures o.records[i].command == Some("") {
      assert Finish(env, s.records[i], s.cache) == Success(o.records[i]);
    }
  }

  /** Through to the result: one record per Final-Recipient field of the
      report, in order. */
  lemma ParsedRecords(env: Env, h: Headers, body: string)
    ensures Inquire(env, h, body).Parsed? ==>
      Column(Inquire(env, h, body).records) == FinalRecipients(env, Opens, false, BodyLines(env, body, Boundaries).0)
  {
    var o := Inquire(env, h, body);
    if !o.Parsed? { return; }
    var lines := BodyLines(env, body, Boundaries).0;
    var s := Scanned(env, body).value;
    OneRecordPerFinalRecipient(env, ScanConfig(env), lines);
    FinishKeepsColumn(env, s.records, s.cache, o.records);
  }

  /** Post-processing keeps every recipient a record already has. */
  lemma FinishKeepsColumn(env: Env, rs: seq<Record>, cache: map<Key, string>, out: seq<Record>)
    requires |out| == |rs| && forall i | 0 <= i < |rs| :: Finish(env, rs[i], cache) == Success(out[i])
    requires forall i | 0 <= i < |rs| :: rs[i].recipient.Some?
    ensures Column(out) == Column(rs)
  {
    forall i | 0 <= i < |rs| ensures out[i].recipient == rs[i].recipient {
      assert Finish(env, rs[i], cache) == Success(out[i]);
    }
  }
}

=== FILE: options.dfy ===
/** Optional values. `None` stands for Ruby's `nil` throughout the model. */
module Options {

  datatype Option<+T> = None | Some(value: T) {

    /** Ruby's `a || b` where both sides may be nil. */
    function Or(other: Option<T>): Option<T> {
      if Some? then this else other
    }

    /** Ruby's `a || b` where `b` is never nil. */
    function GetOr(default: T): T {
      if Some? then value else default
    }
  }
}

=== FILE: records.dfy ===
/** The per-recipient delivery-status record every adapter builds, the list of
    such records a scan grows, and the outcome of one `inquire` call. */
module Records {
  import opened Options

  /** The keys of one record: Sisimai's DELIVERYSTATUS hash, plus the temporary
      `alterrors` key the Exim-style adapters keep while scanning. The keys
      `agent`, `softbounce` and `feedbacktype` are never written by the
      adapters modelled here and are left out. */
  datatype Key = Recipient | Alias | Action | Date | RHost | LHost | Spec | Status
               | Reason | Command | ReplyCode | Diagnosis | AlterErrors

  /** One record; `None` is a key whose value is nil. */
  datatype Record = Record(
    recipient: Option<string>,
    alias: Option<string>,
    action: Option<string>,
    date: Option<string>,
    rhost: Option<string>,
    lhost: Option<string>,
    spec: Option<string>,
    status: Option<string>,
    reason: Option<string>,
    command: Option<string>,
    replycode: Option<string>,
    diagnosis: Option<string>,
    alterrors: Option<string>)
  {
    /** `record[key]` */
    function Get(k: Key): Option<string> {
      match k
      case Recipient => recipient
      case Alias => alias
      case Action => action
      case Date => date
      case RHost => rhost
      case LHost => lhost
      case Spec => spec
      case Status => status
      case Reason => reason
      case Command => command
      case ReplyCode => replycode
      case Diagnosis => diagnosis
      case AlterErrors => alterrors
    }

    /** `record[key] = v`; the other keys keep their values. */
    function Set(k: Key, v: Option<string>): (r: Record)
      ensures r.Get(k) == v
      ensures forall j :: j != k ==> r.Get(j) == Get(j)
    {
      match k
      case Recipient => this.(recipient := v)
      case Alias => this.(alias := v)
      case Action => this.(action := v)
      case Date => this.(date := v)
      case RHost => this.(rhost := v)
      case LHost => this.(lhost := v)
      case Spec => this.(spec := v)
      case Status => this.(status := v)
      case Reason => this.(reason := v)
      case Command => this.(command := v)
      case ReplyCode => this.(replycode := v)
      case Diagnosis => this.(diagnosis := v)
      case AlterErrors => this.(alterrors := v)
    }
  }

  /** A fresh DELIVERYSTATUS: every key nil. */
  const Blank := Record(None, None, None, None, None, None, None, None, None, None, None, None, None)

  /** The recipient of each record, in order. */
  function Column(rs: seq<Record>): (c: seq<Option<string>>)
    ensures |c| == |rs|
    ensures forall i | 0 <= i < |rs| :: c[i] == rs[i].recipient
  {
    seq(|rs|, i requires 0 <= i < |rs| => rs[i].recipient)
  }

  /** What a recipient line does to the column of recipients: it fills the last
      record when that one has no recipient yet, and opens a new one otherwise. */
  function Push(col: seq<Option<string>>, a: Option<string>): seq<Option<string>>
    requires |col| >= 1
  {
    if col[|col| - 1].Some? then col + [a] else col[..|col| - 1] + [a]
  }

  /** The column after a run of recipient lines. */
  function Roll(col: seq<Option<string>>, addrs: seq<Option<string>>): (r: seq<Option<string>>)
    requires |col| >= 1
    ensures |r| >= 1
    decreases |addrs|
  {
    if |addrs| == 0 then col else Roll(Push(col, addrs[0]), addrs[1..])
  }

  predicate AllSome(xs: seq<Option<string>>) {
    forall i | 0 <= i < |xs| :: xs[i].Some?
  }

  /** Once the column is filled, recipient lines with an address only append. */
  lemma {:induction false} RollFilled(col: seq<Option<string>>, addrs: seq<Option<string>>)
    requires |col| >= 1 && AllSome(col) && AllSome(addrs)
    ensures Roll(col, addrs) == col + addrs
    decreases |addrs|
  {
    if |addrs| > 0 {
      var next := Push(col, addrs[0]);
      assert next == col + [addrs[0]];
      RollFilled(next, addrs[1..]);
      assert col + [addrs[0]] + addrs[1..] == col + addrs;
    }
  }

  /** Starting from one blank record, N recipient lines that each carry an
      address give exactly N records holding those addresses in order. */
  lemma RollFromBlank(addrs: seq<Option<string>>)
    requires |addrs| > 0 && AllSome(addrs)
    ensures Roll([None], addrs) == addrs
  {
    var next := Push([None], addrs[0]);
    assert next == [addrs[0]];
    RollFilled(next, addrs[1..]);
    assert [addrs[0]] + addrs[1..] == addrs;
  }

  /** The shape the recipient count `n` implies: no recipient yet and a single
      blank-recipient record, or exactly `n` records that all have one. */
  predicate Tally(rs: seq<Record>, n: nat) {
    && |rs| >= 1
    && (n == 0 ==> |rs| == 1 && rs[0].recipient.None?)
    && (n > 0 ==> |rs| == n && forall i | 0 <= i < |rs| :: rs[i].recipient.Some?)
  }

  /** A recipient line (or a Final-Recipient field): the current record takes
      the address when it has none, otherwise a new record is opened for it. */
  function AddRecipient(rs: seq<Record>, a: Option<string>): (r: seq<Record>)
    requires |rs| >= 1
    ensures |rs| <= |r| <= |rs| + 1
    ensures |r| == |rs| + 1 <==> rs[|rs| - 1].recipient.Some?
    ensures r[|r| - 1].recipient == a
    ensures Current(r) == Opened(rs).(recipient := a)
    ensures Column(r) == Push(Column(rs), a)
    ensures EarlierKept(rs, r)
    ensures rs[|rs| - 1].recipient.Some? ==> r[|rs| - 1] == rs[|rs| - 1]
    ensures forall n: nat :: Tally(rs, n) && a.Some? ==> Tally(r, n + 1)
  {
    if rs[|rs| - 1].recipient.Some? then
      var r := rs + [Blank.(recipient := a)];
      assert r[..|rs| - 1] == rs[..|rs| - 1];
      r
    else
      rs[|rs| - 1 := rs[|rs| - 1].(recipient := a)]
  }

  /** Replaces the current (last) record by `r`, which keeps its recipient. */
  function WithCurrent(rs: seq<Record>, r: Record): (out: seq<Record>)
    requires |rs| >= 1 && r.recipient == rs[|rs| - 1].recipient
    ensures |out| == |rs| && Column(out) == Column(rs)
    ensures out[|rs| - 1] == r && EarlierKept(rs, out)
    ensures forall n: nat :: Tally(rs, n) ==> Tally(out, n)
  {
    rs[..|rs| - 1] + [r]
  }

  /** Replacing the current record twice keeps only the second replacement. */
  lemma WithCurrentTwice(rs: seq<Record>, a: Record, b: Record)
    requires |rs| >= 1 && a.recipient == rs[|rs| - 1].recipient && b.recipient == a.recipient
    ensures WithCurrent(WithCurrent(rs, a), b) == WithCurrent(rs, b)
  {
  }

  function Current(rs: seq<Record>): Record
    requires |rs| >= 1
  {
    rs[|rs| - 1]
  }

  /** Every record before the current one of `rs` is unchanged in `out`. */
  predicate EarlierKept(rs: seq<Record>, out: seq<Record>)
    requires |rs| >= 1
  {
    |rs| - 1 <= |out| && out[..|rs| - 1] == rs[..|rs| - 1]
  }

  /** The record a recipient line writes into: the current one while it has no
      recipient, otherwise a fresh DELIVERYSTATUS appended after it. */
  function Opened(rs: seq<Record>): Record
    requires |rs| >= 1
  {
    if Current(rs).recipient.Some? then Blank else Current(rs)
  }

  /** `e[k] ||= cache[k]` for one key. */
  function Inherit(v: Option<string>, k: Key, cache: map<Key, string>): Option<string> {
    if v.Some? then v else if k in cache then Some(cache[k]) else None
  }

  /** Applies `f` to every record, in order. */
  function MapRecords(f: Record -> Record, rs: seq<Record>): (r: seq<Record>)
    ensures |r| == |rs| && forall i | 0 <= i < |rs| :: r[i] == f(rs[i])
  {
    seq(|rs|, i requires 0 <= i < |rs| => f(rs[i]))
  }

  /** `first` applied to the first record, and `later` to each later record
      together with the first one's result. */
  function Anchored(first: Record -> Record, later: (Record, Record) -> Record, rs: seq<Record>): (r: seq<Record>)
    requires |rs| >= 1
    ensures |r| == |rs| && r[0] == first(rs[0])
    ensures forall i | 1 <= i < |rs| :: r[i] == later(rs[i], r[0])
  {
    var a := first(rs[0]);
    [a] + seq(|rs| - 1, i requires 0 <= i < |rs| - 1 => later(rs[i + 1], a))
  }

  /** Back-fill of the per-message fields: every key the record lacks takes the
      cached per-message value, and every key it has is kept. */
  function BackFill(r: Record, cache: map<Key, string>): (b: Record)
    ensures forall k :: r.Get(k).Some? ==> b.Get(k) == r.Get(k)
    ensures forall k :: r.Get(k).None? && k in cache ==> b.Get(k) == Some(cache[k])
    ensures forall k :: r.Get(k).None? && k !in cache ==> b.Get(k).None?
  {
    Record(
      Inherit(r.recipient, Recipient, cache),
      Inherit(r.alias, Alias, cache),
      Inherit(r.action, Action, cache),
      Inherit(r.date, Date, cache),
      Inherit(r.rhost, RHost, cache),
      Inherit(r.lhost, LHost, cache),
      Inherit(r.spec, Spec, cache),
      Inherit(r.status, Status, cache),
      Inherit(r.reason, Reason, cache),
      Inherit(r.command, Command, cache),
      Inherit(r.replycode, ReplyCode, cache),
      Inherit(r.diagnosis, Diagnosis, cache),
      Inherit(r.alterrors, AlterErrors, cache))
  }

  /** The loop that turns an out-of-band recipient list into records: each entry
      goes into the last record, and a blank record is appended after every
      entry but the last. */
  function FillFromList(rs: seq<Record>, entries: seq<string>, n: nat): (r: seq<Record>)
    requires |rs| >= 1
    requires |entries| > 0 ==> |rs| - 1 + |entries| == n
    ensures |entries| > 0 ==> |r| == n
    ensures |entries| > 0 ==> r[..|rs| - 1] == rs[..|rs| - 1]
    ensures |entries| > 0 ==> r[|rs| - 1] == rs[|rs| - 1].(recipient := Some(entries[0]))
    ensures |entries| > 0 ==>
      forall j | |rs| <= j < n :: r[j] == Blank.(recipient := Some(entries[j - |rs| + 1]))
    decreases |entries|
  {
    if |entries| == 0 then rs
    else
      var filled := rs[..|rs| - 1] + [rs[|rs| - 1].(recipient := Some(entries[0]))];
      if |filled| == n then FillFromList(filled, entries[1..], n)
      else FillFromList(filled + [Blank], entries[1..], n)
  }

  /** The header map an adapter receives. From, Subject and the list of
      Received headers are always present; the others may be absent. */
  datatype Headers = Headers(
    from: string,
    subject: string,
    received: seq<string>,
    others: map<string, string>)

  /** `mhead[name]` for a header other than From, Subject and Received. */
  function Header(h: Headers, name: string): Option<string> {
    if name in h.others then Some(h.others[name]) else None
  }

  /** The `NoMethodError`s the adapters can raise on nil. */
  datatype Crash =
    | NilComparedWithInteger   // `nil > 1`
    | NilCurrentRecord         // the current-record variable is still nil
    | NilDiagnosis             // a method called on a nil diagnosis
    | NilStatus                // `empty?` called on a nil status
    | NilRecipient             // `empty?` called on a nil recipient

  /** A value, or the exception raised while computing it. */
  datatype Result<T> = Success(value: T) | Failure(crash: Crash)

  /** `rs.each` over a step that can raise: every record's result, or the
      exception of the first record whose step raises. */
  function MapChecked(f: Record -> Result<Record>, rs: seq<Record>): (r: Result<seq<Record>>)
    ensures r.Success? <==> forall i | 0 <= i < |rs| :: f(rs[i]).Success?
    ensures r.Success? ==> |r.value| == |rs| && forall i | 0 <= i < |rs| :: r.value[i] == f(rs[i]).value
    ensures r.Failure? ==> exists i | 0 <= i < |rs| ::
      f(rs[i]) == Failure(r.crash) && forall j | 0 <= j < i :: f(rs[j]).Success?
    decreases |rs|
  {
    if |rs| == 0 then Success([])
    else
      match f(rs[0])
      case Failure(c) => Failure(c)
      case Success(q) =>
        var rest := MapChecked(f, rs[1..]);
        assert forall i | 1 <= i < |rs| :: rs[1..][i - 1] == rs[i];
        match rest
        case Failure(c) =>
          var k :| 0 <= k < |rs| - 1 && f(rs[1..][k]) == Failure(c) && forall j | 0 <= j < k :: f(rs[1..][j]).Success?;
          assert f(rs[k + 1]) == Failure(c);
          Failure(c)
        case Success(qs) => Success([q] + qs)
  }

  /** What `inquire` returns: nil, the records and the original message, or an exception. */
  datatype Outcome =
    | Declined
    | Parsed(records: seq<Record>, rfc822: string)
    | Raised(crash: Crash)
}

=== FILE: sendgrid.dfy ===
/** `Sisimai::Lhost::SendGrid.inquire`: an RFC 3464 report that opens after a
    fixed sentence, with an untyped Diagnostic-Code fallback, SMTP-command lines
    outside the fields, and a pseudo status derived from the reply code. */
module SendGrid {
  import opened Options
  import opened Text
  import opened Records
  import opened Collaborators
  import opened Dsn

  const Boundaries: seq<string> := ["Content-Type: message/rfc822"]

  /** The line that opens the report; it must match exactly. */
  const StartMessage := "This is an automatically generated message from SendGrid."

  /** The head of a Diagnostic-Code line without a diagnostic type. */
  const UntypedPrefix := "Diagnostic-Code: "

  // ---------------------------------------------------------------------------
  // Recognition (lines 20-22)

  predicate Recognizes(h: Headers) {
    && Header(h, "return-path") == Some("<apps@sendgrid.net>")
    && h.subject == "Undelivered Mail Returned to Sender"
  }

  // ---------------------------------------------------------------------------
  // Scan (lines 28-119)

  /** The shared fold plus `thecommand`, the last SMTP command seen. */
  datatype Scan = Scan(fold: Fold, command: string)

  const Initial := Scan(Start, "")

  /** `opens` for this adapter: the cursor moves on the exact start sentence. */
  predicate Opens(e: string) {
    e == StartMessage
  }

  /** `e[e.index(':') + 2, e.size]` on a line starting with 'Diagnostic-Code: ':
      the text after the field name's colon and the space that follows it. */
  function UntypedDiagnosis(e: string): (r: string)
    requires StartsWith(e, UntypedPrefix)
    ensures IndexOf(e, ":") == Some(15) && r == e[15 + 2..]
    ensures e == UntypedPrefix + r
  {
    FirstColon(e);
    e[17..]
  }

  lemma FirstColon(e: string)
    requires StartsWith(e, UntypedPrefix)
    ensures IndexOf(e, ":") == Some(15)
  {
    assert OccursAt(e, ":", 15) by { assert e[15..16] == UntypedPrefix[15..16]; }
    var name := "Diagnostic-Code";
    assert ':' !in name && UntypedPrefix[..15] == name;
    forall j | 0 <= j < 15 ensures !OccursAt(e, ":", j) {
      assert e[j..j + 1][0] == e[j] == name[j];
      assert name[j] in name;
    }
  }

  /** An indented line that is neither an RFC 3464 field nor an SMTP-command line. */
  predicate ContinuationLine(env: Env, e: string) {
    StartsWith(e, " ") && env.fieldLevel(e).None? && env.commandFind(e).None?
  }

  /** The SMTP command a line inside the report names, outside any field. */
  function CommandOf(env: Env, e: string): Option<string> {
    if e != "" && env.fieldLevel(e).None? then env.commandFind(e) else None
  }

  /** Lines 50-101: a line RFC1894.match accepts. `v` is bound to the current
      record whether or not RFC1894.field can read the line. */
  function FieldLine(env: Env, f: Fold, e: string): (t: Fold)
    requires Sane(f) && e != "" && env.fieldLevel(e).Some?
    ensures Sane(t) && t.reading == f.reading && t.prev == f.prev && t.bound
    ensures FinalRecipientOf(env, e).Some? ==>
      && Column(t.records) == Push(Column(f.records), FinalRecipientOf(env, e))
      && t.recipients == f.recipients + 1
    ensures FinalRecipientOf(env, e).None? ==>
      Column(t.records) == Column(f.records) && t.recipients == f.recipients
    // Lines 83-93: a date field changes nothing the adapter returns.
    ensures env.field(e).Some? && env.field(e).value.kind == KindDate ==>
      t.records == f.records && t.cache == f.cache
    // Lines 62-82, 94-100: a readable field does what its kind does, and every
    // table field is cached, since any match level is truthy.
    ensures env.field(e).Some? && env.field(e).value.kind == KindAddr ==>
      t == AddressField(f.(bound := true), env.field(e).value)
    ensures env.field(e).Some? && env.field(e).value.kind == KindCode ==>
      t == CodeField(f.(bound := true), env.field(e).value)
    ensures env.field(e).Some? && env.field(e).value.kind == KindOther ==>
      t == TableField(env, f.(bound := true), env.field(e).value, true)
    ensures env.field(e).None? ==> t == UntypedField(f.(bound := true), e)
  {
    var g := f.(bound := true);
    match env.field(e)
    case None => UntypedField(g, e)
    case Some(o) =>
      if o.kind == KindAddr then
        assert FinalRecipientOf(env, e) == if o.name == FinalRecipient then Some(o.value) else None;
        var t := AddressField(g, o);
        t
      else
        assert FinalRecipientOf(env, e).None?;
        var t := if o.kind == KindCode then CodeField(g, o)
                 else if o.kind == KindDate then g
                 else TableField(env, g, o, true);
        assert Column(t.records) == Column(f.records) && t.recipients == f.recipients;
        t
  }

  /** Lines 56-61: a field line RFC1894.field cannot read sets the diagnosis
      when it is an untyped Diagnostic-Code, and changes nothing otherwise. */
  function UntypedField(f: Fold, e: string): (t: Fold)
    requires Sane(f)
    ensures Sane(t) && t.reading == f.reading && t.prev == f.prev && t.bound == f.bound && t.cache == f.cache
    ensures Column(t.records) == Column(f.records) && t.recipients == f.recipients
    ensures |t.records| == |f.records| && EarlierKept(f.records, t.records)
    ensures StartsWith(e, UntypedPrefix) ==>
      Current(t.records) == Current(f.records).(diagnosis := Some(UntypedDiagnosis(e)))
    ensures !StartsWith(e, UntypedPrefix) ==> t == f
  {
    if StartsWith(e, UntypedPrefix) then SetDiagnosis(f, Some(UntypedDiagnosis(e))) else f
  }

  /** Lines 102-118: any other line. `s.fold.prev` is still the line before `e`. */
  function OtherLine(env: Env, s: Scan, e: string): (t: Result<Scan>)
    requires Sane(s.fold) && e != "" && env.fieldLevel(e).None?
    ensures t.Success? ==>
      && Sane(t.value.fold) && t.value.fold.reading == s.fold.reading
      && Column(t.value.fold.records) == Column(s.fold.records)
      && t.value.fold.recipients == s.fold.recipients
      && t.value.command == env.commandFind(e).GetOr(s.command)
    ensures t.Failure? ==> t.crash == NilCurrentRecord && !s.fold.bound
    ensures s.fold.bound && StartsWith(s.fold.prev, DiagnosticCode) && ContinuationLine(env, e) ==>
      t == Success(s.(fold := Continue(s.fold.(prev := e), e, env.sweep(e))))
    // Lines 107-109: an untyped Diagnostic-Code line sets the diagnosis of the
    // current record, and raises while there is none.
    ensures env.commandFind(e).None? && StartsWith(e, UntypedPrefix) ==>
      && (t.Failure? <==> !s.fold.bound)
      && (t.Success? ==>
            var rs := t.value.fold.records;
            && |rs| == |s.fold.records| && EarlierKept(s.fold.records, rs)
            && Current(rs) == Current(s.fold.records).(diagnosis := Some(UntypedDiagnosis(e))))
    // Lines 104-106, 112-113: a command line and a line that continues nothing
    // only move the lookback, and the first also sets the command.
    ensures env.commandFind(e).Some? ==> t == Success(Scan(s.fold.(prev := e), env.commandFind(e).value))
    ensures && env.commandFind(e).None? && !StartsWith(e, UntypedPrefix)
            && !(StartsWith(s.fold.prev, DiagnosticCode) && StartsWith(e, " ")) ==>
      t == Success(s.(fold := s.fold.(prev := e)))
  {
    var f := s.fold.(prev := e);
    match env.commandFind(e)
    case Some(cv) => Success(Scan(f, cv))
    case None =>
      DistinctHeads(e, " ", UntypedPrefix);
      if StartsWith(e, UntypedPrefix) then
        if !s.fold.bound then Failure(NilCurrentRecord)
        else Success(s.(fold := SetDiagnosis(f, Some(UntypedDiagnosis(e)))))
      else if StartsWith(s.fold.prev, DiagnosticCode) && StartsWith(e, " ") then
        if !s.fold.bound then Failure(NilCurrentRecord)
        else Success(s.(fold := Continue(f, e, env.sweep(e))))
      else Success(s.(fold := f))
  }

  /** One pass of the `while` loop (lines 37-119). The only exception is `v`
      still being nil when an untyped or continued Diagnostic-Code line needs it. */
  function Step(env: Env, s: Scan, e: string): (t: Result<Scan>)
    requires Sane(s.fold)
    ensures t.Success? ==> Sane(t.value.fold) && t.value.fold.reading == (s.fold.reading || Opens(e))
    ensures t.Failure? ==> t.crash == NilCurrentRecord && s.fold.reading && !s.fold.bound
    ensures !s.fold.reading ==> t == Success(s.(fold := s.fold.(reading := Opens(e), prev := e)))
    ensures t.Success? && s.fold.reading ==>
      && Column(t.value.fold.records) == (if FinalRecipientOf(env, e).Some?
                                          then Push(Column(s.fold.records), FinalRecipientOf(env, e))
                                          else Column(s.fold.records))
      && t.value.fold.recipients == s.fold.recipients + (if FinalRecipientOf(env, e).Some? then 1 else 0)
      && t.value.command == CommandOf(env, e).GetOr(s.command)
    // Lines 48-50: inside the report an empty line only moves the lookback, a
    // field line is read as a field, and any other line as a non-field line.
    ensures s.fold.reading && e == "" ==> t == Success(s.(fold := s.fold.(prev := e)))
    ensures s.fold.reading && e != "" && env.fieldLevel(e).Some? ==>
      t == Success(s.(fold := FieldLine(env, s.fold.(prev := e), e)))
    ensures s.fold.reading && e != "" && env.fieldLevel(e).None? ==> t == OtherLine(env, s, e)
  {
    var f := s.fold.(prev := e);
    if !s.fold.reading then Success(s.(fold := f.(reading := Opens(e))))
    else if e == "" then Success(s.(fold := f))
    else if env.fieldLevel(e).Some? then Success(s.(fold := FieldLine(env, f, e)))
    else OtherLine(env, s, e)
  }

  function ScanLines(env: Env, s: Scan, lines: seq<string>): (t: Result<Scan>)
    requires Sane(s.fold)
    ensures t.Success? ==> Sane(t.value.fold)
    ensures t.Failure? ==> t.crash == NilCurrentRecord
    decreases |lines|
  {
    if |lines| == 0 then Success(s)
    else match Step(env, s, lines[0])
      case Failure(c) => Failure(c)
      case Success(s1) => ScanLines(env, s1, lines[1..])
  }

  /** Reference definition: the command of the last line inside the report
      that names one, `c` when none does. */
  function LastCommand(env: Env, reading: bool, lines: seq<string>, c: string): string
    decreases |lines|
  {
    if |lines| == 0 then c
    else if !reading then LastCommand(env, Opens(lines[0]), lines[1..], c)
    else LastCommand(env, true, lines[1..], CommandOf(env, lines[0]).GetOr(c))
  }

  /** Without a crash, the scan rolls the report's Final-Recipient values into
      the recipient column, counts them, and keeps the last command named. */
  lemma {:induction false} ScanFollowsReport(env: Env, s: Scan, lines: seq<string>)
    requires Sane(s.fold)
    ensures ScanLines(env, s, lines).Success? ==>
      var t := ScanLines(env, s, lines).value;
      var addrs := FinalRecipients(env, Opens, s.fold.reading, lines);
      && Column(t.fold.records) == Roll(Column(s.fold.records), addrs)
      && t.fold.recipients == s.fold.recipients + |addrs|
      && t.command == LastCommand(env, s.fold.reading, lines, s.command)
    decreases |lines|
  {
    if |lines| > 0 {
      var e := lines[0];
      var t := Step(env, s, e);
      if t.Success? {
        ScanFollowsReport(env, t.value, lines[1..]);
        var rest := FinalRecipients(env, Opens, true, lines[1..]);
        if s.fold.reading && FinalRecipientOf(env, e).Some? {
          var a := Some(FinalRecipientOf(env, e).value);
          assert ([a] + rest)[0] == a && ([a] + rest)[1..] == rest;
        }
      }
    }
  }

  /** Every Final-Recipient field, and nothing else, yields a record: with at
      least one, the records hold exactly their values, in order. */
  lemma OneRecordPerFinalRecipient(env: Env, lines: seq<string>)
    requires ScanLines(env, Initial, lines).Success? && ScanLines(env, Initial, lines).value.fold.recipients > 0
    ensures Column(ScanLines(env, Initial, lines).value.fold.records) == FinalRecipients(env, Opens, false, lines)
  {
    ScanFollowsReport(env, Initial, lines);
    RollFromBlank(FinalRecipients(env, Opens, false, lines));
  }

  /** Lines 110-117: after a Diagnostic-Code line, every indented non-field line
      appends a space and its swept text to the current diagnosis, because each
      one is rewritten as a Diagnostic-Code line for the lookback of the next.
      Nothing else in the records changes. */
  lemma {:induction false} ContinuationsChain(env: Env, s: Scan, lines: seq<string>)
    requires Sane(s.fold) && s.fold.reading && s.fold.bound && StartsWith(s.fold.prev, DiagnosticCode)
    requires forall i | 0 <= i < |lines| :: ContinuationLine(env, lines[i])
    ensures ScanLines(env, s, lines).Success?
    ensures ScanLines(env, s, lines).value.fold.records == ContinuedRecords(env.sweep, s.fold.records, lines)
    decreases |lines|
  {
    if |lines| == 0 {
      NoContinuation(env.sweep, s.fold.records);
    } else {
      var e, rest := lines[0], lines[1..];
      var s1 := s.(fold := Continue(s.fold.(prev := e), e, env.sweep(e)));
      ContinueOnce(env, s, lines);
      ContinuationsChain(env, s1, rest);
      ChainedContinue(env.sweep, s.fold.records, lines);
    }
  }

  /** The first line of such a run: the scan goes on from the continued fold. */
  lemma ContinueOnce(env: Env, s: Scan, lines: seq<string>)
    requires Sane(s.fold) && s.fold.reading && s.fold.bound && StartsWith(s.fold.prev, DiagnosticCode)
    requires |lines| > 0 && ContinuationLine(env, lines[0])
    ensures var e := lines[0];
      ScanLines(env, s, lines) == ScanLines(env, s.(fold := Continue(s.fold.(prev := e), e, env.sweep(e))), lines[1..])
  {
    var e := lines[0];
    assert Step(env, s, e) == Success(s.(fold := Continue(s.fold.(prev := e), e, env.sweep(e))));
  }

  // ---------------------------------------------------------------------------
  // Post-processing (lines 122-144)

  /** Lines 124-131: the status a reply code and the diagnosis give. A
      three-character reply code sets the pseudo status `<first digit>.0.0`;
      '5.0.0' and '4.0.0' are then replaced by the status code the diagnosis
      carries, when it carries one. */
  function ReplyStatus(env: Env, status: Option<string>, replycode: string, d: Option<string>): (r: Option<string>)
    ensures |replycode| != 3 && status != Some("5.0.0") && status != Some("4.0.0") ==> r == status
    ensures |replycode| == 3 && replycode[0] != '5' && replycode[0] != '4' ==> r == Some(replycode[..1] + ".0.0")
    ensures |replycode| == 3 && (replycode[0] == '5' || replycode[0] == '4') ==>
      r == FindOpt(env.statusFind, d).Or(Some(replycode[..1] + ".0.0"))
    ensures |replycode| != 3 && (status == Some("5.0.0") || status == Some("4.0.0")) ==>
      r == FindOpt(env.statusFind, d).Or(status)
  {
    PseudoStatus(replycode);
    var s1 := if |replycode| == 3 then Some(replycode[..1] + ".0.0") else status;
    if s1 == Some("5.0.0") || s1 == Some("4.0.0") then FindOpt(env.statusFind, d).Or(s1) else s1
  }

  /** `replycode[0, 1] + '.0.0'` is '5.0.0' or '4.0.0' exactly when the reply
      code starts with that digit. */
  lemma PseudoStatus(replycode: string)
    ensures |replycode| == 3 ==> (replycode[..1] + ".0.0" == "5.0.0" <==> replycode[0] == '5')
    ensures |replycode| == 3 ==> (replycode[..1] + ".0.0" == "4.0.0" <==> replycode[0] == '4')
  {
    if |replycode| == 3 {
      var p := replycode[..1] + ".0.0";
      assert p[0] == replycode[0];
      assert replycode[0] == '5' ==> replycode[..1] == "5";
      assert replycode[0] == '4' ==> replycode[..1] == "4";
    }
  }

  /** Lines 133-140: `Action: expired` forces the reason 'expired', and a
      missing or pseudo ('.0.0') status gives way to `Status.code('expired')`
      when that finds a code. Any other action leaves both alone. */
  function Expire(env: Env, action: Option<string>, status: Option<string>, reason: Option<string>): (r: (Option<string>, Option<string>))
    ensures action != Some("expired") ==> r == (status, reason)
    ensures action == Some("expired") ==> r.1 == Some("expired")
    ensures action == Some("expired") && status.Some? && !EndsWith(status.value, ".0.0") ==> r.0 == status
    ensures action == Some("expired") && (status.None? || EndsWith(status.value, ".0.0")) ==>
      r.0 == env.statusCode(Some("expired"), false).Or(status)
  {
    if action != Some("expired") then (status, reason)
    else if status.None? || EndsWith(status.value, ".0.0") then
      (env.statusCode(Some("expired"), false).Or(status), Some("expired"))
    else (status, Some("expired"))
  }

  /** One record after the scan. `command` is the last command the scan saw. */
  function Finish(env: Env, e: Record, cache: map<Key, string>, command: string): (r: Record)
    ensures r.recipient == e.recipient && r.alias == e.alias && r.action == e.action && r.date == e.date
    ensures r.rhost == e.rhost && r.spec == e.spec && r.alterrors == e.alterrors
    ensures r.diagnosis == SweepOpt(env, e.diagnosis)
    ensures r.replycode == Some(FindOpt(env.replyFind, r.diagnosis).GetOr(""))
    ensures (r.status, r.reason) == Expire(env, e.action, ReplyStatus(env, e.status, r.replycode.value, r.diagnosis), e.reason)
    ensures r.lhost == Inherit(e.lhost, RHost, cache)
    ensures r.command == Some(command)
  {
    var d := SweepOpt(env, e.diagnosis);
    var rc := FindOpt(env.replyFind, d).GetOr("");
    var sr := Expire(env, e.action, ReplyStatus(env, e.status, rc, d), e.reason);
    e.(diagnosis := d, replycode := Some(rc), status := sr.0, reason := sr.1,
       lhost := Inherit(e.lhost, RHost, cache), command := Some(command))
  }

  /** A status already in the record survives unless it is a pseudo code or
      the reply code overrides it. */
  lemma ExistingStatusKept(env: Env, e: Record, cache: map<Key, string>, command: string)
    requires e.status.Some? && !EndsWith(e.status.value, ".0.0")
    requires |FindOpt(env.replyFind, SweepOpt(env, e.diagnosis)).GetOr("")| != 3
    ensures Finish(env, e, cache, command).status == e.status
  {
    assert EndsWith("5.0.0", ".0.0") && EndsWith("4.0.0", ".0.0");
  }

  function FinishAll(env: Env, rs: seq<Record>, cache: map<Key, string>, command: string): (r: seq<Record>)
    ensures |r| == |rs| && Column(r) == Column(rs)
    ensures forall i | 0 <= i < |rs| :: r[i] == Finish(env, rs[i], cache, command)
    ensures forall i | 0 <= i < |rs| :: r[i].command == Some(command) && r[i].replycode.Some?
  {
    MapRecords(q => Finish(env, q, cache, command), rs)
  }

  // ---------------------------------------------------------------------------
  // inquire

  /** The scan of the body's lines before the original message. */
  function Scanned(env: Env, body: string): Result<Scan> {
    ScanLines(env, Initial, BodyLines(env, body, Boundaries).0)
  }

  /** `Sisimai::Lhost::SendGrid.inquire(mhead, mbody)`. An exception comes out
      exactly when the scan raises; the post-processing never does. */
  function Inquire(env: Env, h: Headers, body: string): (o: Outcome)
    ensures !Recognizes(h) ==> o == Declined
    ensures Recognizes(h) ==> (o.Raised? <==> Scanned(env, body).Failure?)
    ensures o.Raised? ==> o.crash == NilCurrentRecord
    ensures Recognizes(h) && Scanned(env, body).Success? ==>
      (o.Declined? <==> Scanned(env, body).value.fold.recipients == 0)
    ensures o.Parsed? ==>
      && Scanned(env, body).Success?
      && Column(o.records) == Column(Scanned(env, body).value.fold.records)
      && forall i | 0 <= i < |o.records| :: o.records[i].command == Some(Scanned(env, body).value.command)
    ensures o.Parsed? ==>
      var s := Scanned(env, body).value;
      o.records == FinishAll(env, s.fold.records, s.fold.cache, s.command)
  {
    if !Recognizes(h) then Declined
    else
      var (lines, rfc822) := BodyLines(env, body, Boundaries);
      match ScanLines(env, Initial, lines)
      case Failure(c) => Raised(c)
      case Success(s) =>
        if s.fold.recipients == 0 then Declined
        else Parsed(FinishAll(env, s.fold.records, s.fold.cache, s.command), rfc822)
  }

  /** Lines 63-78 and 104-106 through to the result: one record per
      Final-Recipient field of the report, in order, and every record carries
      the last SMTP command named in the report ('' when none is). */
  lemma ParsedRecords(env: Env, h: Headers, body: string)
    requires Inquire(env, h, body).Parsed?
    ensures var o := Inquire(env, h, body);
      var lines := BodyLines(env, body, Boundaries).0;
      && Column(o.records) == FinalRecipients(env, Opens, false, lines)
      && forall i | 0 <= i < |o.records| :: o.records[i].command == Some(LastCommand(env, false, lines, ""))
  {
    var lines := BodyLines(env, body, Boundaries).0;
    ScanFollowsReport(env, Initial, lines);
    OneRecordPerFinalRecipient(env, lines);
  }
}

=== FILE: tables.dfy ===
/** Ordered keyword tables and the SMTP-command patterns: the two first-match
    searches every adapter's classification step is built from. */
module Tables {
  import opened Options
  import opened Text

  /** `words.any? { |a| text.include?(a) }` */
  predicate AnyContained(text: string, words: seq<string>) {
    exists i | 0 <= i < |words| :: Contains(text, words[i])
  }

  /** A Ruby hash literal from key to keywords, in declaration order. */
  type Table = seq<(string, seq<string>)>

  /** Entry `j` is the first entry, in declaration order, with a keyword in `text`. */
  predicate FirstHit(table: Table, text: string, j: int) {
    && 0 <= j < |table|
    && AnyContained(text, table[j].1)
    && forall i | 0 <= i < j :: !AnyContained(text, table[i].1)
  }

  function FirstFrom(table: Table, text: string, k: nat): (r: Option<string>)
    requires k <= |table|
    ensures r.None? <==> forall j | k <= j < |table| :: !AnyContained(text, table[j].1)
    ensures r.Some? ==> exists j | k <= j < |table| ::
      && AnyContained(text, table[j].1)
      && (forall i | k <= i < j :: !AnyContained(text, table[i].1))
      && r.value == table[j].0
    decreases |table| - k
  {
    if k == |table| then None
    else if AnyContained(text, table[k].1) then Some(table[k].0)
    else FirstFrom(table, text, k + 1)
  }

  /** `table.each_key { |r| next unless table[r].any? { |a| text.include?(a) }; ... r }`:
      the key of the first entry with a keyword contained in `text`, nil when none has one. */
  function FirstMatch(table: Table, text: string): (r: Option<string>)
    ensures r.None? <==> forall j | 0 <= j < |table| :: !AnyContained(text, table[j].1)
    ensures r.Some? ==> exists j :: FirstHit(table, text, j) && r.value == table[j].0
  {
    FirstFrom(table, text, 0)
  }

  /** When two entries both have a keyword in the text, the one declared
      earlier decides, whatever the later one says. */
  lemma EarlierEntryWins(table: Table, text: string, j: int)
    requires FirstHit(table, text, j)
    ensures FirstMatch(table, text) == Some(table[j].0)
  {
    var r := FirstMatch(table, text);
    assert r.Some?;
    var k :| FirstHit(table, text, k) && r.value == table[k].0;
    assert k == j;
  }

  predicate IsLetter(c: char) {
    'A' <= c <= 'Z' || 'a' <= c <= 'z'
  }

  predicate AllLetters(s: string) {
    forall i | 0 <= i < |s| :: IsLetter(s[i])
  }

  /** A regular expression of the shape `(?:head1|head2|...)([A-Za-z]{4})`:
      alternative literal heads, tried in order, then four ASCII letters. */
  datatype CommandPattern = CommandPattern(heads: seq<string>)

  /** The capture when the pattern matches at position `i`: the first head,
      in order, that occurs at `i` and is followed by four letters. */
  function CaptureAt(s: string, heads: seq<string>, i: nat): (r: Option<string>)
    ensures r.Some? ==> |r.value| == 4 && AllLetters(r.value)
    decreases |heads|
  {
    if |heads| == 0 then None
    else
      var h := heads[0];
      if OccursAt(s, h, i) && i + |h| + 4 <= |s| && AllLetters(s[i + |h|..i + |h| + 4]) then
        var c := s[i + |h|..i + |h| + 4];
        Some(c)
      else CaptureAt(s, heads[1..], i)
  }

  /** The pattern matches at position `i`. */
  predicate MatchesAt(s: string, p: CommandPattern, i: nat) {
    CaptureAt(s, p.heads, i).Some?
  }

  /** `s.match(pattern)[1]` searched from position `i`: the capture at the
      leftmost position where the pattern matches. */
  function MatchFrom(s: string, p: CommandPattern, i: nat): (r: Option<string>)
    ensures r.Some? <==> exists j: nat | i <= j <= |s| :: MatchesAt(s, p, j)
    ensures r.Some? ==> exists j: nat | i <= j <= |s| ::
      && r == CaptureAt(s, p.heads, j)
      && forall k: nat | i <= k < j :: !MatchesAt(s, p, k)
    decreases |s| - i
  {
    if i > |s| then None
    else if MatchesAt(s, p, i) then CaptureAt(s, p.heads, i)
    else
      var r := MatchFrom(s, p, i + 1);
      assert forall j: nat | i <= j <= |s| && MatchesAt(s, p, j) :: i + 1 <= j;
      r
  }

  /** `s.match(pattern)`, the capture of the leftmost match. */
  function Match(s: string, p: CommandPattern): (r: Option<string>)
    ensures r.Some? ==> |r.value| == 4
  {
    MatchFrom(s, p, 0)
  }

  /** The first present value from index `k` on. */
  function FirstSomeFrom(ms: seq<Option<string>>, k: nat): (r: Option<string>)
    requires k <= |ms|
    ensures r.Some? <==> exists j | k <= j < |ms| :: ms[j].Some?
    ensures r.Some? ==> exists j | k <= j < |ms| ::
      && r == ms[j]
      && forall i | k <= i < j :: ms[i].None?
    decreases |ms| - k
  {
    if k == |ms| then None
    else if ms[k].Some? then ms[k]
    else FirstSomeFrom(ms, k + 1)
  }

  /** `patterns.each { |r| if cv = s.match(r) then return cv[1].upcase }`:
      the upper-cased four-letter capture of the first pattern, in order,
      that matches anywhere in `s`. */
  function FirstCommand(s: string, patterns: seq<CommandPattern>): (r: Option<string>)
    ensures r.Some? <==> exists j | 0 <= j < |patterns| :: Match(s, patterns[j]).Some?
    ensures r.Some? ==> exists j | 0 <= j < |patterns| ::
      && Match(s, patterns[j]).Some?
      && r == Some(Upcase(Match(s, patterns[j]).value))
      && forall i | 0 <= i < j :: Match(s, patterns[i]).None?
  {
    var ms := seq(|patterns|, j requires 0 <= j < |patterns| => Match(s, patterns[j]));
    assert forall j | 0 <= j < |patterns| :: ms[j] == Match(s, patterns[j]);
    var m := FirstSomeFrom(ms, 0);
    if m.Some? then
      var j :| 0 <= j < |ms| && m == ms[j] && forall i | 0 <= i < j :: ms[i].None?;
      Some(Upcase(m.value))
    else None
  }
}

=== FILE: text.dfy ===
/** The handful of Ruby `String` operations the adapters rely on, written out
    over `seq<char>`. Character classes are ASCII; Ruby's Unicode case mapping
    is not modelled. */
module Text {
  import opened Options

  predicate StartsWith(s: string, p: string) {
    |p| <= |s| && s[..|p|] == p
  }

  lemma ConcatAssoc(a: string, b: string, c: string)
    ensures a + b + c == a + (b + c)
  {
  }

  /** A string cannot start with two prefixes whose first characters differ. */
  lemma DistinctHeads(s: string, p: string, q: string)
    requires |p| > 0 && |q| > 0 && p[0] != q[0]
    ensures StartsWith(s, p) ==> !StartsWith(s, q)
  {
    if StartsWith(s, p) && |q| <= |s| {
      assert s[..|q|][0] == s[0] == s[..|p|][0];
    }
  }

  predicate EndsWith(s: string, p: string) {
    |p| <= |s| && s[|s| - |p|..] == p
  }

  predicate OccursAt(s: string, p: string, i: int) {
    0 <= i && i + |p| <= |s| && s[i..i + |p|] == p
  }

  /** Ruby's `s.include?(p)`. */
  predicate Contains(s: string, p: string) {
    exists i | 0 <= i <= |s| - |p| :: OccursAt(s, p, i)
  }

  /** Ruby's `s.index(p, from)`: the first occurrence at or after `from`, nil when there is none. */
  function IndexFrom(s: string, p: string, from: nat): (r: Option<nat>)
    ensures r.Some? ==> from <= r.value && OccursAt(s, p, r.value)
    ensures r.Some? ==> forall j | from <= j < r.value :: !OccursAt(s, p, j)
    ensures r.None? ==> forall j | from <= j :: !OccursAt(s, p, j)
    decreases |s| - from
  {
    if from + |p| > |s| then None
    else if s[from..from + |p|] == p then Some(from)
    else IndexFrom(s, p, from + 1)
  }

  /** Ruby's `s.index(p)`. */
  function IndexOf(s: string, p: string): (r: Option<nat>)
    ensures r.Some? <==> Contains(s, p)
    ensures r.Some? ==> OccursAt(s, p, r.value) && forall j | 0 <= j < r.value :: !OccursAt(s, p, j)
  {
    var r := IndexFrom(s, p, 0);
    assert r.Some? ==> r.value <= |s| - |p|;
    r
  }

  /** Ruby's `s.rindex(p)` searched downwards from position `i`. */
  function RIndexFrom(s: string, p: string, i: int): (r: Option<nat>)
    ensures r.Some? ==> r.value <= i && OccursAt(s, p, r.value)
    ensures r.Some? ==> forall j | r.value < j <= i :: !OccursAt(s, p, j)
    ensures r.None? ==> forall j | j <= i :: !OccursAt(s, p, j)
    decreases i + 1
  {
    if i < 0 then None
    else if OccursAt(s, p, i) then Some(i)
    else RIndexFrom(s, p, i - 1)
  }

  /** Ruby's `s.rindex(p)`: the last occurrence, nil when there is none. */
  function RIndexOf(s: string, p: string): (r: Option<nat>)
    ensures r.Some? <==> Contains(s, p)
    ensures r.Some? ==> OccursAt(s, p, r.value) && forall j | r.value < j :: !OccursAt(s, p, j)
  {
    RIndexFrom(s, p, |s| - |p|)
  }

  /** Ruby's `s[start, len]` for a non-negative start: nil when the start lies
      beyond the end or the length is negative, otherwise the clipped substring. */
  function Slice(s: string, start: nat, len: int): (r: Option<string>)
    ensures r.Some? <==> start <= |s| && len >= 0
    ensures r.Some? ==> start + |r.value| <= |s| && s[start..start + |r.value|] == r.value
    ensures r.Some? ==> |r.value| == if start + len <= |s| then len else |s| - start
  {
    if start > |s| || len < 0 then None
    else Some(s[start..if start + len <= |s| then start + len else |s|])
  }

  /** The fields of `s` between occurrences of `c`, empty fields included. */
  function Fields(s: string, c: char): (r: seq<string>)
    ensures |r| >= 1
    ensures forall i | 0 <= i < |r| :: c !in r[i]
    decreases |s|
  {
    if |s| == 0 then [""]
    else
      var rest := Fields(s[1..], c);
      if s[0] == c then [""] + rest else [[s[0]] + rest[0]] + rest[1..]
  }

  /** Puts fields back together with `c` between them. */
  function Join(fs: seq<string>, c: char): string
    requires |fs| >= 1
    decreases |fs|
  {
    if |fs| == 1 then fs[0] else fs[0] + [c] + Join(fs[1..], c)
  }

  lemma {:induction false} JoinFields(s: string, c: char)
    ensures Join(Fields(s, c), c) == s
    decreases |s|
  {
    if |s| > 0 {
      var rest := Fields(s[1..], c);
      JoinFields(s[1..], c);
      if s[0] == c {
        assert Fields(s, c) == [""] + rest;
        assert ([""] + rest)[1..] == rest;
        assert Join(Fields(s, c), c) == "" + [c] + Join(rest, c);
        assert s == [s[0]] + s[1..];
      } else {
        var fs := Fields(s, c);
        assert fs == [[s[0]] + rest[0]] + rest[1..];
        if |rest| == 1 {
          assert Join(fs, c) == [s[0]] + rest[0];
          assert s == [s[0]] + s[1..];
        } else {
          assert fs[1..] == rest[1..];
          assert Join(rest, c) == rest[0] + [c] + Join(rest[1..], c);
          assert Join(fs, c) == [s[0]] + rest[0] + [c] + Join(rest[1..], c);
          assert s == [s[0]] + s[1..];
        }
      }
    }
  }

  function DropTrailingEmpty(fs: seq<string>): (r: seq<string>)
    ensures |r| <= |fs| && r == fs[..|r|]
    ensures |r| == 0 || r[|r| - 1] != ""
    ensures forall i | |r| <= i < |fs| :: fs[i] == ""
  {
    if |fs| == 0 then []
    else if fs[|fs| - 1] == "" then DropTrailingEmpty(fs[..|fs| - 1])
    else fs
  }

  /** Ruby's `s.split(c)` for a one-character separator: the fields between
      separators, with trailing empty fields removed. */
  function Split(s: string, c: char): (r: seq<string>)
    ensures |r| <= |Fields(s, c)| && r == Fields(s, c)[..|r|]
    ensures |r| == 0 || r[|r| - 1] != ""
    ensures forall i | 0 <= i < |r| :: c !in r[i]
  {
    DropTrailingEmpty(Fields(s, c))
  }

  /** Ruby's String whitespace, as used by `lstrip`/`rstrip`. */
  predicate IsRubySpace(ch: char) {
    ch == ' ' || ch == '\t' || ch == '\n' || ch == '\U{B}' || ch == '\U{C}' || ch == '\r' || ch == '\0'
  }

  /** The regular-expression class `[\s\t]`. */
  predicate IsRegexSpace(ch: char) {
    ch == ' ' || ch == '\t' || ch == '\n' || ch == '\U{B}' || ch == '\U{C}' || ch == '\r'
  }

  predicate AllOf(s: string, sp: char -> bool) {
    forall i | 0 <= i < |s| :: sp(s[i])
  }

  /** Removes the leading characters of class `sp`. */
  function DropLeading(s: string, sp: char -> bool): (r: string)
    ensures |r| <= |s| && r == s[|s| - |r|..]
    ensures AllOf(s[..|s| - |r|], sp)
    ensures |r| == 0 || !sp(r[0])
    decreases |s|
  {
    if |s| > 0 && sp(s[0]) then DropLeading(s[1..], sp) else s
  }

  /** Removes the trailing characters of class `sp`. */
  function DropTrailing(s: string, sp: char -> bool): (r: string)
    ensures |r| <= |s| && r == s[..|r|]
    ensures AllOf(s[|r|..], sp)
    ensures |r| == 0 || !sp(r[|r| - 1])
    decreases |s|
  {
    if |s| > 0 && sp(s[|s| - 1]) then DropTrailing(s[..|s| - 1], sp) else s
  }

  /** Ruby's `s.lstrip` followed by `rstrip`. */
  function Strip(s: string): string {
    DropTrailing(DropLeading(s, IsRubySpace), IsRubySpace)
  }

  function Lower(ch: char): char {
    if 'A' <= ch <= 'Z' then (ch as int + 32) as char else ch
  }

  function Upper(ch: char): char {
    if 'a' <= ch <= 'z' then (ch as int - 32) as char else ch
  }

  /** Ruby's `downcase`, ASCII letters only. */
  function Downcase(s: string): (r: string)
    ensures |r| == |s|
  {
    seq(|s|, i requires 0 <= i < |s| => Lower(s[i]))
  }

  /** Ruby's `upcase`, ASCII letters only. */
  function Upcase(s: string): (r: string)
    ensures |r| == |s|
  {
    seq(|s|, i requires 0 <= i < |s| => Upper(s[i]))
  }

  /** Ruby's `s.tr(a, b)` for single characters. */
  function Replace(s: string, a: char, b: char): (r: string)
    ensures |r| == |s|
    ensures forall i | 0 <= i < |s| :: s[i] != a ==> r[i] == s[i]
    ensures a != b ==> forall i | 0 <= i < |r| :: r[i] != a
  {
    seq(|s|, i requires 0 <= i < |s| => if s[i] == a then b else s[i])
  }

  /** Ruby's `s[0, 1].to_i`: the value of a leading decimal digit, 0 otherwise. */
  function FirstDigit(s: string): (d: nat)
    ensures d <= 9
  {
    if |s| > 0 && '0' <= s[0] <= '9' then s[0] as int - '0' as int else 0
  }

  lemma ContainsAppended(a: string, b: string, c: string)
    ensures Contains(a + b + c, b)
  {
    assert OccursAt(a + b + c, b, |a|);
  }

  lemma ContainsInside(s: string, p: string, i: int, q: string)
    requires OccursAt(s, p, i) && Contains(p, q)
    ensures Contains(s, q)
  {
    var k :| 0 <= k <= |p| - |q| && OccursAt(p, q, k);
    assert forall j | 0 <= j < |q| :: s[i + k + j] == p[k + j] == q[j];
    assert s[i + k..i + k + |q|] == q;
    assert OccursAt(s, q, i + k);
  }

  /** `p1 = s.index(m) || -1; p2 = s.index(' ', p1 + m.size) || -1; s[p1 + m.size, p2 - p1 - m.size] if p1 > -1`:
      the text between the first occurrence of the marker `m` and the next
      space, nil when the marker is missing or no space follows it. */
  function WordAfter(s: string, m: string): (r: Option<string>)
    ensures r.Some? ==> Contains(s, m)
    ensures r.Some? ==> ' ' !in r.value
    ensures r.Some? ==> exists p | 0 <= p <= |s| - |m| ::
      && OccursAt(s, m, p)
      && (forall j | 0 <= j < p :: !OccursAt(s, m, j))
      && OccursAt(s, r.value + " ", p + |m|)
    ensures r.None? && Contains(s, m) ==>
      forall p | 0 <= p <= |s| - |m| && OccursAt(s, m, p) :: ' ' !in s[p + |m|..]
  {
    match IndexOf(s, m)
    case None => None
    case Some(p1) =>
      match IndexFrom(s, " ", p1 + |m|)
      case None =>
        assert forall p | 0 <= p <= |s| - |m| && OccursAt(s, m, p) :: p1 <= p;
        NoSpaceFrom(s, p1 + |m|);
        None
      case Some(p2) =>
        var w := s[p1 + |m|..p2];
        assert s[p2..p2 + 1] == " ";
        SpaceFreeBefore(s, p1 + |m|, p2);
        assert s[p1 + |m|..p2 + 1] == w + " ";
        Some(w)
  }

  lemma NoSpaceFrom(s: string, from: nat)
    requires forall j | from <= j :: !OccursAt(s, " ", j)
    ensures forall q | from <= q <= |s| :: ' ' !in s[q..]
  {
    forall q | from <= q <= |s| ensures ' ' !in s[q..] {
      forall k | 0 <= k < |s| - q ensures s[q..][k] != ' ' {
        assert s[q + k..q + k + 1] == [s[q + k]];
        assert !OccursAt(s, " ", q + k);
      }
    }
  }

  lemma SpaceFreeBefore(s: string, from: nat, to: nat)
    requires from <= to <= |s|
    requires forall j | from <= j < to :: !OccursAt(s, " ", j)
    ensures ' ' !in s[from..to]
  {
    forall k | 0 <= k < to - from ensures s[from..to][k] != ' ' {
      assert s[from + k..from + k + 1] == [s[from + k]];
      assert !OccursAt(s, " ", from + k);
    }
  }
}
